=== FILE: README.md ===
# BQT result comparison, modelled in Dafny

This project models the result-comparison engine of the Bulk Query Tool
(BQT, the `SQLBulkQueryTool` repository). That engine runs when the tool is
in "compare" result mode. For each executed query it decides whether the
outcome agrees with the expected-results file. The outcome is either the
exception the query raised, or the result set or update count it returned.
Mismatches are reported as failures.

Modules, one per concern of the source:

| module | models |
|---|---|
| `XmlCompare` | `XMLCompareResults.compareResults`: routing by test status, exception or result-set comparison, no-results and update-count checks, the execution-time check |
| `ResultSets` | `compareResultSets`: identifiers, row counts, the divergence setting, the cell-by-cell loop that collects every failure |
| `CellCompare` | `compareResultColumn`, `assertStringsMatch`, `safeSubString`: the null, `BigDecimal` and `String` rules for one cell |
| `Identifiers` | `compareIdentifiers`, `getShortName` |
| `RowOrder` | `sortRecords` and the bookkeeping that reports sorted rows at their original positions |
| `ExceptionCompare` | `compareExceptions` in its four match modes; `compareStrTokens` |
| `Policies` | the static settings (`exceed_percent`, `exec_minumin_time`, `allowedDivergence`) as an explicit immutable value |
| `MultiFailures`, `Outcomes`, `Failures` | `MultiTestFailedException` and how the engine throws zero, one or many failures |
| `CompareMode` | `Compare.handleTestResult` and `isOrdered` |
| `Exclusion` | `ExclusionManager` |
| `Connections` | `ConnectionStrategy`: autocommit, environment, SQL-state translation |
| `StringHelper`, `Unicode` | `StringHelper`: `isEqual`, `createString`, `encodeHex`/`decodeHex`, `replaceXmlUnprintable` |
| `JavaStrings`, `Values`, `Wrappers` | Java strings as UTF-16 code units, cell values, `Option`/`Result` |

Modelling conventions:

- A Java `String` is a `seq` of 16-bit code units, so lengths and indices
  agree with Java.
- Every thrown `QueryTestFailedException` is a `Failure` value. It carries
  the data its message interpolates; the text itself is not rendered.
- Any other exception the code can raise (a null dereference, an index
  out of bounds, a bad number, an invalid regex) is an `Aborted` outcome
  with its reason.
- The static fields of `XMLCompareResults` become a `Policy` value that
  every operation takes and returns. They survive from one comparison to
  the next just as the static fields do.
- Code outside the core becomes a parameter:
  - the regex engines;
  - the row comparator `ListNestedSortComparator`;
  - the `TagNames.TYPE_MAP` lookup for "blob";
  - the number parsers;
  - the platform line separator;
  - `MessageFormat`'s verdict on a string-mismatch message;
  - the Unicode decimal-digit table `Character.digit` consults;
  - the platform file separator and the root prefix of a `File`;
  - each expected-results reader's `compareResults`.

Where the code and its documentation disagree, the model follows the code:

- `getFailures` past 2000 failures returns 2001 entries. The last one is the
  "(+N more failures)" placeholder.
- The execution-time check runs only after the cell comparison passed. A
  thrown failure skips it.
- The documentation of `createString` numbers keys from `{1}`. The code
  takes parameter `n` for key `{n}`, so `{0}` is the first parameter.
- The "contains" exception mode is inverted as written: the test fails when
  the expected text does occur in the actual message.

## Model

| member | source | states |
|---|---|---|
| `XmlCompare.CompareResults` | client/src/main/java/org/jboss/bqt/client/results/xml/XMLCompareResults.java:104-198 | An unexpected exception fails with the test's message. An expected exception marks the result "expected exception" and compares the raised class and message. Otherwise the results are converted and the routing goes in order: an expected-but-not-thrown exception with the actual row count, then the full result-set comparison when rows are expected, then "expected no results" when only actual rows exist, then the update count, compared only when the expected one is above -1. |
| `XmlCompare.RoutedExceptionHasClass` | client/src/main/java/org/jboss/bqt/client/results/xml/XMLCompareResults.java:116-154 | On the exception path the "expected exception but got none" failure cannot occur: a raised Java exception always has a class name. |
| `XmlCompare.TimeExceededOnlyAfterPass` | client/src/main/java/org/jboss/bqt/client/results/xml/XMLCompareResults.java:327-358 | A result is marked "execution time exceeded" only when rows were expected, the cell comparison passed and the timing rule fired. |
| `XmlCompare.NoRowsNoCount` | client/src/main/java/org/jboss/bqt/client/results/xml/XMLCompareResults.java:176-187 | With no expected rows, no actual result set and an expected update count of -1, the comparison passes and changes nothing. |
| `XmlCompare.ConvertResults` | client/src/main/java/org/jboss/bqt/client/results/xml/XMLCompareResults.java:231-286 | Without a result set only the update count is recorded, cast to `int`. With one, the holder gets its column names, type names and records, and the update count stays unset (-1). |
| `XmlCompare.ToInt32` | client/src/main/java/org/jboss/bqt/client/results/xml/XMLCompareResults.java:244 | The `(int)` cast lands in the signed 32-bit range, agrees with the input modulo 2^32, and keeps every value already in range. |
| `XmlCompare.ToInt32Wraps` | client/src/main/java/org/jboss/bqt/client/results/xml/XMLCompareResults.java:244 | An update count of 2^31 comes back as -2^31; 2^32 + 5 comes back as 5. |
| `XmlCompare.TooSlowMeans` | client/src/main/java/org/jboss/bqt/client/results/xml/XMLCompareResults.java:338-346 | A query is too slow exactly when the minimum is positive, the expected time exceeds it, and the actual time exceeds the expected time by more than the allowed percentage. |
| `XmlCompare.TimingDefaults` | client/src/main/java/org/jboss/bqt/client/results/xml/XMLCompareResults.java:63-64 | With the initial settings nothing is ever too slow. Once a positive minimum is set, the default percentage of -0.99999 flags every query slower than expected. |
| `XmlCompare.CheckTiming` | client/src/main/java/org/jboss/bqt/client/results/xml/XMLCompareResults.java:338-358 | A slow query gets status "execution time exceeded", plus the recorded timing failure and its detail message. Both carry the actual and expected times, the allowed fraction `exceedPercent / 100` and the allowance it grants. The difference of the two times is above that allowance. Counts and times are untouched. A query that is not slow is left unchanged. |
| `XmlCompare.CompareFull` | client/src/main/java/org/jboss/bqt/client/results/xml/XMLCompareResults.java:298-359 | Rows are sorted only for an unordered query with rows on both sides. The timing check runs only when the result-set comparison passed. Only the divergence part of the settings can change. |
| `ResultSets.ResultSetsOutcome` | client/src/main/java/org/jboss/bqt/client/results/xml/XMLCompareResults.java:645-734 | An identifier mismatch comes first, then too few rows, then too many rows. With equal counts the divergence setting is resolved (once) and the cell grid decides. |
| `ResultSets.ResultSetsPass` | client/src/main/java/org/jboss/bqt/client/results/xml/XMLCompareResults.java:645-734 | The comparison passes exactly when the identifiers pass, the row counts are equal, every record is as wide as the column list, and every cell matches under the resolved tolerance. The timing settings are never changed. |
| `ResultSets.CompareResultSets` | client/src/main/java/org/jboss/bqt/client/results/xml/XMLCompareResults.java:645-734 | The imperative comparison computes exactly the outcome and settings described by `ResultSetsOutcome`. |
| `ResultSets.GridOutcome` | client/src/main/java/org/jboss/bqt/client/results/xml/XMLCompareResults.java:693-733 | The walk aborts exactly when some cell stops it: a record narrower than the column list, or a string mismatch whose message `MessageFormat` rejects. It aborts with the error of the first such cell in row-major order. It passes exactly when every cell matches, and a single failure is thrown as a cell failure. |
| `ResultSets.GridOutcomeCollects` | client/src/main/java/org/jboss/bqt/client/results/xml/XMLCompareResults.java:711-733 | When the walk is not aborted, the outcome is the verdict on the failures of every mismatching cell, row after row. |
| `ResultSets.FirstAbortFound` | client/src/main/java/org/jboss/bqt/client/results/xml/XMLCompareResults.java:711-724 | The search for a stopping cell finds none exactly when every cell is quiet; otherwise it finds the error of the first stopping cell in row-major order. |
| `ResultSets.NoAbortWhenAllMatch` | client/src/main/java/org/jboss/bqt/client/results/xml/XMLCompareResults.java:711-724 | When every cell matches, no cell stops the walk, since a rejected message needs two different strings. |
| `ResultSets.CompareGrid` | client/src/main/java/org/jboss/bqt/client/results/xml/XMLCompareResults.java:693-733 | The nested row and column loops with the failure collector compute exactly `GridOutcome`: they return at the first index error or rejected message, and otherwise give the verdict on what they collected. |
| `ResultSets.CellOf` | client/src/main/java/org/jboss/bqt/client/results/xml/XMLCompareResults.java:718-720 | A failure names the 1-based row and column in the compared lists, and the 1-based positions of the two records in the lists as read. |
| `ResultSets.GridFailuresEmpty` | client/src/main/java/org/jboss/bqt/client/results/xml/XMLCompareResults.java:696-727 | The loop collects no failure exactly when every compared cell matches. |
| `ResultSets.RowFailuresEmpty` | client/src/main/java/org/jboss/bqt/client/results/xml/XMLCompareResults.java:711-726 | Within one row, no failure is collected exactly when every cell up to the bound matches. |
| `ResultSets.MismatchReported` | client/src/main/java/org/jboss/bqt/client/results/xml/XMLCompareResults.java:711-724 | When no cell stops the walk, every mismatching cell contributes its failure: a failure does not end the walk. |
| `ResultSets.RowMismatchReported` | client/src/main/java/org/jboss/bqt/client/results/xml/XMLCompareResults.java:711-724 | When no earlier cell of the row stops the walk, every mismatching cell of the row contributes its failure to that row's list. |
| `ResultSets.GridFailuresAreCells` | client/src/main/java/org/jboss/bqt/client/results/xml/XMLCompareResults.java:711-724 | Every collected failure is a cell failure whose row and column lie inside the compared grid. |
| `ResultSets.RowFailuresAreCells` | client/src/main/java/org/jboss/bqt/client/results/xml/XMLCompareResults.java:711-724 | Every failure of a row names that row and a column inside it. |
| `ResultSets.RowStep` | client/src/main/java/org/jboss/bqt/client/results/xml/XMLCompareResults.java:717-724 | Comparing one more cell adds its failure to the collector, if there is one, and leaves the collector as it was otherwise. |
| `CellCompare.CompareCell` | client/src/main/java/org/jboss/bqt/client/results/xml/XMLCompareResults.java:469-628 | A cell passes exactly when both values are null, or both are decimals within tolerance, or the values are equal. Null against non-null, decimal against decimal, string against non-string and any other difference each produce their own failure, located at the given cell. Two strings differing at an index whose message `MessageFormat` rejects give the `InvalidFormat` error instead, and that is the only error. |
| `CellCompare.ExtensionNeverRejected` | client/src/main/java/org/jboss/bqt/client/results/xml/XMLCompareResults.java:826-855 | When one string extends the other there is no location text, so the message is never rejected, whatever braces the strings hold. |
| `CellCompare.NullCells` | client/src/main/java/org/jboss/bqt/client/results/xml/XMLCompareResults.java:480-493 | Two nulls match. A null against any other value fails with a null mismatch in either direction. |
| `CellCompare.StringCellsExact` | client/src/main/java/org/jboss/bqt/client/results/xml/XMLCompareResults.java:588-615 | Two string cells match exactly when they are equal unit for unit, with no trimming and no case folding. |
| `CellCompare.NumericWithinTolerance` | client/src/main/java/org/jboss/bqt/client/results/xml/XMLCompareResults.java:537-547 | With a non-negative divergence d, two decimals pass exactly when they are at most d apart. |
| `CellCompare.NegativeDivergence` | client/src/main/java/org/jboss/bqt/client/results/xml/XMLCompareResults.java:540-546 | A negative configured divergence makes every numerically different pair fail. |
| `CellCompare.HalfDivergenceExample` | client/src/main/java/org/jboss/bqt/client/results/xml/XMLCompareResults.java:544-545 | With divergence 0.5, an expected 10.0 accepts 10.4 and rejects 10.6. |
| `CellCompare.FirstMismatch` | client/src/main/java/org/jboss/bqt/client/results/xml/XMLCompareResults.java:826-838 | The reported index is the first position, within the shorter length, where the strings differ. It is -1 when they agree on that whole length. |
| `CellCompare.NoMismatchMeansPrefix` | client/src/main/java/org/jboss/bqt/client/results/xml/XMLCompareResults.java:820-839 | Two different strings without a mismatch index differ in length, and one is a prefix of the other. |
| `CellCompare.StringFailure` | client/src/main/java/org/jboss/bqt/client/results/xml/XMLCompareResults.java:807-858 | A string mismatch keeps both texts in full, which the location text prints along with the two differing units at the reported first differing index. Short pairs (combined length at most 50) are shown whole as the message arguments. Longer pairs are cut by `safeSubString` as written, each excerpt at most 48 units. |
| `CellCompare.StringFailureDeterminesTexts` | client/src/main/java/org/jboss/bqt/client/results/xml/XMLCompareResults.java:830-834 | Two string failures at one cell are equal exactly when their expected and actual texts are, even when the pairs differ only outside the excerpt window. |
| `CellCompare.StringFailureIntended` | client/src/main/java/org/jboss/bqt/client/results/xml/XMLCompareResults.java:807-858 | The same failure, with the same full texts and index, but with the intended excerpts, each of which holds the mismatching unit. |
| `CellCompare.StringFailureAgrees` | client/src/main/java/org/jboss/bqt/client/results/xml/XMLCompareResults.java:843-848 | The failure as written equals the intended one for short pairs, and for long pairs whenever neither cut starts at index 0 or reaches the last unit of its text. |
| `CellCompare.StringFailureHidesLastUnit` | client/src/main/java/org/jboss/bqt/client/results/xml/XMLCompareResults.java:843-848 | For 30×"a"+"b" against 30×"a"+"c", the as-written excerpts coincide and the intended ones differ. |
| `CellCompare.SafeSubString` | client/src/main/java/org/jboss/bqt/client/results/xml/XMLCompareResults.java:860-882 | The excerpt is quoted text from the clamped start to the clamped end, end included. It starts with "...'" only when text before it was cut, and ends with "'..." only when text after it was cut. |
| `CellCompare.AsWrittenAgreesAwayFromEdges` | client/src/main/java/org/jboss/bqt/client/results/xml/XMLCompareResults.java:860-882 | The as-written excerpt equals the intended one exactly when the cut does not start at index 0 and ends before the last unit (or the text is empty). |
| `CellCompare.ExcerptShowsMismatch` | client/src/main/java/org/jboss/bqt/client/results/xml/XMLCompareResults.java:843-848 | The excerpt around a mismatch contains the mismatching unit, spans at most 40 units, and shows a short text whole. |
| `CellCompare.LastUnitDropped` | client/src/main/java/org/jboss/bqt/client/results/xml/XMLCompareResults.java:869-881 | As written, two 31-unit strings differing only in their last unit get identical excerpts. Corrected, they get different ones. |
| `CellCompare.PrefixMarkerAtZero` | client/src/main/java/org/jboss/bqt/client/results/xml/XMLCompareResults.java:861-868 | As written, an excerpt starting at index 0 is still marked "...'" as if text had been cut. Corrected, it starts with a bare quote. |
| `Identifiers.CompareIdentifiers` | client/src/main/java/org/jboss/bqt/client/results/xml/XMLCompareResults.java:750-794 | A different column count fails first. Otherwise the result passes exactly when every column passes, and else it is the verdict of the first column that does not. |
| `Identifiers.FirstFailingColumn` | client/src/main/java/org/jboss/bqt/client/results/xml/XMLCompareResults.java:762-793 | The column loop passes exactly when all remaining columns pass. Otherwise it reports the first column that does not. |
| `Identifiers.ColumnPasses` | client/src/main/java/org/jboss/bqt/client/results/xml/XMLCompareResults.java:762-792 | A column passes exactly when both type names exist, the short names agree ignoring case, and the types agree ignoring case once a "blob" type is remapped. |
| `Identifiers.FirstColumnNameMismatch` | client/src/main/java/org/jboss/bqt/client/results/xml/XMLCompareResults.java:772-776 | A name mismatch in the first column is reported with index 0 and the two short names. |
| `Identifiers.ShortName` | client/src/main/java/org/jboss/bqt/client/results/xml/XMLCompareResults.java:796-802 | The short name is a suffix of the identifier and contains no '.'. |
| `Identifiers.ShortNameOfQualified` | client/src/main/java/org/jboss/bqt/client/results/xml/XMLCompareResults.java:796-802 | A qualified name keeps exactly its last segment, and an unqualified name is kept whole. |
| `RowOrder.SortRecords` | client/src/main/java/org/jboss/bqt/client/results/xml/XMLCompareResults.java:374-388 | Sorting only reorders the records. An empty list or zero-width records are left as they are. |
| `RowOrder.KeyColumns` | client/src/main/java/org/jboss/bqt/client/results/xml/XMLCompareResults.java:377-378 | At most three key columns are used: the first record's width, capped at 3. |
| `RowOrder.SortBySorted` | client/src/main/java/org/jboss/bqt/client/results/xml/XMLCompareResults.java:384-385 | Under a comparator that is a total preorder, the sort yields an ordered permutation of the records. |
| `RowOrder.InsertSorted` | client/src/main/java/org/jboss/bqt/client/results/xml/XMLCompareResults.java:384-385 | Inserting into an ordered list keeps it ordered. |
| `RowOrder.Insert` | client/src/main/java/org/jboss/bqt/client/results/xml/XMLCompareResults.java:384-385 | Insertion adds exactly the one record: the multiset of records grows by it. |
| `RowOrder.SortBy` | client/src/main/java/org/jboss/bqt/client/results/xml/XMLCompareResults.java:384-385 | The sort keeps the multiset of records. |
| `RowOrder.Arrange` | client/src/main/java/org/jboss/bqt/client/results/xml/XMLCompareResults.java:310-326 | Both lists are sorted only for an unordered query with rows on both sides, and are left alone otherwise. Either way each list is a permutation of what was read. |
| `RowOrder.PermutedTagsPoint` | client/src/main/java/org/jboss/bqt/client/results/xml/XMLCompareResults.java:736-748 | In any reordering of the tagged records, each tag still names that record's position in the list as read, which is what the identity lookup finds. |
| `RowOrder.ArrangedTagsPoint` | client/src/main/java/org/jboss/bqt/client/results/xml/XMLCompareResults.java:308-336 | After sorting, every compared record can still be traced to its original position on both sides. |
| `ExceptionCompare.CompareExceptions` | client/src/main/java/org/jboss/bqt/client/results/xml/XMLCompareResults.java:390-450 | A null message aborts. A missing actual class fails with "got none", and a different class fails with both names. With the same class, the test passes exactly when the lower-cased messages satisfy the mode. An uncompilable regex aborts. |
| `ExceptionCompare.ModeOf` | client/src/main/java/org/jboss/bqt/client/results/xml/XMLCompareResults.java:416-449 | The flags are consulted in order: contains, then starts-with, then regex. With none set the messages must be equal. |
| `ExceptionCompare.ContainsInverted` | client/src/main/java/org/jboss/bqt/client/results/xml/XMLCompareResults.java:416-421 | In contains mode the test fails exactly when the actual message does contain the expected text. An empty expected text always fails. |
| `ExceptionCompare.CaseIgnored` | client/src/main/java/org/jboss/bqt/client/results/xml/XMLCompareResults.java:394-401 | Messages that differ only in ASCII case pass in the exact, prefix and (matching) regex modes. |
| `ExceptionCompare.CompareStrTokens` | client/src/main/java/org/jboss/bqt/client/results/xml/XMLCompareResults.java:452-467 | The token loop answers true exactly when the two texts split into the same token sequence. |
| `ExceptionCompare.LineEndsIgnored` | client/src/main/java/org/jboss/bqt/client/results/xml/XMLCompareResults.java:440-447 | Under a "\r\n" separator, the same message with Windows and with Unix line ends is accepted although the texts differ. |
| `ExceptionCompare.Split` | client/src/main/java/org/jboss/bqt/client/results/xml/XMLCompareResults.java:453-454 | Every token is non-empty and contains no separator unit. |
| `ExceptionCompare.SplitAtSeparator` | client/src/main/java/org/jboss/bqt/client/results/xml/XMLCompareResults.java:453-454 | Splitting at a separator splits the two sides independently. |
| `ExceptionCompare.SplitJoin` | client/src/main/java/org/jboss/bqt/client/results/xml/XMLCompareResults.java:453-454 | Splitting undoes joining for non-empty, separator-free tokens. |
| `Policies.Construct` | client/src/main/java/org/jboss/bqt/client/results/xml/XMLCompareResults.java:68-86 | A setting that is present and not blank overwrites its field. One that does not parse throws a number-format error, and the fields stay as written so far: a bad percent changes nothing, while a bad minimum keeps the new percent and the old minimum. An absent setting keeps the value left by an earlier construction. A positive percent never leaves a negative minimum. |
| `Policies.PercentSurvivesFailedMinimum` | client/src/main/java/org/jboss/bqt/client/results/xml/XMLCompareResults.java:73-84 | A positive percent with an unparsable minimum throws but keeps the percent, so the next construction without settings forces the minimum to 1. |
| `Policies.ConstructDefaults` | client/src/main/java/org/jboss/bqt/client/results/xml/XMLCompareResults.java:74-84 | A positive percent without a minimum sets the minimum to 1. Without settings the initial values stay, so the timing check is off. |
| `Policies.ResolveTolerance` | client/src/main/java/org/jboss/bqt/client/results/xml/XMLCompareResults.java:677-691 | A missing, empty or unparsable setting yields divergence zero. The "is zero" flag holds exactly when the divergence equals zero. |
| `Policies.WithTolerance` | client/src/main/java/org/jboss/bqt/client/results/xml/XMLCompareResults.java:677-691 | The divergence is resolved only when none is set yet. The timing fields are untouched. |
| `Policies.ToleranceResolvedOnce` | client/src/main/java/org/jboss/bqt/client/results/xml/XMLCompareResults.java:677 | Once resolved, the divergence ignores later settings. |
| `MultiFailures.AddFailure` | core/src/main/java/org/jboss/bqt/core/exception/MultiTestFailedException.java:72-77 | Every failure is counted, but only the first 2000 are stored. The collector invariant is preserved. |
| `MultiFailures.CollectKeepsPrefix` | core/src/main/java/org/jboss/bqt/core/exception/MultiTestFailedException.java:42-77 | After adding a list of failures, the total is its length and the stored failures are its first min(length, 2000) entries. |
| `MultiFailures.AddAllAppend` | core/src/main/java/org/jboss/bqt/core/exception/MultiTestFailedException.java:72-77 | Adding two lists in one go equals adding them one after the other. |
| `MultiFailures.CollectSnoc` | core/src/main/java/org/jboss/bqt/core/exception/MultiTestFailedException.java:72-77 | Collecting a list plus one failure equals collecting the list and then adding that failure. |
| `MultiFailures.GetFailures` | core/src/main/java/org/jboss/bqt/core/exception/MultiTestFailedException.java:97-107 | Up to the cap the stored failures come back unchanged. Past it, 2001 entries come back: the first 2000 and a "(+N more failures)" entry, N = total - 2000. The collector keeps that list. |
| `MultiFailures.GetFailuresIdempotent` | core/src/main/java/org/jboss/bqt/core/exception/MultiTestFailedException.java:97-107 | Calling it again changes nothing further. |
| `MultiFailures.CollectedFailures` | core/src/main/java/org/jboss/bqt/core/exception/MultiTestFailedException.java:97-107 | For collected failures the view is the list itself, or its first 2000 entries followed by the count of the rest. |
| `MultiFailures.CollectedMessage` | core/src/main/java/org/jboss/bqt/core/exception/MultiTestFailedException.java:85-91 | The message is the first failure's message with "(+n-1 more failures)", and it is unaffected by `getFailures`. |
| `Outcomes.Verdict` | client/src/main/java/org/jboss/bqt/client/results/xml/XMLCompareResults.java:729-733 | No failures pass, exactly one is thrown by itself, and more are thrown as the aggregate. |
| `Outcomes.CollectedVerdict` | client/src/main/java/org/jboss/bqt/client/results/xml/XMLCompareResults.java:729-733 | The verdict for a collected list: pass for none, the failure itself for one, and for more an aggregate counting all of them. |
| `Outcomes.VerdictOf` | client/src/main/java/org/jboss/bqt/client/results/xml/XMLCompareResults.java:729-733 | The verdict on a failure list. Many failures give an aggregate whose total is the list length and whose message is the first failure's with the count of the others. |
| `CompareMode.IsOrdered` | client/src/main/java/org/jboss/bqt/client/resultmode/Compare.java:126-134 | A missing query is unordered. Otherwise a query is ordered exactly when the lower-cased text first contains " order by " at a position after 0. |
| `CompareMode.IsOrderedMeans` | client/src/main/java/org/jboss/bqt/client/resultmode/Compare.java:129 | Ordered exactly when " order by " occurs past position 0 and not at position 0. |
| `CompareMode.OrderByAfterText` | client/src/main/java/org/jboss/bqt/client/resultmode/Compare.java:129 | Any query with text before " ORDER BY " that does not start with a space is ordered, whatever the case. |
| `CompareMode.ShortQueryUnordered` | client/src/main/java/org/jboss/bqt/client/resultmode/Compare.java:126-134 | "SELECT 1" is unordered. |
| `CompareMode.Collected` | client/src/main/java/org/jboss/bqt/client/resultmode/Compare.java:97-105 | An aggregate contributes its message and every entry of its failure view. A single failure contributes its own message and itself. |
| `CompareMode.ReportsFor` | client/src/main/java/org/jboss/bqt/client/resultmode/Compare.java:107-122 | No failure writes nothing. One failure writes the error file. More failures also write the messages file. |
| `CompareMode.HandleOne` | client/src/main/java/org/jboss/bqt/client/resultmode/Compare.java:91-122 | A caught failure sets the failure message. The status becomes "test exception" only when the failure list is non-empty. A pass leaves the result as the reader left it. An uncaught error writes nothing and is passed on. |
| `CompareMode.HandleTestResult` | client/src/main/java/org/jboss/bqt/client/resultmode/Compare.java:84-123 | A missing or empty reader list is rejected. Otherwise every reader is handled in turn. |
| `CompareMode.HandleAllErrors` | client/src/main/java/org/jboss/bqt/client/resultmode/Compare.java:91-123 | Across all readers, a runtime error always comes from some reader's comparison. Readers that never abort finish without error, and readers that always pass write no report. |
| `CompareMode.SingleFailureReported` | client/src/main/java/org/jboss/bqt/client/resultmode/Compare.java:102-116 | A single failure writes one error file, marks the test as an exception and records its message. |
| `CompareMode.ManyFailuresReported` | client/src/main/java/org/jboss/bqt/client/resultmode/Compare.java:97-121 | Many cell failures write the error file and the messages file with the (capped) failure view, mark the test, and record the aggregate message. |
| `CompareMode.PassLeavesStatus` | client/src/main/java/org/jboss/bqt/client/resultmode/Compare.java:107 | A passing comparison writes nothing and leaves the test result as the reader returned it. |
| `Exclusion.Validated` | client/src/main/java/org/jboss/bqt/client/ExclusionManager.java:53-85 | A null pattern throws. An uncompilable one is rejected as an invalid regex. A valid one is kept. |
| `Exclusion.FromProperty` | client/src/main/java/org/jboss/bqt/client/ExclusionManager.java:93-101 | An absent or empty property leaves the pattern unset. A non-empty one must compile and is kept. |
| `Exclusion.FromProperties` | client/src/main/java/org/jboss/bqt/client/ExclusionManager.java:92-102 | The manager is built exactly when both properties are acceptable, from the two resulting patterns. |
| `Exclusion.FromPatterns` | client/src/main/java/org/jboss/bqt/client/ExclusionManager.java:110-113 | The pattern constructor succeeds exactly when both patterns are present and compile. |
| `Exclusion.Anchor` | client/src/main/java/org/jboss/bqt/client/ExclusionManager.java:122 | The anchored pattern is the pattern wrapped in "^(" and ")$". |
| `Exclusion.MatchesPattern` | client/src/main/java/org/jboss/bqt/client/ExclusionManager.java:121-127 | A name matches when the whole name matches the anchored pattern. It throws if the anchored pattern does not compile. |
| `Exclusion.IsScenarioActive` | client/src/main/java/org/jboss/bqt/client/ExclusionManager.java:149-159 | A scenario is active exactly when it matches the include pattern (if any) and does not match the exclude pattern (if any). |
| `Exclusion.ExcludeWins` | client/src/main/java/org/jboss/bqt/client/ExclusionManager.java:149-159 | A name matched by both patterns is inactive. |
| `Exclusion.DefaultsKeepAll` | client/src/main/java/org/jboss/bqt/client/ExclusionManager.java:92-102 | Without properties nothing is included or excluded, and every scenario is active. |
| `Exclusion.InvalidIncludeRejected` | client/src/main/java/org/jboss/bqt/client/ExclusionManager.java:62-70 | An include property that does not compile makes construction fail with an invalid-regex error. |
| `Exclusion.FileName` | client/src/main/java/org/jboss/bqt/client/ExclusionManager.java:135 | The file name is a suffix of the path, no longer than the path after its root prefix, and contains no platform separator. |
| `Exclusion.FileNameOfChild` | client/src/main/java/org/jboss/bqt/client/ExclusionManager.java:135 | A separator-free name placed after a directory and the separator is the file name, for any separator and prefix. |
| `Exclusion.WindowsFileNames` | client/src/main/java/org/jboss/bqt/client/ExclusionManager.java:135 | With the Windows separator, C:\dir\s.properties and C:s.properties both name "s.properties". |
| `Exclusion.ScenarioName` | client/src/main/java/org/jboss/bqt/client/ExclusionManager.java:136-138 | A name ending in ".properties" loses exactly that suffix. Any other name is kept. |
| `Exclusion.ScenarioNameOfProperties` | client/src/main/java/org/jboss/bqt/client/ExclusionManager.java:136-138 | Stripping undoes appending ".properties". |
| `Exclusion.IsScenarioFileActive` | client/src/main/java/org/jboss/bqt/client/ExclusionManager.java:134-141 | A scenario file is active exactly when its name, without directories and without ".properties", is active. |
| `Connections.TranslateSqlException` | framework/src/main/java/org/jboss/bqt/framework/connection/ConnectionStrategy.java:106-113 | The cause is kept. The code is "server connection" exactly when the SQL state is present and starts with "08", and "db connection" otherwise, each with its fixed message. |
| `Connections.TranslationByStatePrefix` | framework/src/main/java/org/jboss/bqt/framework/connection/ConnectionStrategy.java:106-113 | For every error, only the first two units of the SQL state decide the code: "0" then "8" is the server code, and a missing state or one shorter than two units is the db code. |
| `Connections.TranslationExamples` | framework/src/main/java/org/jboss/bqt/framework/connection/ConnectionStrategy.java:109 | State 08001 is a server-connection error. State 28000 and a missing state are db-connection errors. |
| `Connections.NewStrategy` | framework/src/main/java/org/jboss/bqt/framework/connection/ConnectionStrategy.java:43-46 | A new strategy has autocommit on and an environment holding exactly the given properties. |
| `Connections.SetAutocommit` | framework/src/main/java/org/jboss/bqt/framework/connection/ConnectionStrategy.java:74-76 | Setting autocommit changes only the flag, and reading it back gives the value set. |
| `Connections.AutocommitRoundTrip` | framework/src/main/java/org/jboss/bqt/framework/connection/ConnectionStrategy.java:68-76 | Autocommit starts on, and it reads back the last value set. |
| `Connections.SetEnvironmentProperty` | framework/src/main/java/org/jboss/bqt/framework/connection/ConnectionStrategy.java:91-93 | A null key or value throws. Otherwise exactly that key gets the value, every other entry and the autocommit flag are unchanged. |
| `Connections.EnvironmentIsACopy` | framework/src/main/java/org/jboss/bqt/framework/connection/ConnectionStrategy.java:43-46 | The strategy's environment records a property set on it, so it then differs from the properties it was built from whenever the value changed. |
| `StringHelper.IsEqual` | core/src/main/java/org/jboss/bqt/core/util/StringHelper.java:56-63 | Null-safe equality: two nulls are equal, null differs from any string, and two strings are equal when their contents are; in short, equality of the optional values. |
| `StringHelper.CreateString` | core/src/main/java/org/jboss/bqt/core/util/StringHelper.java:80-124 | A null pattern is rejected. The first key, left to right, whose number is past `int` range gives a number-format error, and one whose parameter is a primitive array gives a class-cast error. Then a missing parameter, or more parameters than the highest key needs, is a mismatch. Otherwise every key `{n}` is replaced by parameter n: "null" for null, the bracketed list for an object array. |
| `StringHelper.FaultIsFirst` | core/src/main/java/org/jboss/bqt/core/util/StringHelper.java:92-110 | The fault reported is that of the first faulty key, every key before it passes, and there is none exactly when no key is faulty. |
| `StringHelper.ArrayParameters` | core/src/main/java/org/jboss/bqt/core/util/StringHelper.java:103-106 | "{0}" with an object array of "a" and null gives "[a, null]"; with a primitive array it gives the class-cast error. |
| `StringHelper.Scan` | core/src/main/java/org/jboss/bqt/core/util/StringHelper.java:92-123 | The matcher loop finds the keys left to right. It stops at the first key past `int` range or naming a primitive array, and otherwise produces the substituted text or the count error, as `CreateString` states. |
| `StringHelper.RequiredIsMaxKey` | core/src/main/java/org/jboss/bqt/core/util/StringHelper.java:92-96 | The required parameter count is one more than the largest key number, and zero exactly when the pattern has no key. |
| `StringHelper.NoKeysUnchanged` | core/src/main/java/org/jboss/bqt/core/util/StringHelper.java:73 | A pattern without keys, given no parameters, is returned as is. |
| `StringHelper.SubstituteKeys` | core/src/main/java/org/jboss/bqt/core/util/StringHelper.java:92-110 | With enough parameters, the substitution equals rendering each key by its parameter. |
| `StringHelper.EncodeHex` | core/src/main/java/org/jboss/bqt/core/util/StringHelper.java:142-155 | Byte `i` of the UTF-8 encoding prints as units `2i` and `2i + 1`: its high nibble, then its low one. Each unit is a digit or a lowercase `a`-`f`, as `%02x` prints them. |
| `StringHelper.BytesToHexDigits` | core/src/main/java/org/jboss/bqt/core/util/StringHelper.java:146-150 | Every byte prints as its two lowercase hexadecimal digits, in order and at its own position. |
| `StringHelper.EncodeHexExample` | core/src/test/java/org/jboss/bqt/core/util/TestStringHelper.java:52 | The "ě" of the test string "hello světe" encodes to "c49b". |
| `StringHelper.DecodeHex` | core/src/main/java/org/jboss/bqt/core/util/StringHelper.java:163-181 | Decoding fails exactly on an odd length or a character that is not a hex digit. A result is well-formed UTF-16. |
| `StringHelper.AsWrittenAgreesOnHexDigits` | core/src/main/java/org/jboss/bqt/core/util/StringHelper.java:163-181 | On text made of ASCII hex digits only, the as-written decoder and the intended one agree. |
| `StringHelper.NonAsciiDigitsAccepted` | core/src/main/java/org/jboss/bqt/core/util/StringHelper.java:172 | As written, the Arabic-Indic digits U+0661 U+0662 decode as the pair "12", and "1" with fullwidth "a" as "1a". Corrected, both are rejected. |
| `Unicode.EncodedSurrogateReplaced` | core/src/main/java/org/jboss/bqt/core/util/StringHelper.java:175 | The encoded form of a surrogate (ED A0 80) decodes to a single U+FFFD, cut short after two bytes it still takes both, and an overlong E0 80 80 gives three. |
| `StringHelper.StrictPairs` | core/src/main/java/org/jboss/bqt/core/util/StringHelper.java:168-173 | The pairs parse exactly when every character is a hex digit. |
| `StringHelper.HexRoundTrip` | core/src/main/java/org/jboss/bqt/core/util/StringHelper.java:142-173 | Every byte sequence survives printing as hex and parsing back. |
| `StringHelper.HexRoundTripString` | core/src/main/java/org/jboss/bqt/core/util/StringHelper.java:142-181 | Decoding the encoding gives back the string exactly when it is well-formed UTF-16. Lone surrogates do not come back. |
| `StringHelper.EmptyHex` | core/src/main/java/org/jboss/bqt/core/util/StringHelper.java:142-181 | The empty string encodes to and decodes from the empty text. |
| `StringHelper.SignedPairAccepted` | core/src/main/java/org/jboss/bqt/core/util/StringHelper.java:172 | As written "-1" decodes (to the replacement character). Corrected, it is rejected. |
| `StringHelper.ReplaceXmlUnprintable` | core/src/main/java/org/jboss/bqt/core/util/StringHelper.java:131-135 | Length is kept. Unit `i` is kept exactly when it is an XML 1.0 character on its own or half of a surrogate pair; otherwise it becomes U+FFFD. This holds position by position, in mixed strings too. |
| `StringHelper.MixedStringFiltered` | core/src/main/java/org/jboss/bqt/core/util/StringHelper.java:131-135 | In "a\u0001" only the control character is replaced. Of a lone high surrogate followed by a pair, only the lone one is replaced. |
| `StringHelper.ReplaceYieldsXmlChars` | core/src/main/java/org/jboss/bqt/core/util/StringHelper.java:131-135 | The result contains only XML 1.0 characters. |
| `StringHelper.ReplaceKeepsXmlChars` | core/src/main/java/org/jboss/bqt/core/util/StringHelper.java:131-135 | A string of XML 1.0 characters is left unchanged. |
| `StringHelper.ReplaceXmlUnprintableFixpoints` | core/src/main/java/org/jboss/bqt/core/util/StringHelper.java:131-135 | The replacement changes nothing exactly when all characters are XML 1.0 characters, and applying it twice equals applying it once. |
| `Unicode.Utf8RoundTrip` | core/src/main/java/org/jboss/bqt/core/util/StringHelper.java:144 | Encoding to UTF-8 and decoding back gives the string exactly when it is well-formed UTF-16. |

## Left out

- JDBC access (`ResultSet`, metadata, `getObject`), the first-batch response time and the `SQLException` wrapping in `convertResults` are left out. The model receives the table already read, or none.
- Cell normalisation of `Clob`, `SQLXML`, `Blob` and byte arrays (Base64) is left out. Cells are null, `String`, `BigDecimal` or another value compared with `equals`.
- The `Double` and `Float` tolerance branches, and the `java.sql.Date`/`Time` `toString` comparison, are left out: floating point and date rendering are not modelled.
- Failure message text (string concatenation, `MessageFormat`, `getString`) is not rendered. Failures carry the values their messages show.
- `CellCompare.CompareCell`: whether `MessageFormat` accepts a string-mismatch message as its pattern is the parameter `accepts`. Its pattern grammar is not modelled; the model only fixes that a message without location text is always accepted.
- `StringHelper.DecodeHexAsWritten`: the Unicode decimal-digit table behind `Character.digit` is the parameter `decimal`. Only the ASCII digits and letters and the fullwidth letters are spelled out.
- `Exclusion.FileName`: the platform separator and the length of the path's root prefix (both from `java.io.FileSystem`) are parameters. Path normalisation by the `File` constructor is not modelled.
- `toLowerCase` and `equalsIgnoreCase` fold ASCII letters only. Java's full Unicode case mapping is not modelled.
- The regex engines (`Pattern.compile` with `DOTALL`, `String.matches`), `ListNestedSortComparator`, `TagNames.TYPE_MAP`, `ExceptionUtil.getExceptionMessage`, `Double.parseDouble`, `Long.parseLong`, the `BigDecimal` constructor and `System.getProperty("line.separator")` are parameters. Their results are not modelled.
- `Collections.sort` is modelled by a stable insertion sort. Both are stable sorts, so they agree whenever the comparator is a total preorder.
- The execution-time rule computes over exact reals; Java computes in `double`.
- `StringHelper.EncodeHexExample` states the worked value of `encodeHex` only for the letter "ě" of "hello světe". The ASCII letters follow from the per-byte contract of `StringHelper.EncodeHex`.
- The divergence setting is read from `ConfigPropertyLoader` on first use. Here it is a parameter resolved at that point.
- The `ExpectedResultsHolder` created for the actual side is assumed to start with empty lists and update count -1. Its class is not part of this model.
- `XmlCompare.CompareResults`: a `TEST_EXCEPTION` result whose exception is the recorded timing failure is treated as an abort. Its message is rendered text in the source, which the model does not render.
- `CompareMode.HandleTestResult`: each reader's `getExpectedResults`/`compareResults` is a function given with the reader. The error writers are modelled as the list of files they are asked to write. `ArgCheck` failures become the `NoReaders` error.
- `Compare.isCompare`, `getResultsMode` and `getQueryWriter` are the constant `CompareMode.CompareTraits`. Its mode text stands for the constant `TestProperties.RESULT_MODES.COMPARE`; `TestProperties` is not part of this model.
- `ConnectionStrategy.getConnection`, `getXAConnection`, `shutdown` and `configure` are abstract or empty and are left out. `getEnvironment` returns the live `Properties` object in the source; aliasing through it is not modelled.
- `Exclusion.MatchesPattern`: a pattern that compiles may still fail to compile once wrapped in "^(...)$". This is modelled as an abort, not as a regex-engine detail.
- Concrete regex examples of the repository's tests are not restated, because the regex engine is a parameter.

## Findings

| source | as written | input that shows it | evidently intended | confidence | as-written member | corrected member |
|---|---|---|---|---|---|---|
| client/src/main/java/org/jboss/bqt/client/results/xml/XMLCompareResults.java:869-881 | the end index is clamped to `length - 1` and then passed to `substring` as an exclusive end, so the excerpt never shows the last unit of the text; the location text of the same message still prints both full strings and the two differing units | expected 30×"a"+"b", actual 30×"a"+"c": mismatch at index 30, both excerpts print as "...'aaaaaaaaaaaaaaaaaaaa'", identical, while the location text reads "Expected [b] in …ab - but got [c] in …ac" | the excerpt runs to the end of the text, so it too shows the differing units | not executed | `CellCompare.StringFailureHidesLastUnit` (on `CellCompare.StringFailure`) and `CellCompare.LastUnitDropped` (on `CellCompare.SafeSubStringAsWritten`) | `CellCompare.StringFailureIntended` on `CellCompare.SafeSubString`, with `CellCompare.ExcerptShowsMismatch` |
| client/src/main/java/org/jboss/bqt/client/results/xml/XMLCompareResults.java:861-868 | the "...'" marker is replaced by a bare quote only when the start is negative, so an excerpt that starts exactly at 0 claims that text was cut | a 45-unit text and a mismatch at index 20: start 0, excerpt begins "...'a" | a bare quote whenever nothing before the excerpt is cut | not executed | `CellCompare.PrefixMarkerAtZero` (on `CellCompare.SafeSubStringAsWritten`) | `CellCompare.SafeSubString`, used by `CellCompare.StringFailureIntended` |
| core/src/main/java/org/jboss/bqt/core/util/StringHelper.java:172 | `Integer.valueOf(pair, 16)` accepts a leading sign, and reads digits with `Character.digit`, which also takes every Unicode decimal digit and the fullwidth letters A-F and a-f; so pairs like "-1", "+f", "١٢" (U+0661 U+0662) or "1ａ" decode | `decodeHex("-1")` gives the byte 0xFF, which decodes to U+FFFD; `decodeHex("١٢")` gives U+0012; neither fails | reject every pair that is not two ASCII hex digits, as the documentation says (0-9a-fA-F) | not executed | `StringHelper.SignedPairAccepted` and `StringHelper.NonAsciiDigitsAccepted` (on `StringHelper.DecodeHexAsWritten`) | `StringHelper.DecodeHex` with `StringHelper.HexRoundTripString` |

=== FILE: cell_compare.dfy ===
/**
  The per-cell rule of the comparison: nulls, the BigDecimal tolerance, and
  exact equality with a diagnostic excerpt for strings.
*/
module CellCompare {
  import opened Wrappers
  import opened JavaStrings
  import opened Values
  import opened Failures
  import opened Policies
  import opened Outcomes

  /** How far the excerpt reaches on each side of the mismatch. */
  const MismatchOffset: int := 20
  /** Above this combined length the strings are shown as excerpts. */
  const MaxMessageSize: int := 50

  // ----- numbers -----

  /** The BigDecimal rule: equal values (by `compareTo`) pass; otherwise a
      zero divergence fails, and any other fails when the actual value lies
      above expected + d or below expected - d. */
  predicate NumericFails(t: Tolerance, expected: BigDec, actual: BigDec) {
    && expected.value != actual.value
    && (|| t.isZero
        || expected.value + t.divergence.value < actual.value
        || expected.value - t.divergence.value > actual.value)
  }

  /** With a consistent, non-negative divergence d, two decimals pass exactly
      when they are at most d apart. */
  lemma NumericWithinTolerance(t: Tolerance, expected: BigDec, actual: BigDec)
    requires t.isZero <==> t.divergence.value == 0.0
    requires t.divergence.value >= 0.0
    ensures !NumericFails(t, expected, actual) <==>
              expected.value - t.divergence.value <= actual.value <= expected.value + t.divergence.value
  {
  }

  /** A negative divergence makes every inequality fail, however close. */
  lemma NegativeDivergence(t: Tolerance, expected: BigDec, actual: BigDec)
    requires t.divergence.value < 0.0
    ensures NumericFails(t, expected, actual) <==> expected.value != actual.value
  {
  }

  // ----- strings -----

  /** The first index below the shorter length where the strings differ, or -1. */
  function FirstMismatch(expected: JString, actual: JString): (i: int)
    ensures -1 <= i < Min(|expected|, |actual|)
    ensures i >= 0 ==> expected[i] != actual[i]
    ensures i >= 0 ==> forall k :: 0 <= k < i ==> expected[k] == actual[k]
    ensures i == -1 ==> forall k :: 0 <= k < Min(|expected|, |actual|) ==> expected[k] == actual[k]
    decreases |expected|
  {
    if |expected| == 0 || |actual| == 0 then -1
    else if expected[0] != actual[0] then 0
    else
      var rest := FirstMismatch(expected[1..], actual[1..]);
      if rest == -1 then -1 else rest + 1
  }

  /** Two different strings with no differing index: one extends the other. */
  lemma {:induction false} NoMismatchMeansPrefix(expected: JString, actual: JString)
    requires expected != actual
    requires FirstMismatch(expected, actual) == -1
    ensures |expected| != |actual|
    ensures StartsWith(expected, actual) || StartsWith(actual, expected)
  {
    if |expected| < |actual| {
      assert actual[..|expected|] == expected;
    } else {
      assert expected[..|actual|] == actual;
    }
  }

  /** `safeSubString` as written: the end is clamped to `length - 1` and then
      used as the exclusive end of `substring`; the prefix marker depends on
      `start < 0`. */
  function SafeSubStringAsWritten(text: JString, start: int, end: int): (r: JString)
    requires 0 <= end && start <= end && (start <= 0 || start < |text|)
    ensures |r| <= 8 + end - Max(start, 0)
  {
    var s := if start < 0 then 0 else start;
    var prefix := if start < 0 then Lit("'") else Lit("...'");
    var e := if end > |text| - 1 then (if |text| - 1 < 0 then 0 else |text| - 1) else end;
    var suffix := if e == |text| - 1 || |text| == 0 then Lit("'") else Lit("'...");
    prefix + text[s..e] + suffix
  }

  /** `safeSubString` as intended: the units from `max(start, 0)` up to
      `min(end, length)`, marked "...'" / "'..." exactly on the sides where
      text was cut off and "'" where the excerpt reaches the edge. */
  function SafeSubString(text: JString, start: int, end: int): (r: JString)
    requires 0 <= end && start <= end && (start <= 0 || start < |text|)
    ensures var s := Max(start, 0); var e := Min(end, |text|);
      && (s == 0 ==> StartsWith(r, Lit("'") + text[..e]))
      && (s > 0 ==> StartsWith(r, Lit("...'") + text[s..e]))
      && (e == |text| ==> EndsWith(r, text[s..] + Lit("'")))
      && (e < |text| ==> EndsWith(r, text[s..e] + Lit("'...")))
  {
    var s := Max(start, 0);
    var e := Min(end, |text|);
    var prefix := if s == 0 then Lit("'") else Lit("...'");
    var suffix := if e == |text| then Lit("'") else Lit("'...");
    assert prefix + text[s..e] + suffix == prefix + (text[s..e] + suffix);
    prefix + text[s..e] + suffix
  }

  /** The intended excerpt around a mismatch at index `i` shows the unit at
      `i` and at most 40 units of text; a short text is shown whole. */
  lemma ExcerptShowsMismatch(text: JString, i: int)
    requires -1 <= i < |text|
    ensures var r := SafeSubString(text, i - MismatchOffset, i + MismatchOffset);
      var s := Max(i - MismatchOffset, 0); var e := Min(i + MismatchOffset, |text|);
      && (i >= 0 ==> s <= i < e)
      && e - s <= 2 * MismatchOffset
      && (|text| < MismatchOffset && i <= 0 ==> r == Lit("'") + text + Lit("'"))
  {
    var s := Max(i - MismatchOffset, 0);
    var e := Min(i + MismatchOffset, |text|);
    if |text| < MismatchOffset && i <= 0 {
      assert s == 0 && e == |text|;
      assert text[0..|text|] == text;
    }
  }

  /** The as-written excerpt drops the last unit: with 31-unit strings that
      differ only in their last unit, both excerpts come out the same, while
      the intended ones differ. */
  lemma LastUnitDropped()
    ensures var expected := seq(30, _ => 97 as Unit) + [98 as Unit];
      var actual := seq(30, _ => 97 as Unit) + [99 as Unit];
      && expected != actual
      && |expected| + |actual| > MaxMessageSize
      && FirstMismatch(expected, actual) == 30
      && SafeSubStringAsWritten(expected, 10, 50) == SafeSubStringAsWritten(actual, 10, 50)
      && SafeSubString(expected, 10, 50) != SafeSubString(actual, 10, 50)
  {
    var expected := seq(30, _ => 97 as Unit) + [98 as Unit];
    var actual := seq(30, _ => 97 as Unit) + [99 as Unit];
    assert expected[30] != actual[30];
    assert FirstMismatch(expected, actual) == 30;
    assert expected[10..30] == actual[10..30];
    var e := SafeSubString(expected, 10, 50);
    var a := SafeSubString(actual, 10, 50);
    assert e == Lit("...'") + expected[10..31] + Lit("'");
    assert a == Lit("...'") + actual[10..31] + Lit("'");
    assert e[4 + 20] == 98 && a[4 + 20] == 99;
  }

  /** The as-written excerpt starting exactly at index 0 carries the "...'"
      marker that announces a cut, though nothing was cut. */
  lemma PrefixMarkerAtZero()
    ensures var text := seq(45, _ => 97 as Unit);
      && StartsWith(SafeSubStringAsWritten(text, 0, 40), Lit("...'"))
      && StartsWith(SafeSubString(text, 0, 40), Lit("'a"))
  {
    var text := seq(45, _ => 97 as Unit);
    assert SafeSubStringAsWritten(text, 0, 40) == Lit("...'") + text[0..40] + Lit("'...");
    assert SafeSubString(text, 0, 40) == Lit("'") + text[0..40] + Lit("'...");
  }

  /** Where the two readings of `safeSubString` part: the as-written excerpt
      is the intended one exactly when the cut does not start at index 0 and
      ends before the last unit (or the text is empty). */
  lemma AsWrittenAgreesAwayFromEdges(text: JString, start: int, end: int)
    requires 0 <= end && start <= end && (start <= 0 || start < |text|)
    ensures SafeSubStringAsWritten(text, start, end) == SafeSubString(text, start, end) <==>
              start != 0 && (end < |text| - 1 || |text| == 0)
  {
    var w := SafeSubStringAsWritten(text, start, end);
    var c := SafeSubString(text, start, end);
    if start == 0 {
      assert w[0] != c[0];
    } else if |text| > 0 && end >= |text| - 1 {
      assert |w| != |c|;
    }
  }

  /** The failure `assertStringsMatch` throws for two different strings whose
      message `MessageFormat` accepts: the two texts in full, which the
      location text prints together with the two units at the first
      differing index; that index; and the two texts as the message's
      arguments, cut by `safeSubString` as written around the index when
      together they are longer than 50 units. */
  function StringFailure(cell: Cell, expected: JString, actual: JString): (f: Failure)
    requires expected != actual
    ensures f.StringMismatch? && f.cell == cell
    ensures f.expectedText == expected && f.actualText == actual
    ensures f.mismatchIndex == FirstMismatch(expected, actual)
    ensures f.mismatchIndex >= 0 ==>
              && f.mismatchIndex < |f.expectedText| && f.mismatchIndex < |f.actualText|
              && f.expectedText[f.mismatchIndex] != f.actualText[f.mismatchIndex]
    ensures |expected| + |actual| <= MaxMessageSize ==> f.expectedExcerpt == expected && f.actualExcerpt == actual
    ensures |expected| + |actual| > MaxMessageSize ==>
              && |f.expectedExcerpt| <= 2 * MismatchOffset + 8
              && |f.actualExcerpt| <= 2 * MismatchOffset + 8
  {
    var i := FirstMismatch(expected, actual);
    if |expected| + |actual| > MaxMessageSize then
      StringMismatch(cell, expected, actual,
        SafeSubStringAsWritten(expected, i - MismatchOffset, i + MismatchOffset),
        SafeSubStringAsWritten(actual, i - MismatchOffset, i + MismatchOffset), i)
    else StringMismatch(cell, expected, actual, expected, actual, i)
  }

  /** The failure keeps both texts whole, so two pairs that differ only
      outside the excerpt window still give different failures, as their
      location texts differ. */
  lemma StringFailureDeterminesTexts(cell: Cell, expected: JString, actual: JString, expected2: JString, actual2: JString)
    requires expected != actual && expected2 != actual2
    ensures StringFailure(cell, expected, actual) == StringFailure(cell, expected2, actual2) <==>
              expected == expected2 && actual == actual2
  {
  }

  /** The failure as the excerpt code evidently intends it: each excerpt
      holds the mismatching unit and at most 40 units around it, and is
      marked exactly where text was cut off. */
  function StringFailureIntended(cell: Cell, expected: JString, actual: JString): (f: Failure)
    requires expected != actual
    ensures f.StringMismatch? && f.cell == cell
    ensures f.expectedText == expected && f.actualText == actual
    ensures f.mismatchIndex == FirstMismatch(expected, actual)
    ensures f.mismatchIndex >= 0 ==>
              && f.mismatchIndex < |f.expectedText| && f.mismatchIndex < |f.actualText|
              && f.expectedText[f.mismatchIndex] != f.actualText[f.mismatchIndex]
    ensures |expected| + |actual| <= MaxMessageSize ==> f.expectedExcerpt == expected && f.actualExcerpt == actual
    ensures |expected| + |actual| > MaxMessageSize ==>
              && |f.expectedExcerpt| <= 2 * MismatchOffset + 8
              && |f.actualExcerpt| <= 2 * MismatchOffset + 8
  {
    var i := FirstMismatch(expected, actual);
    if |expected| + |actual| > MaxMessageSize then
      ExcerptShowsMismatch(expected, i);
      ExcerptShowsMismatch(actual, i);
      StringMismatch(cell, expected, actual,
        SafeSubString(expected, i - MismatchOffset, i + MismatchOffset),
        SafeSubString(actual, i - MismatchOffset, i + MismatchOffset), i)
    else StringMismatch(cell, expected, actual, expected, actual, i)
  }

  /** The failure as written is the intended one for short pairs, and for
      long pairs whenever neither cut starts at index 0 or reaches the last
      unit of its text. */
  lemma StringFailureAgrees(cell: Cell, expected: JString, actual: JString)
    requires expected != actual
    ensures var i := FirstMismatch(expected, actual);
      (|| |expected| + |actual| <= MaxMessageSize
       || (i - MismatchOffset != 0 && i + MismatchOffset < |expected| - 1 && i + MismatchOffset < |actual| - 1))
      ==> StringFailure(cell, expected, actual) == StringFailureIntended(cell, expected, actual)
  {
    var i := FirstMismatch(expected, actual);
    if |expected| + |actual| > MaxMessageSize {
      AsWrittenAgreesAwayFromEdges(expected, i - MismatchOffset, i + MismatchOffset);
      AsWrittenAgreesAwayFromEdges(actual, i - MismatchOffset, i + MismatchOffset);
    }
  }

  /** The failures for 30 x "a" + "b" against 30 x "a" + "c": as written the
      two excerpts coincide, as intended they differ. */
  lemma StringFailureHidesLastUnit(cell: Cell)
    ensures var expected := seq(30, _ => 97 as Unit) + [98 as Unit];
      var actual := seq(30, _ => 97 as Unit) + [99 as Unit];
      && expected != actual
      && StringFailure(cell, expected, actual).expectedExcerpt == StringFailure(cell, expected, actual).actualExcerpt
      && StringFailureIntended(cell, expected, actual).expectedExcerpt != StringFailureIntended(cell, expected, actual).actualExcerpt
  {
    LastUnitDropped();
  }

  /** Whether `MessageFormat.format` accepts, as its pattern, the mismatch
      message `assertStringsMatch` builds for two strings that differ at some
      index. That message holds both strings in full, so their braces are
      read as pattern syntax: unmatched braces, or a brace group that is not
      a valid format element, make it throw `IllegalArgumentException`. The
      rest of the message is fixed text, digits and the two arguments, so
      the verdict depends on the two strings alone. */
  type FormatAccepts = (JString, JString) -> bool

  /** `assertStringsMatch` throws `IllegalArgumentException` in place of its
      failure: the strings differ at an index below the shorter length
      (without one the pattern is the fixed text with `{0}` and `{1}`, which
      is always valid) and the message built around them is rejected. */
  predicate FormatRejects(accepts: FormatAccepts, expected: JString, actual: JString) {
    FirstMismatch(expected, actual) >= 0 && !accepts(expected, actual)
  }

  // ----- one cell -----

  /** When two non-null cells agree: decimals by the tolerance rule, all
      other values by `equals` (which for two strings is the exact sequence
      of units, with no trimming or case folding). */
  predicate CellMatches(t: Tolerance, expected: Value, actual: Value) {
    match (expected, actual)
    case (Null, Null) => true
    case (Dec(e), Dec(a)) => !NumericFails(t, e, a)
    case _ => expected == actual
  }

  /** `compareResultColumn`: `Ok(None)` when the cell passes, `Ok` of the
      failure it throws when it fails, and `Err` when building the failure
      message throws instead. */
  function CompareCell(t: Tolerance, accepts: FormatAccepts, actual: Value, expected: Value, cell: Cell)
    : (r: Result<Option<Failure>, Abort>)
    ensures r.Err? <==> expected.Str? && actual.Str? && expected != actual && FormatRejects(accepts, expected.s, actual.s)
    ensures r.Err? ==> r.error == InvalidFormat
    ensures r == Ok(None) <==> CellMatches(t, expected, actual)
    ensures r.Ok? && r.value.Some? ==> r.value.value.IsCellFailure() && r.value.value.cell == cell
    ensures expected.Null? != actual.Null? ==> r == Ok(Some(NullMismatch(cell, expected, actual)))
    ensures expected.Dec? && actual.Dec? && !CellMatches(t, expected, actual) ==>
              r == Ok(Some(NumericMismatch(cell, expected, actual, t.divergence)))
    ensures expected.Str? && actual.Str? && r.Ok? && r.value.Some? ==>
              && r.value.value.StringMismatch?
              && r.value.value.expectedText == expected.s && r.value.value.actualText == actual.s
              && r.value.value.mismatchIndex == FirstMismatch(expected.s, actual.s)
    ensures expected.Str? && !actual.Str? && !actual.Null? ==> r == Ok(Some(TypeMismatch(cell, expected, actual)))
    ensures r.Ok? && r.value.Some? && r.value.value.ValueMismatch? ==>
              !expected.Str? && !expected.Null? && !(expected.Dec? && actual.Dec?)
  {
    if expected.Null? != actual.Null? then Ok(Some(NullMismatch(cell, expected, actual)))
    else if expected.Null? then Ok(None)
    else if expected.Dec? && actual.Dec? then
      if NumericFails(t, expected.d, actual.d) then Ok(Some(NumericMismatch(cell, expected, actual, t.divergence))) else Ok(None)
    else if expected == actual then Ok(None)
    else if expected.Str? then
      if !actual.Str? then Ok(Some(TypeMismatch(cell, expected, actual)))
      else if FormatRejects(accepts, expected.s, actual.s) then Err(InvalidFormat)
      else Ok(Some(StringFailure(cell, expected.s, actual.s)))
    else Ok(Some(ValueMismatch(cell, expected, actual)))
  }

  /** Two string cells pass exactly when their units are identical. */
  lemma StringCellsExact(t: Tolerance, accepts: FormatAccepts, expected: JString, actual: JString, cell: Cell)
    ensures CompareCell(t, accepts, Str(actual), Str(expected), cell) == Ok(None) <==> expected == actual
  {
  }

  /** When one string extends the other, the message has no location text
      and cannot be rejected, whatever braces the strings hold. */
  lemma ExtensionNeverRejected(t: Tolerance, accepts: FormatAccepts, expected: JString, actual: JString, cell: Cell)
    requires StartsWith(expected, actual) || StartsWith(actual, expected)
    ensures CompareCell(t, accepts, Str(actual), Str(expected), cell).Ok?
  {
  }

  /** Two null cells pass; one null against a value fails. */
  lemma NullCells(t: Tolerance, accepts: FormatAccepts, v: Value, cell: Cell)
    ensures CompareCell(t, accepts, Null, Null, cell) == Ok(None)
    ensures !v.Null? ==> CompareCell(t, accepts, v, Null, cell) == Ok(Some(NullMismatch(cell, Null, v)))
    ensures !v.Null? ==> CompareCell(t, accepts, Null, v, cell) == Ok(Some(NullMismatch(cell, v, Null)))
  {
  }

  /** With a divergence of 0.5 an expected 10.0 accepts 10.4 and rejects 10.6. */
  lemma HalfDivergenceExample(accepts: FormatAccepts)
    ensures var t := ResolveTolerance(Some(Lit("0.5")), s => Some(BigDec(0.5, Lit("0.5"))));
      var cell := Cell(1, 1, 1, 1);
      var e := Dec(BigDec(10.0, Lit("10.0")));
      && CompareCell(t, accepts, Dec(BigDec(10.4, Lit("10.4"))), e, cell) == Ok(None)
      && CompareCell(t, accepts, Dec(BigDec(10.6, Lit("10.6"))), e, cell).value.Some?
  {
  }
}

=== FILE: compare_mode.dfy ===
/**
  The COMPARE result mode: whether a query is ordered, and how the
  outcome of each expected-results reader's comparison is folded into the
  test result and the error reports.
*/
module CompareMode {
  import opened Wrappers
  import opened JavaStrings
  import opened Failures
  import opened MultiFailures
  import opened Outcomes
  import opened XmlCompare

  /** The identity of the mode: it compares, and it writes no queries. */
  datatype ModeTraits = ModeTraits(isCompare: bool, resultsMode: JString, hasQueryWriter: bool)

  /** The mode's name is the `TestProperties.RESULT_MODES.COMPARE`
      constant; `TestProperties` is not part of this model, so the text
      stands for that constant rather than a checked value. */
  const CompareTraits: ModeTraits := ModeTraits(true, Lit("compare"), false)

  /** The marker whose presence makes a query ordered. */
  const OrderBy: JString := Lit(" order by ")

  /** `isOrdered`: false for a missing query; otherwise the lower-cased text
      must contain " order by " with its first occurrence past index 0. */
  function IsOrdered(sql: Option<JString>): (r: bool)
    ensures sql.None? ==> !r
    ensures sql.Some? ==> (r <==> IndexOf(ToLower(sql.value), OrderBy) > 0)
  {
    sql.Some? && IndexOf(ToLower(sql.value), OrderBy) > 0
  }

  /** Ordered exactly when " order by " occurs (ignoring ASCII case) somewhere
      past the start, and not right at the start. */
  lemma IsOrderedMeans(sql: JString)
    ensures IsOrdered(Some(sql)) <==>
              && (exists k :: 0 < k && OccursAt(ToLower(sql), OrderBy, k))
              && !OccursAt(ToLower(sql), OrderBy, 0)
  {
    var i := IndexOf(ToLower(sql), OrderBy);
    if i > 0 {
      assert OccursAt(ToLower(sql), OrderBy, i);
    }
  }

  /** " ORDER BY " after some text that does not start with a space makes
      the query ordered, whatever the case of the keywords. */
  lemma OrderByAfterText(head: JString, tail: JString)
    requires |head| > 0 && head[0] != 32
    ensures IsOrdered(Some(head + Lit(" ORDER BY ") + tail))
  {
    var q := head + Lit(" ORDER BY ") + tail;
    var lower := ToLower(q);
    assert ToLower(Lit(" ORDER BY ")) == OrderBy;
    assert lower[|head|..|head| + 10] == ToLower(Lit(" ORDER BY "));
    assert OccursAt(lower, OrderBy, |head|);
    assert lower[0] != OrderBy[0];
    IsOrderedMeans(q);
  }

  /** A query shorter than the marker is never ordered. */
  lemma ShortQueryUnordered()
    ensures !IsOrdered(Some(Lit("SELECT 1")))
  {
    IsOrderedMeans(Lit("SELECT 1"));
  }

  /** One expected-results reader: its comparison, run against the test
      result as it stands and the ordering flag, giving the outcome and the
      updated test result; and whether its expected results come from a file. */
  datatype Reader = Reader(compare: (TestResult, bool) -> (Outcome, TestResult), hasExpectedFile: bool)

  /** The error files written for a failing reader. */
  datatype Report =
    | ErrorFile(failures: seq<Failure>, withExpectedResults: bool)
    | MessagesFile(failures: seq<Failure>)

  /** Every aggregate failure a reader can throw is in a reachable state. */
  predicate WellFormed(o: Outcome) {
    o.FailMany? ==> Valid(o.multi)
  }

  /** The failure message and the failure list a caught failure contributes:
      an aggregate its `getMessage()` and every `getFailures()` entry, a single
      failure its own message and itself; nothing for any other outcome. */
  function Collected(o: Outcome): (r: (Message, seq<Failure>))
    requires WellFormed(o)
    ensures o.Fail? ==> r == (Of(o.failure), [o.failure])
    ensures o.FailMany? ==> r.0 == GetMessage(o.multi) && r.1 == GetFailures(o.multi).0
    ensures !o.IsFailure() ==> r.1 == []
    ensures o.FailMany? && o.multi.total > 1 ==> |r.1| > 1
  {
    match o
    case Fail(f) => (Of(f), [f])
    case FailMany(m) => (GetMessage(m), GetFailures(m).0)
    case _ => (NoMessage, [])
  }

  /** How handling ended: the test result, the reports in the order they were
      written, and the runtime error that stopped it, if any. */
  datatype Handled = Handled(result: TestResult, reports: seq<Report>, error: Option<Abort>)

  /** The reports for one reader's failures: the error file, and the
      messages file only when more than one failure was collected. */
  function ReportsFor(exs: seq<Failure>, hasExpectedFile: bool): (rs: seq<Report>)
    ensures |exs| == 0 ==> rs == []
    ensures |exs| == 1 ==> rs == [ErrorFile(exs, hasExpectedFile)]
    ensures |exs| > 1 ==> rs == [ErrorFile(exs, hasExpectedFile), MessagesFile(exs)]
  {
    if |exs| == 0 then []
    else [ErrorFile(exs, hasExpectedFile)] + (if |exs| > 1 then [MessagesFile(exs)] else [])
  }

  /** One reader: compare; on a caught failure set the failure message, and
      when the failure list is not empty also the "exception" status and the
      reports. A runtime error stops here. */
  function HandleOne(reader: Reader, result: TestResult): (r: Handled)
    requires WellFormed(reader.compare(result, IsOrdered(result.query)).0)
    ensures var (o, after) := reader.compare(result, IsOrdered(result.query));
      && (o.Aborted? ==> r.error == Some(o.reason) && r.reports == [])
      && (!o.Aborted? ==> r.error.None?)
      && (!o.IsFailure() ==> r.result == after && r.reports == [])
      && (o.IsFailure() && |Collected(o).1| > 0 ==>
            r.result == after.(status := TestException, failureMessage := Collected(o).0))
      && (o.IsFailure() && |Collected(o).1| == 0 ==> r.result == after.(failureMessage := Collected(o).0))
      && (o.IsFailure() ==> r.reports == ReportsFor(Collected(o).1, reader.hasExpectedFile))
  {
    var (o, after) := reader.compare(result, IsOrdered(result.query));
    if o.Aborted? then Handled(after, [], Some(o.reason))
    else if o.IsFailure() then
      var (message, exs) := Collected(o);
      var noted := after.(failureMessage := message);
      Handled(if |exs| > 0 then noted.(status := TestException) else noted, ReportsFor(exs, reader.hasExpectedFile), None)
    else Handled(after, [], None)
  }

  /** The readers one after another, each seeing the test result the
      previous one left, until one stops with a runtime error. */
  function HandleAll(readers: seq<Reader>, result: TestResult): (r: Handled)
    requires forall x: TestResult, b: bool, j :: 0 <= j < |readers| ==> WellFormed(readers[j].compare(x, b).0)
    decreases |readers|
  {
    if |readers| == 0 then Handled(result, [], None)
    else
      var first := HandleOne(readers[0], result);
      if first.error.Some? then first
      else
        var rest := HandleAll(readers[1..], first.result);
        Handled(rest.result, first.reports + rest.reports, rest.error)
  }

  /** Across the readers: a runtime error comes from some reader's
      comparison; readers that never abort finish without error; readers
      that always pass write no report. */
  lemma {:induction false} HandleAllErrors(readers: seq<Reader>, result: TestResult)
    requires forall x: TestResult, b: bool, j :: 0 <= j < |readers| ==> WellFormed(readers[j].compare(x, b).0)
    ensures var r := HandleAll(readers, result);
      && (r.error.Some? ==>
            exists x: TestResult, b: bool, j :: 0 <= j < |readers| && readers[j].compare(x, b).0 == Aborted(r.error.value))
      && ((forall x: TestResult, b: bool, j :: 0 <= j < |readers| ==> !readers[j].compare(x, b).0.Aborted?) ==> r.error.None?)
      && ((forall x: TestResult, b: bool, j :: 0 <= j < |readers| ==> readers[j].compare(x, b).0.Pass?) ==> r.reports == [])
    decreases |readers|
  {
    if |readers| > 0 {
      var first := HandleOne(readers[0], result);
      var o := readers[0].compare(result, IsOrdered(result.query)).0;
      if first.error.Some? {
        assert readers[0].compare(result, IsOrdered(result.query)).0 == Aborted(first.error.value);
      } else {
        var rest := HandleAll(readers[1..], first.result);
        HandleAllErrors(readers[1..], first.result);
        if rest.error.Some? {
          var x: TestResult, b: bool, j :| 0 <= j < |readers[1..]| && readers[1..][j].compare(x, b).0 == Aborted(rest.error.value);
          assert readers[j + 1].compare(x, b).0 == Aborted(rest.error.value);
        }
        if forall x: TestResult, b: bool, j :: 0 <= j < |readers| ==> !readers[j].compare(x, b).0.Aborted? {
          assert forall x: TestResult, b: bool, j :: 0 <= j < |readers[1..]| ==> !readers[1..][j].compare(x, b).0.Aborted? by {
            forall x: TestResult, b: bool, j | 0 <= j < |readers[1..]| ensures !readers[1..][j].compare(x, b).0.Aborted? {
              assert readers[1..][j] == readers[j + 1];
            }
          }
        }
        if forall x: TestResult, b: bool, j :: 0 <= j < |readers| ==> readers[j].compare(x, b).0.Pass? {
          assert o.Pass?;
          assert forall x: TestResult, b: bool, j :: 0 <= j < |readers[1..]| ==> readers[1..][j].compare(x, b).0.Pass? by {
            forall x: TestResult, b: bool, j | 0 <= j < |readers[1..]| ensures readers[1..][j].compare(x, b).0.Pass? {
              assert readers[1..][j] == readers[j + 1];
            }
          }
        }
      }
    }
  }

  /** `handleTestResult`: at least one reader is required (the argument
      checks throw otherwise), then every reader in turn. */
  function HandleTestResult(readers: Option<seq<Reader>>, result: TestResult): (r: Handled)
    requires readers.Some? ==>
               forall x: TestResult, b: bool, j :: 0 <= j < |readers.value| ==> WellFormed(readers.value[j].compare(x, b).0)
    ensures readers.None? || |readers.value| == 0 ==> r == Handled(result, [], Some(NoReaders))
    ensures readers.Some? && |readers.value| > 0 ==> r == HandleAll(readers.value, result)
  {
    if readers.None? || |readers.value| == 0 then Handled(result, [], Some(NoReaders))
    else HandleAll(readers.value, result)
  }

  /** A single failing cell: the reader contributes exactly that failure,
      one error file and no messages file. */
  lemma SingleFailureReported(reader: Reader, result: TestResult, f: Failure)
    requires reader.compare(result, IsOrdered(result.query)).0 == Fail(f)
    ensures HandleOne(reader, result).reports == [ErrorFile([f], reader.hasExpectedFile)]
    ensures HandleOne(reader, result).result.status == TestException
    ensures HandleOne(reader, result).result.failureMessage == Of(f)
  {
  }

  /** An aggregate of `fs` (two or more failures): the failure message names
      the first and the count of the rest; the list holds all of them up to
      the cap, then the placeholder; the messages file is written too. */
  lemma ManyFailuresReported(reader: Reader, result: TestResult, fs: seq<Failure>)
    requires |fs| > 1
    requires reader.compare(result, IsOrdered(result.query)).0 == VerdictOf(fs)
    ensures var exs := if |fs| <= Limit then fs else fs[..Limit] + [MoreFailures(|fs| - Limit)];
      && HandleOne(reader, result).reports == [ErrorFile(exs, reader.hasExpectedFile), MessagesFile(exs)]
      && HandleOne(reader, result).result.status == TestException
      && HandleOne(reader, result).result.failureMessage == WithMore(fs[0], |fs| - 1)
  {
    CollectedVerdict(fs);
    CollectedFailures(fs);
    CollectedMessage(fs);
    assert VerdictOf(fs) == FailMany(Collect(fs));
  }

  /** A reader whose comparison passes leaves the status as the comparison
      left it and writes nothing. */
  lemma PassLeavesStatus(reader: Reader, result: TestResult)
    requires reader.compare(result, IsOrdered(result.query)).0 == Pass
    ensures HandleOne(reader, result) == Handled(reader.compare(result, IsOrdered(result.query)).1, [], None)
  {
  }
}

=== FILE: connection.dfy ===
/**
  The connection-independent part of a connection strategy: its own copy
  of the environment properties, the autocommit flag, and the translation
  of a connection `SQLException` into a framework error code.
*/
module Connections {
  import opened Wrappers
  import opened JavaStrings
  import opened Outcomes

  /** A `java.sql.SQLException` as far as the translation reads it. */
  datatype SqlError = SqlError(sqlState: Option<JString>, message: Option<JString>)

  /** The two error codes the translation chooses between. */
  datatype ErrorCode = ServerConnection | DbConnection

  /** The `FrameworkException` built: the original error as its cause, a
      code and a fixed message. */
  datatype FrameworkError = FrameworkError(cause: SqlError, code: ErrorCode, message: JString)

  /** The class of SQLSTATE values meaning "connection exception" in the
      SQLSTATE table of ISO/IEC 9075-2 (SQL:1999). */
  const ConnectionClass: JString := Lit("08")

  const ServerNotAvailable: JString := Lit("Server not available.")
  const ConnectionFailed: JString := Lit("Error while establishing connection.")

  /** `translaceSQLException`: a state in class 08 means the server is not
      reachable; a missing state or any other state is a database
      connection error. The cause is kept either way. */
  function TranslateSqlException(e: SqlError): (r: FrameworkError)
    ensures r.cause == e
    ensures r.code == ServerConnection <==> e.sqlState.Some? && StartsWith(e.sqlState.value, ConnectionClass)
    ensures r.code == ServerConnection ==> r.message == ServerNotAvailable
    ensures r.code == DbConnection ==> r.message == ConnectionFailed
  {
    if e.sqlState.Some? && StartsWith(e.sqlState.value, ConnectionClass) then
      FrameworkError(e, ServerConnection, ServerNotAvailable)
    else FrameworkError(e, DbConnection, ConnectionFailed)
  }

  /** "08001" (unable to establish a connection) is a server error; "28000"
      (invalid authorization) and a missing state are not. */
  lemma TranslationExamples(message: Option<JString>)
    ensures TranslateSqlException(SqlError(Some(Lit("08001")), message)).code == ServerConnection
    ensures TranslateSqlException(SqlError(Some(Lit("28000")), message)).code == DbConnection
    ensures TranslateSqlException(SqlError(None, message)).code == DbConnection
  {
    assert Lit("08001")[..2] == ConnectionClass;
    assert Lit("28000")[0] != ConnectionClass[0];
  }

  /** Over every error: only the first two units of the state decide the
      code, a state of fewer than two units (or none) is a database
      connection error, and the message is ignored. */
  lemma TranslationByStatePrefix(e: SqlError, other: SqlError)
    ensures e.sqlState.None? || |e.sqlState.value| < 2 ==> TranslateSqlException(e).code == DbConnection
    ensures e.sqlState.Some? && |e.sqlState.value| >= 2 ==>
              (TranslateSqlException(e).code == ServerConnection <==>
                 e.sqlState.value[0] == ConnectionClass[0] && e.sqlState.value[1] == ConnectionClass[1])
    ensures e.sqlState.Some? && other.sqlState.Some? && |e.sqlState.value| >= 2 && |other.sqlState.value| >= 2
            && e.sqlState.value[..2] == other.sqlState.value[..2]
            ==> TranslateSqlException(e).code == TranslateSqlException(other).code
    ensures e.sqlState == other.sqlState ==> TranslateSqlException(e).code == TranslateSqlException(other).code
  {
    if e.sqlState.Some? && |e.sqlState.value| >= 2 {
      var s := e.sqlState.value;
      assert s[..2] == [s[0], s[1]];
      assert ConnectionClass == [ConnectionClass[0], ConnectionClass[1]];
    }
  }

  /** The strategy's state: its environment and the autocommit flag. */
  datatype Strategy = Strategy(environment: map<JString, JString>, autocommit: bool)

  /** The constructor: a copy of the given properties, autocommit on. */
  function NewStrategy(properties: map<JString, JString>): (s: Strategy)
    ensures s.autocommit
    ensures s.environment.Keys == properties.Keys
    ensures forall k :: k in properties ==> s.environment[k] == properties[k]
  {
    Strategy(properties, true)
  }

  function GetAutocommit(s: Strategy): bool {
    s.autocommit
  }

  /** `setAutocommit`: changes the flag and nothing else. */
  function SetAutocommit(s: Strategy, autocommit: bool): (r: Strategy)
    ensures r.environment == s.environment
    ensures GetAutocommit(r) == autocommit
  {
    s.(autocommit := autocommit)
  }

  /** Setting then reading the flag gives back what was set. */
  lemma AutocommitRoundTrip(properties: map<JString, JString>, first: bool, second: bool)
    ensures GetAutocommit(NewStrategy(properties))
    ensures GetAutocommit(SetAutocommit(NewStrategy(properties), first)) == first
    ensures GetAutocommit(SetAutocommit(SetAutocommit(NewStrategy(properties), first), second)) == second
  {
  }

  /** `setEnvironmentProperty`: a null key or value is rejected by the
      property table; otherwise the key now maps to the value and every
      other entry is as it was. */
  function SetEnvironmentProperty(s: Strategy, key: Option<JString>, value: Option<JString>): (r: Result<Strategy, Abort>)
    ensures key.None? || value.None? ==> r == Err(NullReference)
    ensures key.Some? && value.Some? ==> r.Ok?
    ensures r.Ok? ==> && r.value.autocommit == s.autocommit
                      && r.value.environment.Keys == s.environment.Keys + {key.value}
                      && r.value.environment[key.value] == value.value
                      && forall k :: k in s.environment && k != key.value ==> r.value.environment[k] == s.environment[k]
  {
    if key.None? || value.None? then Err(NullReference)
    else Ok(s.(environment := s.environment[key.value := value.value]))
  }

  /** The strategy's environment starts equal to the properties it was
      built from and then diverges from them: a property set on the
      strategy changes its entry there. Values are immutable here, so the
      caller's table staying as it was holds by construction; what this
      states is that the strategy's own table does record the change. */
  lemma EnvironmentIsACopy(properties: map<JString, JString>, key: JString, value: JString)
    ensures var s := SetEnvironmentProperty(NewStrategy(properties), Some(key), Some(value));
      && s.Ok? && s.value.environment[key] == value
      && (key in properties && properties[key] != value ==> s.value.environment != properties)
  {
  }
}

=== FILE: exceptions.dfy ===
/**
  `compareExceptions`: an expected exception against the one the query
  actually raised, by class and then by message under one of four match
  modes, with the line-separator fallback of `compareStrTokens`.
*/
module ExceptionCompare {
  import opened Wrappers
  import opened JavaStrings
  import opened Failures
  import opened Outcomes

  /** How the expected message is matched against the actual one. */
  datatype MatchMode = Contains | Prefix | Pattern | Exact

  /** The holder's flags are consulted in this order: contains, starts-with,
      regex; with none of them set the messages must be equal. */
  function ModeOf(contains: bool, startsWith: bool, regex: bool): (m: MatchMode)
    ensures m.Contains? <==> contains
    ensures m.Prefix? <==> !contains && startsWith
    ensures m.Pattern? <==> !contains && !startsWith && regex
    ensures m.Exact? <==> !contains && !startsWith && !regex
  {
    if contains then Contains else if startsWith then Prefix else if regex then Pattern else Exact
  }

  /** An exception as a results holder reports it: class name and message,
      each of which may be null. */
  datatype Thrown = Thrown(className: Option<JString>, message: Option<JString>)

  /** `java.util.regex` with `Pattern.DOTALL`: whether a pattern compiles,
      and whether it finds a match somewhere in a text. */
  datatype RegexEngine = RegexEngine(compiles: JString -> bool, find: (JString, JString) -> bool)

  // ----- StringUtils.split -----

  /** The length of the leading run of units that are not separators. */
  function TokenLength(s: JString, separators: JString): (n: nat)
    ensures n <= |s|
    ensures forall k :: 0 <= k < n ==> s[k] !in separators
    ensures n < |s| ==> s[n] in separators
  {
    if |s| == 0 || s[0] in separators then 0 else 1 + TokenLength(s[1..], separators)
  }

  /** `StringUtils.split(s, separatorChars)`: the maximal runs of units that
      are none of the separator units; runs of separators, leading and
      trailing ones included, produce no empty tokens. */
  function Split(s: JString, separators: JString): (tokens: seq<JString>)
    ensures forall j :: 0 <= j < |tokens| ==> |tokens[j]| > 0
    ensures forall j, k :: 0 <= j < |tokens| && 0 <= k < |tokens[j]| ==> tokens[j][k] !in separators
    decreases |s|
  {
    if |s| == 0 then []
    else if s[0] in separators then Split(s[1..], separators)
    else
      var n := TokenLength(s, separators);
      [s[..n]] + Split(s[n..], separators)
  }

  /** A non-empty text without separators is one token. */
  lemma SplitSingle(s: JString, separators: JString)
    requires |s| > 0
    requires forall k :: 0 <= k < |s| ==> s[k] !in separators
    ensures Split(s, separators) == [s]
  {
    assert TokenLength(s, separators) == |s|;
    assert s[..|s|] == s;
  }

  /** The leading run stops at a separator that follows it. */
  lemma {:induction false} TokenLengthBefore(a: JString, x: Unit, b: JString, separators: JString)
    requires x in separators
    ensures TokenLength(a + [x] + b, separators) == TokenLength(a, separators)
    decreases |a|
  {
    if |a| > 0 && a[0] !in separators {
      assert (a + [x] + b)[1..] == a[1..] + [x] + b;
      TokenLengthBefore(a[1..], x, b, separators);
    }
  }

  /** Splitting at a separator splits the two sides independently. */
  lemma {:induction false} SplitAtSeparator(a: JString, x: Unit, b: JString, separators: JString)
    requires x in separators
    ensures Split(a + [x] + b, separators) == Split(a, separators) + Split(b, separators)
    decreases |a|
  {
    var s := a + [x] + b;
    if |a| == 0 {
      assert s[1..] == b;
    } else if a[0] in separators {
      assert s[1..] == a[1..] + [x] + b;
      SplitAtSeparator(a[1..], x, b, separators);
    } else {
      var n := TokenLength(a, separators);
      TokenLengthBefore(a, x, b, separators);
      assert s[..n] == a[..n];
      assert s[n..] == a[n..] + [x] + b;
      SplitAtSeparator(a[n..], x, b, separators);
    }
  }

  /** The tokens joined with one separator unit between neighbours. */
  function Join(tokens: seq<JString>, x: Unit): JString
    decreases |tokens|
  {
    if |tokens| == 0 then []
    else if |tokens| == 1 then tokens[0]
    else tokens[0] + [x] + Join(tokens[1..], x)
  }

  /** Splitting undoes joining: non-empty tokens free of separators, joined
      at a separator, split back into the same tokens. */
  lemma {:induction false} SplitJoin(tokens: seq<JString>, x: Unit, separators: JString)
    requires x in separators
    requires forall j :: 0 <= j < |tokens| ==> |tokens[j]| > 0
    requires forall j, k :: 0 <= j < |tokens| && 0 <= k < |tokens[j]| ==> tokens[j][k] !in separators
    ensures Split(Join(tokens, x), separators) == tokens
    decreases |tokens|
  {
    if |tokens| == 1 {
      SplitSingle(tokens[0], separators);
    } else if |tokens| > 1 {
      SplitJoin(tokens[1..], x, separators);
      SplitAtSeparator(tokens[0], x, Join(tokens[1..], x), separators);
      SplitSingle(tokens[0], separators);
      assert tokens == [tokens[0]] + tokens[1..];
    }
  }

  /** `compareStrTokens`: both texts split at the line-separator units, then
      the token counts and the tokens compared in order. */
  method CompareStrTokens(expected: JString, got: JString, lineSeparator: JString) returns (same: bool)
    ensures same <==> Split(expected, lineSeparator) == Split(got, lineSeparator)
  {
    var expectedTokens := Split(expected, lineSeparator);
    var gotTokens := Split(got, lineSeparator);
    if |expectedTokens| != |gotTokens| {
      return false;
    }
    var i := 0;
    while i < |expectedTokens|
      invariant 0 <= i <= |expectedTokens|
      invariant expectedTokens[..i] == gotTokens[..i]
    {
      if expectedTokens[i] != gotTokens[i] {
        return false;
      }
      assert expectedTokens[..i + 1] == expectedTokens[..i] + [expectedTokens[i]];
      assert gotTokens[..i + 1] == gotTokens[..i] + [gotTokens[i]];
      i := i + 1;
    }
    assert expectedTokens == expectedTokens[..i] && gotTokens == gotTokens[..i];
    return true;
  }

  /** When both CR and LF separate tokens, a CR before an LF adds nothing:
      the text splits as if the line ended in LF alone. */
  lemma CarriageReturnIgnored(head: JString, tail: JString, separators: JString)
    requires 13 in separators && 10 in separators
    ensures Split(head + [13 as Unit, 10 as Unit] + tail, separators) == Split(head + [10 as Unit] + tail, separators)
  {
    var lf := [10 as Unit] + tail;
    assert [] + [10 as Unit] + tail == lf;
    SplitAtSeparator([], 10, tail, separators);
    assert Split(lf, separators) == Split(tail, separators);
    assert head + [13 as Unit, 10 as Unit] + tail == head + [13 as Unit] + lf;
    SplitAtSeparator(head, 13, lf, separators);
    SplitAtSeparator(head, 10, tail, separators);
  }

  /** Under a "\r\n" line separator, a message with Windows line ends equals
      the same message with Unix line ends token for token, while the texts differ. */
  lemma LineEndsIgnored()
    ensures var crlf := Lit("\r\n");
      && Lit("line 1\r\nline 2") != Lit("line 1\nline 2")
      && Split(Lit("line 1\r\nline 2"), crlf) == Split(Lit("line 1\nline 2"), crlf)
  {
    var crlf := Lit("\r\n");
    var one := Lit("line 1");
    var two := Lit("line 2");
    assert crlf == [13 as Unit, 10 as Unit];
    assert Lit("line 1\r\nline 2") == one + [13 as Unit, 10 as Unit] + two;
    assert Lit("line 1\nline 2") == one + [10 as Unit] + two;
    assert Lit("line 1\r\nline 2")[6] != Lit("line 1\nline 2")[6];
    CarriageReturnIgnored(one, two, crlf);
  }

  // ----- the comparison -----

  /** When the (lower-cased) actual message satisfies the expected one under
      `mode`. The contains mode is inverted as written: the test passes when
      the expected text does NOT occur in the actual message. */
  ghost predicate MessageAccepted(mode: MatchMode, expected: JString, actual: JString, lineSeparator: JString, regex: RegexEngine) {
    match mode
    case Contains => forall k :: !OccursAt(actual, expected, k)
    case Prefix => StartsWith(actual, expected)
    case Pattern => regex.compiles(expected) && regex.find(expected, actual)
    case Exact => expected == actual || Split(expected, lineSeparator) == Split(actual, lineSeparator)
  }

  /** `compareExceptions`. Both messages are lower-cased first (a null
      message dereferences null); then a missing actual class, a different
      class, and the message under the mode, in that order. */
  function CompareExceptions(actual: Thrown, expected: Thrown, mode: MatchMode, lineSeparator: JString, regex: RegexEngine): (r: Outcome)
    ensures r.Pass? || r.Fail? || r.Aborted?
    ensures expected.message.None? || actual.message.None? ==> r == Aborted(NullReference)
    ensures expected.message.Some? && actual.message.Some? && actual.className.None? ==>
              r == Fail(NoActualException(expected.className))
    ensures r.Fail? && r.failure.NoActualException? ==> actual.className.None?
    ensures r.Pass? <==>
              && expected.message.Some? && actual.message.Some?
              && actual.className.Some? && expected.className == actual.className
              && MessageAccepted(mode, ToLower(expected.message.value), ToLower(actual.message.value), lineSeparator, regex)
    ensures r.Aborted? && expected.message.Some? && actual.message.Some? ==>
              || (actual.className.Some? && expected.className.None? && r.reason == NullReference)
              || (mode.Pattern? && !regex.compiles(ToLower(expected.message.value)) && r.reason == InvalidRegex)
    ensures r.Fail? && actual.className.Some? && expected.className.Some? && expected.className != actual.className ==>
              r.failure == WrongExceptionClass(expected.className.value, actual.className.value)
  {
    if expected.message.None? || actual.message.None? then Aborted(NullReference)
    else
      var e := ToLower(expected.message.value);
      var a := ToLower(actual.message.value);
      if actual.className.None? then Fail(NoActualException(expected.className))
      else if expected.className.None? then Aborted(NullReference)
      else if expected.className.value != actual.className.value then
        Fail(WrongExceptionClass(expected.className.value, actual.className.value))
      else
        match mode
        case Contains => if IndexOf(a, e) > -1 then Fail(MessageContained(e, a)) else Pass
        case Prefix => if !StartsWith(a, e) then Fail(MessageNotPrefixed(a, e)) else Pass
        case Pattern =>
          if !regex.compiles(e) then Aborted(InvalidRegex)
          else if !regex.find(e, a) then Fail(RegexNotFound(a, e))
          else Pass
        case Exact =>
          if e != a && Split(e, lineSeparator) != Split(a, lineSeparator) then Fail(WrongExceptionMessage(a))
          else Pass
  }

  /** The contains mode as written fails exactly the tests whose actual
      message does contain the expected text (an empty expected text always
      fails), the opposite of what its failure message announces. */
  lemma ContainsInverted(className: JString, expected: JString, actual: JString, lineSeparator: JString, regex: RegexEngine)
    ensures var r := CompareExceptions(Thrown(Some(className), Some(actual)), Thrown(Some(className), Some(expected)),
                                       Contains, lineSeparator, regex);
      && (r.Fail? <==> exists k :: OccursAt(ToLower(actual), ToLower(expected), k))
      && (|expected| == 0 ==> r == Fail(MessageContained([], ToLower(actual))))
  {
    if |expected| == 0 {
      assert OccursAt(ToLower(actual), ToLower(expected), 0);
    }
  }

  /** Messages are compared ignoring ASCII case in every mode. */
  lemma CaseIgnored(className: JString, expected: JString, actual: JString, mode: MatchMode, lineSeparator: JString, regex: RegexEngine)
    requires EqualsIgnoreCase(expected, actual)
    requires !mode.Contains?
    requires mode.Pattern? ==> regex.compiles(ToLower(expected)) && regex.find(ToLower(expected), ToLower(actual))
    ensures CompareExceptions(Thrown(Some(className), Some(actual)), Thrown(Some(className), Some(expected)),
                              mode, lineSeparator, regex) == Pass
  {
    if mode.Prefix? {
      assert ToLower(actual)[..|ToLower(expected)|] == ToLower(actual);
    }
  }
}

=== FILE: exclusion.dfy ===
/**
  The scenario filter: an optional include pattern and an optional exclude
  pattern, each matched against the whole scenario name.
*/
module Exclusion {
  import opened Wrappers
  import opened JavaStrings
  import opened Outcomes

  /** `java.util.regex` as the filter uses it: whether a pattern compiles,
      and whether it matches a whole text. */
  datatype PatternEngine = PatternEngine(compiles: JString -> bool, fullMatch: (JString, JString) -> bool)

  /** The two patterns; `None` is an unset pattern. */
  datatype Manager = Manager(includePattern: Option<JString>, excludePattern: Option<JString>)

  /** `setIncludePattern` / `setExcludePattern`: a pattern is kept once it
      compiles; a null pattern dereferences null, one that does not compile
      is rejected. */
  function Validated(pattern: Option<JString>, engine: PatternEngine): (r: Result<JString, Abort>)
    ensures pattern.None? ==> r == Err(NullReference)
    ensures pattern.Some? ==> (r.Ok? <==> engine.compiles(pattern.value))
    ensures r.Ok? ==> r.value == pattern.value
    ensures pattern.Some? && r.Err? ==> r.error == InvalidRegex
  {
    if pattern.None? then Err(NullReference)
    else if !engine.compiles(pattern.value) then Err(InvalidRegex)
    else Ok(pattern.value)
  }

  /** A property sets its pattern only when it is present and not empty. */
  function FromProperty(property: Option<JString>, engine: PatternEngine): (r: Result<Option<JString>, Abort>)
    ensures property.None? || |property.value| == 0 ==> r == Ok(None)
    ensures property.Some? && |property.value| > 0 ==>
              (r.Ok? <==> engine.compiles(property.value)) && (r.Ok? ==> r.value == property)
    ensures r.Err? ==> r.error == InvalidRegex
  {
    if property.None? || |property.value| == 0 then Ok(None)
    else
      var v := Validated(property, engine);
      if v.Err? then Err(v.error) else Ok(Some(v.value))
  }

  /** The constructor reading the two properties: include first, then exclude. */
  function FromProperties(includeProperty: Option<JString>, excludeProperty: Option<JString>, engine: PatternEngine)
    : (r: Result<Manager, Abort>)
    ensures r.Ok? <==> FromProperty(includeProperty, engine).Ok? && FromProperty(excludeProperty, engine).Ok?
    ensures r.Ok? ==> r.value == Manager(FromProperty(includeProperty, engine).value, FromProperty(excludeProperty, engine).value)
  {
    var i := FromProperty(includeProperty, engine);
    if i.Err? then Err(i.error)
    else
      var e := FromProperty(excludeProperty, engine);
      if e.Err? then Err(e.error)
      else Ok(Manager(i.value, e.value))
  }

  /** The constructor taking the two patterns directly: both are validated
      and set, so an empty pattern is a pattern that only matches "". */
  function FromPatterns(includePattern: Option<JString>, excludePattern: Option<JString>, engine: PatternEngine): (r: Result<Manager, Abort>)
    ensures r.Ok? <==> && includePattern.Some? && excludePattern.Some?
                       && engine.compiles(includePattern.value) && engine.compiles(excludePattern.value)
    ensures r.Ok? ==> r.value == Manager(includePattern, excludePattern)
  {
    var i := Validated(includePattern, engine);
    if i.Err? then Err(i.error)
    else
      var e := Validated(excludePattern, engine);
      if e.Err? then Err(e.error)
      else Ok(Manager(Some(i.value), Some(e.value)))
  }

  /** The pattern actually matched: `p` wrapped as `^(p)$`. */
  function Anchor(p: JString): (r: JString)
    ensures |r| == |p| + 4
    ensures StartsWith(r, Lit("^(")) && EndsWith(r, Lit(")$"))
    ensures r[2..|r| - 2] == p
  {
    Lit("^(") + p + Lit(")$")
  }

  /** `matchesPattern`: the anchored pattern against the whole name (it is
      compiled again here, and can still fail to compile). */
  function MatchesPattern(name: JString, p: JString, engine: PatternEngine): (r: Result<bool, Abort>)
    ensures r.Err? <==> !engine.compiles(Anchor(p))
    ensures r.Err? ==> r.error == InvalidRegex
    ensures r.Ok? ==> r.value == engine.fullMatch(Anchor(p), name)
  {
    var anchored := Anchor(p);
    if !engine.compiles(anchored) then Err(InvalidRegex) else Ok(engine.fullMatch(anchored, name))
  }

  /** The name full-matches the pattern, as far as the filter can tell. */
  predicate Matches(name: JString, p: JString, engine: PatternEngine) {
    engine.fullMatch(Anchor(p), name)
  }

  /** Both set patterns compile once anchored. */
  predicate Compilable(m: Manager, engine: PatternEngine) {
    && (m.includePattern.Some? ==> engine.compiles(Anchor(m.includePattern.value)))
    && (m.excludePattern.Some? ==> engine.compiles(Anchor(m.excludePattern.value)))
  }

  /** `isScenarioActive(String)`: inactive when an include pattern is set
      and not matched, or when an exclude pattern is set and matched. */
  function IsScenarioActive(m: Manager, name: JString, engine: PatternEngine): (r: Result<bool, Abort>)
    ensures Compilable(m, engine) ==>
              r == Ok((m.includePattern.None? || Matches(name, m.includePattern.value, engine))
                      && (m.excludePattern.None? || !Matches(name, m.excludePattern.value, engine)))
    ensures r.Err? ==> !Compilable(m, engine) && r.error == InvalidRegex
  {
    var included :=
      if m.includePattern.Some? then MatchesPattern(name, m.includePattern.value, engine) else Ok(true);
    if included.Err? then Err(included.error)
    else if !included.value then Ok(false)
    else
      var excluded :=
        if m.excludePattern.Some? then MatchesPattern(name, m.excludePattern.value, engine) else Ok(false);
      if excluded.Err? then Err(excluded.error)
      else Ok(!excluded.value)
  }

  /** A name matched by both patterns is inactive: exclusion wins. */
  lemma ExcludeWins(m: Manager, name: JString, engine: PatternEngine)
    requires Compilable(m, engine)
    requires m.includePattern.Some? && m.excludePattern.Some?
    requires Matches(name, m.includePattern.value, engine) && Matches(name, m.excludePattern.value, engine)
    ensures IsScenarioActive(m, name, engine) == Ok(false)
  {
  }

  /** With both properties missing or empty nothing is filtered out. */
  lemma DefaultsKeepAll(includeProperty: Option<JString>, excludeProperty: Option<JString>, name: JString, engine: PatternEngine)
    requires includeProperty.None? || |includeProperty.value| == 0
    requires excludeProperty.None? || |excludeProperty.value| == 0
    ensures FromProperties(includeProperty, excludeProperty, engine) == Ok(Manager(None, None))
    ensures IsScenarioActive(Manager(None, None), name, engine) == Ok(true)
  {
  }

  /** An include property that does not compile fails the construction. */
  lemma InvalidIncludeRejected(includeProperty: JString, excludeProperty: Option<JString>, engine: PatternEngine)
    requires |includeProperty| > 0 && !engine.compiles(includeProperty)
    ensures FromProperties(Some(includeProperty), excludeProperty, engine) == Err(InvalidRegex)
  {
  }

  // ----- the File variant -----

  const PropertiesSuffix: JString := Lit(".properties")

  /** A `java.io.File`: its path in the platform's normal form, and the
      length of the path's root prefix: "/" on Unix; "C:\", "C:" or the
      UNC "\\" on Windows; empty for a relative path. */
  datatype FilePath = FilePath(path: JString, prefixLength: nat)

  /** `File.getName()` with the platform's `separatorChar`: the path after
      its last separator, or after the root prefix when no separator follows
      the prefix. */
  function FileName(f: FilePath, separator: Unit): (r: JString)
    requires f.prefixLength <= |f.path|
    ensures forall k :: 0 <= k < |r| ==> r[k] != separator
    ensures EndsWith(f.path, r)
    ensures |r| <= |f.path| - f.prefixLength
  {
    var i := LastIndexOf(f.path, separator);
    if i < f.prefixLength then f.path[f.prefixLength..] else f.path[i + 1..]
  }

  /** A name with no separator, placed after a directory and a separator, is
      the file name again, whatever the separator and the prefix. */
  lemma FileNameOfChild(dir: JString, name: JString, prefixLength: nat, separator: Unit)
    requires prefixLength <= |dir|
    requires forall k :: 0 <= k < |name| ==> name[k] != separator
    ensures FileName(FilePath(dir + [separator] + name, prefixLength), separator) == name
  {
    var path := dir + [separator] + name;
    var i := LastIndexOf(path, separator);
    assert path[|dir|] == separator;
    assert forall k :: |dir| < k < |path| ==> path[k] == name[k - |dir| - 1];
    assert i == |dir|;
    assert path[i + 1..] == name;
  }

  /** Under Windows conventions, C:\dir\s.properties and the drive-relative
      C:s.properties both name "s.properties". */
  lemma WindowsFileNames()
    ensures FileName(FilePath(Lit("C:\\dir\\") + Lit("s.properties"), 3), 92) == Lit("s.properties")
    ensures FileName(FilePath(Lit("C:") + Lit("s.properties"), 2), 92) == Lit("s.properties")
  {
    var name := Lit("s.properties");
    assert forall k :: 0 <= k < |name| ==> name[k] != 92;
    assert Lit("C:\\dir\\") == Lit("C:\\dir") + [92];
    FileNameOfChild(Lit("C:\\dir"), name, 3, 92);
    var p := Lit("C:") + name;
    assert forall k :: 0 <= k < |p| ==> p[k] != 92;
    assert p[2..] == name;
  }

  /** The scenario name of a file name: a trailing ".properties" is cut at
      its '.', any other extension is kept. */
  function ScenarioName(fileName: JString): (r: JString)
    ensures !EndsWith(fileName, PropertiesSuffix) ==> r == fileName
    ensures EndsWith(fileName, PropertiesSuffix) ==> r + PropertiesSuffix == fileName
  {
    if EndsWith(fileName, PropertiesSuffix) then
      var dot := LastIndexOf(fileName, 46);
      assert fileName[|fileName| - 11] == 46;
      assert dot == |fileName| - 11 by {
        assert forall k :: |fileName| - 11 < k < |fileName| ==> fileName[k] == PropertiesSuffix[k - (|fileName| - 11)];
      }
      assert fileName[..dot] + PropertiesSuffix == fileName;
      fileName[..dot]
    else fileName
  }

  /** Stripping undoes appending the suffix. */
  lemma ScenarioNameOfProperties(name: JString)
    ensures ScenarioName(name + PropertiesSuffix) == name
  {
    var f := name + PropertiesSuffix;
    assert f[|f| - 11..] == PropertiesSuffix;
  }

  /** `isScenarioActive(File)`: the same verdict for the scenario name. */
  function IsScenarioFileActive(m: Manager, f: FilePath, separator: Unit, engine: PatternEngine): (r: Result<bool, Abort>)
    requires f.prefixLength <= |f.path|
    ensures r == IsScenarioActive(m, ScenarioName(FileName(f, separator)), engine)
  {
    IsScenarioActive(m, ScenarioName(FileName(f, separator)), engine)
  }
}

=== FILE: failures.dfy ===
/**
  The failures the comparison engine raises (each a `QueryTestFailedException`
  in the source). A failure records the data its message interpolates; the
  message text itself is not rendered.
*/
module Failures {
  import opened Wrappers
  import opened JavaStrings
  import opened Values

  /** Where a cell failure happened: `row` and `column` are 1-based positions
      in the compared (possibly sorted) order; `actualRow` and `expectedRow`
      are the 1-based positions of the two records in the caller's original lists. */
  datatype Cell = Cell(row: nat, column: nat, actualRow: int, expectedRow: int)

  datatype Failure =
      // routing of one test outcome
    | UnexpectedException(failureMessage: Message)
    | ExpectedExceptionNotThrown(exceptionClass: Option<JString>, rowCount: nat)
    | ExpectedNoResults(rowCount: nat)
    | UpdateCountMismatch(expectedCount: int, actualCount: int)
      // exception comparison
    | NoActualException(expectedException: Option<JString>)
    | WrongExceptionClass(expectedClass: JString, actualClass: JString)
    | MessageContained(expectedMessage: JString, actualMessage: JString)
    | MessageNotPrefixed(actualMessage: JString, expectedMessage: JString)
    | RegexNotFound(actualMessage: JString, pattern: JString)
    | WrongExceptionMessage(actualMessage: JString)
      // structure of the two result sets; `column` is 0-based here, as in the source
    | ColumnCountMismatch(expectedColumns: nat, actualColumns: nat)
    | ColumnNameMismatch(column: nat, expectedName: JString, actualName: JString)
    | ColumnTypeMismatch(column: nat, expectedType: JString, actualType: JString)
    | TooFewRows(expectedRows: nat, actualRows: nat)
    | TooManyRows(expectedRows: nat, actualRows: nat)
      // one cell
    | NullMismatch(cell: Cell, expected: Value, actual: Value)
    | NumericMismatch(cell: Cell, expected: Value, actual: Value, divergence: BigDec)
    | TypeMismatch(cell: Cell, expected: Value, actual: Value)
      // a string mismatch: the two texts in full (the location text prints them,
      // with the units at `mismatchIndex`, whenever that index is not -1), the
      // excerpts the message shows, and the 0-based index of the first difference
    | StringMismatch(cell: Cell, expectedText: JString, actualText: JString,
                     expectedExcerpt: JString, actualExcerpt: JString, mismatchIndex: int)
    | ValueMismatch(cell: Cell, expected: Value, actual: Value)
      // the "(+N more failures)" placeholder of a capped multi-failure
    | MoreFailures(count: int)
      // the execution-time check: both times, the allowed fraction
      // (`exceedPercent / 100`) and the allowance it grants the expected time
    | TimeExceeded(actualMillis: int, expectedMillis: int, allowedFraction: real, allowance: real)
  {
    /** The failure is about one cell of the grid. */
    predicate IsCellFailure() {
      NullMismatch? || NumericMismatch? || TypeMismatch? || StringMismatch? || ValueMismatch?
    }
  }

  /** What `getMessage()` (or a test result's failure message) amounts to. */
  datatype Message =
    | NoMessage                                 // a null message
    | Text(text: JString)                       // a message given as plain text
    | Of(failure: Failure)                      // the message of one failure
    | WithMore(first: Failure, more: int)       // first failure's message + " (+more more failures)"
    | TimeDetail(actualMillis: int, expectedMillis: int,    // the timing check's message
                 allowedFraction: real, allowance: real)
}

=== FILE: identifiers.dfy ===
/**
  The structural check on column names and type names that precedes any
  cell comparison.
*/
module Identifiers {
  import opened Wrappers
  import opened JavaStrings
  import opened Failures
  import opened Outcomes

  /** `getShortName`: the text after the last '.', or the whole identifier. */
  function ShortName(ident: JString): (r: JString)
    ensures forall k :: 0 <= k < |r| ==> r[k] != 46
    ensures EndsWith(ident, r)
  {
    var index := LastIndexOf(ident, 46);
    if index >= 0 then ident[index + 1..] else ident
  }

  /** A qualified name keeps only its last segment; an unqualified one is kept. */
  lemma ShortNameOfQualified(qualifier: JString, name: JString)
    requires forall k :: 0 <= k < |name| ==> name[k] != 46
    ensures ShortName(qualifier + [46 as Unit] + name) == name
    ensures ShortName(name) == name
  {
    var ident := qualifier + [46 as Unit] + name;
    assert ident[|qualifier|] == 46;
    assert ident[|qualifier| + 1..] == name;
  }

  /** `TagNames.TYPE_MAP` lookup followed by `getSimpleName()`: `None` when the
      map has no entry for that spelling (the source then dereferences null). */
  type BlobTypeName = JString -> Option<JString>

  /** The type name that is remapped. */
  const Blob: JString := Lit("blob")

  /** The actual type as compared: a type spelled "blob" in any case is
      replaced by the simple name of its mapped class. */
  function NormalizedType(actualType: JString, blobName: BlobTypeName): Option<JString> {
    if EqualsIgnoreCase(actualType, Blob) then blobName(actualType) else Some(actualType)
  }

  /** The verdict for column `i` alone: both type names are read first, then
      the short names are compared, then the (normalized) type names. */
  function ColumnVerdict(i: nat, actualIds: seq<JString>, expectedIds: seq<JString>,
                         actualTypes: seq<JString>, expectedTypes: seq<JString>, blobName: BlobTypeName): Outcome
    requires i < |actualIds| && i < |expectedIds|
  {
    if i >= |actualTypes| || i >= |expectedTypes| then Aborted(IndexOutOfBounds)
    else if !EqualsIgnoreCase(ShortName(expectedIds[i]), ShortName(actualIds[i])) then
      Fail(ColumnNameMismatch(i, ShortName(expectedIds[i]), ShortName(actualIds[i])))
    else
      var actualType := NormalizedType(actualTypes[i], blobName);
      if actualType.None? then Aborted(NullReference)
      else if !EqualsIgnoreCase(expectedTypes[i], actualType.value) then
        Fail(ColumnTypeMismatch(i, expectedTypes[i], actualType.value))
      else Pass
  }

  /** Every column's verdict, in column order. */
  function Verdicts(actualIds: seq<JString>, expectedIds: seq<JString>,
                    actualTypes: seq<JString>, expectedTypes: seq<JString>, blobName: BlobTypeName): (vs: seq<Outcome>)
    requires |actualIds| == |expectedIds|
    ensures |vs| == |actualIds|
    ensures forall j :: 0 <= j < |vs| ==> vs[j] == ColumnVerdict(j, actualIds, expectedIds, actualTypes, expectedTypes, blobName)
  {
    seq(|actualIds|, j requires 0 <= j < |actualIds| => ColumnVerdict(j, actualIds, expectedIds, actualTypes, expectedTypes, blobName))
  }

  /** The loop over the columns: the first verdict from `i` on that is not a
      pass, or a pass when there is none. */
  function FirstNonPass(vs: seq<Outcome>, i: nat): Outcome
    requires i <= |vs|
    decreases |vs| - i
  {
    if i == |vs| then Pass
    else if !vs[i].Pass? then vs[i]
    else FirstNonPass(vs, i + 1)
  }

  /** The loop passes exactly when every column does, and otherwise reports
      the first column that does not. */
  lemma {:induction false} FirstFailingColumn(vs: seq<Outcome>, i: nat)
    requires i <= |vs|
    ensures FirstNonPass(vs, i).Pass? <==> forall j :: i <= j < |vs| ==> vs[j].Pass?
    ensures !FirstNonPass(vs, i).Pass? ==>
              exists j :: i <= j < |vs| && FirstNonPass(vs, i) == vs[j] && forall k :: i <= k < j ==> vs[k].Pass?
    decreases |vs| - i
  {
    if i < |vs| && vs[i].Pass? {
      FirstFailingColumn(vs, i + 1);
    }
  }

  /** `compareIdentifiers`: a different number of columns fails first; then
      the columns in order, stopping at the first that does not pass. The
      column index in the failures is 0-based. */
  function CompareIdentifiers(actualIds: seq<JString>, expectedIds: seq<JString>,
                              actualTypes: seq<JString>, expectedTypes: seq<JString>, blobName: BlobTypeName): (r: Outcome)
    ensures |expectedIds| != |actualIds| ==> r == Fail(ColumnCountMismatch(|expectedIds|, |actualIds|))
    ensures |expectedIds| == |actualIds| ==>
              (r.Pass? <==> forall j :: 0 <= j < |actualIds| ==>
                 ColumnVerdict(j, actualIds, expectedIds, actualTypes, expectedTypes, blobName).Pass?)
    ensures |expectedIds| == |actualIds| && !r.Pass? ==>
              exists j :: && 0 <= j < |actualIds|
                          && r == ColumnVerdict(j, actualIds, expectedIds, actualTypes, expectedTypes, blobName)
                          && forall k :: 0 <= k < j ==> ColumnVerdict(k, actualIds, expectedIds, actualTypes, expectedTypes, blobName).Pass?
  {
    if |expectedIds| != |actualIds| then Fail(ColumnCountMismatch(|expectedIds|, |actualIds|))
    else
      var vs := Verdicts(actualIds, expectedIds, actualTypes, expectedTypes, blobName);
      FirstFailingColumn(vs, 0);
      FirstNonPass(vs, 0)
  }

  /** Column `j` passes exactly when its type names are present, the short
      names agree ignoring case, and the types agree ignoring case once a
      "blob" actual type is remapped. */
  lemma ColumnPasses(j: nat, actualIds: seq<JString>, expectedIds: seq<JString>,
                     actualTypes: seq<JString>, expectedTypes: seq<JString>, blobName: BlobTypeName)
    requires j < |actualIds| && j < |expectedIds|
    ensures ColumnVerdict(j, actualIds, expectedIds, actualTypes, expectedTypes, blobName).Pass? <==>
              && j < |actualTypes| && j < |expectedTypes|
              && EqualsIgnoreCase(ShortName(expectedIds[j]), ShortName(actualIds[j]))
              && NormalizedType(actualTypes[j], blobName).Some?
              && EqualsIgnoreCase(expectedTypes[j], NormalizedType(actualTypes[j], blobName).value)
  {
  }

  /** A name mismatch at the first column is reported with index 0 and the
      short names, even when the types would also differ. */
  lemma FirstColumnNameMismatch(actualIds: seq<JString>, expectedIds: seq<JString>,
                                actualTypes: seq<JString>, expectedTypes: seq<JString>, blobName: BlobTypeName)
    requires |actualIds| == |expectedIds| > 0
    requires |actualTypes| > 0 && |expectedTypes| > 0
    requires !EqualsIgnoreCase(ShortName(expectedIds[0]), ShortName(actualIds[0]))
    ensures CompareIdentifiers(actualIds, expectedIds, actualTypes, expectedTypes, blobName) ==
              Fail(ColumnNameMismatch(0, ShortName(expectedIds[0]), ShortName(actualIds[0])))
  {
  }
}

=== FILE: java_strings.dfy ===
/**
  Java strings as sequences of UTF-16 code units, and the handful of
  java.lang.String operations the comparison engine relies on.
*/
module JavaStrings {

  /** One UTF-16 code unit: a Java `char`. */
  newtype Unit = x: int | 0 <= x < 0x1_0000

  /** A Java `String`: its UTF-16 code units in order, so that lengths and
      indices agree with `String.length()` and `String.charAt`. */
  type JString = seq<Unit>

  /** The code units of a Dafny literal made of Basic Multilingual Plane characters. */
  function Lit(s: string): JString {
    seq(|s|, i requires 0 <= i < |s| => ((s[i] as int) % 0x1_0000) as Unit)
  }

  /** `Character.toLowerCase` restricted to the ASCII letters. */
  function LowerUnit(u: Unit): Unit {
    if 65 <= u <= 90 then u + 32 else u
  }

  /** `String.toLowerCase()`, with the case mapping restricted to ASCII letters. */
  function ToLower(s: JString): (r: JString)
    ensures |r| == |s|
    ensures forall i :: 0 <= i < |s| ==> r[i] == LowerUnit(s[i])
  {
    seq(|s|, i requires 0 <= i < |s| => LowerUnit(s[i]))
  }

  /** `String.equalsIgnoreCase`: the same units once both are lower-cased. */
  predicate EqualsIgnoreCase(a: JString, b: JString) {
    ToLower(a) == ToLower(b)
  }

  /** `s.startsWith(p)`. */
  predicate StartsWith(s: JString, p: JString) {
    |p| <= |s| && s[..|p|] == p
  }

  /** `s.endsWith(p)`. */
  predicate EndsWith(s: JString, p: JString) {
    |p| <= |s| && s[|s| - |p|..] == p
  }

  /** `s.trim().length() == 0`: `trim` drops every leading and trailing unit
      at or below U+0020, so only such units leave nothing behind. */
  predicate IsBlank(s: JString) {
    forall i :: 0 <= i < |s| ==> s[i] <= 0x20
  }

  /** `p` occurs in `s` starting at index `k`. */
  predicate OccursAt(s: JString, p: JString, k: int) {
    0 <= k && k + |p| <= |s| && s[k..k + |p|] == p
  }

  /** `s.indexOf(p, from)` for `from >= 0`: the first occurrence at or after `from`, or -1. */
  function IndexOfFrom(s: JString, p: JString, from: nat): (r: int)
    ensures r == -1 || (from <= r && OccursAt(s, p, r))
    ensures r == -1 ==> forall k :: from <= k ==> !OccursAt(s, p, k)
    ensures r != -1 ==> forall k :: from <= k < r ==> !OccursAt(s, p, k)
    decreases |s| - from
  {
    if from + |p| > |s| then -1
    else if s[from..from + |p|] == p then from
    else IndexOfFrom(s, p, from + 1)
  }

  /** `s.indexOf(p)`. */
  function IndexOf(s: JString, p: JString): (r: int)
    ensures r == -1 <==> forall k :: !OccursAt(s, p, k)
    ensures r != -1 ==> OccursAt(s, p, r) && forall k :: 0 <= k < r ==> !OccursAt(s, p, k)
  {
    IndexOfFrom(s, p, 0)
  }

  /** `s.lastIndexOf(u)`: the index of the last unit equal to `u`, or -1. */
  function LastIndexOf(s: JString, u: Unit): (r: int)
    ensures -1 <= r < |s|
    ensures r >= 0 ==> s[r] == u
    ensures forall k :: r < k < |s| ==> s[k] != u
  {
    if |s| == 0 then -1
    else if s[|s| - 1] == u then |s| - 1
    else LastIndexOf(s[..|s| - 1], u)
  }

  function Min(a: int, b: int): int {
    if a < b then a else b
  }

  function Max(a: int, b: int): int {
    if a < b then b else a
  }
}

=== FILE: multi_failure.dfy ===
/**
  MultiTestFailedException: a failure that aggregates many failures, with a
  total counter and a stored list capped at `Limit` entries.
*/
module MultiFailures {
  import opened JavaStrings
  import opened Failures

  /** Maximum number of failures kept. */
  const Limit: nat := 2000

  /** `total` counts every failure added; `stored` holds the kept ones (and,
      once `GetFailures` ran past the cap, a trailing placeholder). */
  datatype MultiFailure = MultiFailure(total: nat, stored: seq<Failure>)

  /** A freshly constructed multi-failure. */
  const Empty: MultiFailure := MultiFailure(0, [])

  /** The states the class can reach: below the cap every failure is stored;
      past it either exactly `Limit` are stored or, after `GetFailures`,
      `Limit` plus a placeholder. */
  predicate Valid(m: MultiFailure) {
    || |m.stored| == Min(m.total, Limit)
    || (m.total > Limit && |m.stored| == Limit + 1 && m.stored[Limit].MoreFailures?)
  }

  /** `addFailure`: always counts, stores only while fewer than `Limit` were counted. */
  function AddFailure(m: MultiFailure, f: Failure): (r: MultiFailure)
    ensures r.total == m.total + 1
    ensures m.total < Limit ==> r.stored == m.stored + [f]
    ensures m.total >= Limit ==> r.stored == m.stored
    ensures Valid(m) ==> Valid(r)
  {
    if m.total < Limit then MultiFailure(m.total + 1, m.stored + [f])
    else MultiFailure(m.total + 1, m.stored)
  }

  /** Adds `fs` one after another. */
  function AddAll(m: MultiFailure, fs: seq<Failure>): MultiFailure
    decreases |fs|
  {
    if |fs| == 0 then m else AddAll(AddFailure(m, fs[0]), fs[1..])
  }

  /** The multi-failure that collected `fs` in order. */
  function Collect(fs: seq<Failure>): MultiFailure {
    AddAll(Empty, fs)
  }

  lemma {:induction false} AddAllAppend(m: MultiFailure, a: seq<Failure>, b: seq<Failure>)
    ensures AddAll(m, a + b) == AddAll(AddAll(m, a), b)
    decreases |a|
  {
    if |a| == 0 {
      assert a + b == b;
    } else {
      assert (a + b)[1..] == a[1..] + b;
      AddAllAppend(AddFailure(m, a[0]), a[1..], b);
    }
  }

  /** Collecting one more failure is one more `addFailure`. */
  lemma CollectSnoc(fs: seq<Failure>, f: Failure)
    ensures Collect(fs + [f]) == AddFailure(Collect(fs), f)
  {
    AddAllAppend(Empty, fs, [f]);
    assert AddAll(AddFailure(Collect(fs), f), []) == AddFailure(Collect(fs), f);
  }

  /** The invariant: the counter counts everything, the list keeps the first
      `Limit` failures in insertion order. */
  lemma {:induction false} CollectKeepsPrefix(fs: seq<Failure>)
    ensures Collect(fs).total == |fs|
    ensures Collect(fs).stored == fs[..Min(|fs|, Limit)]
    ensures Valid(Collect(fs))
    decreases |fs|
  {
    if |fs| == 0 {
    } else {
      var init := fs[..|fs| - 1];
      CollectKeepsPrefix(init);
      assert init + [fs[|fs| - 1]] == fs;
      CollectSnoc(init, fs[|fs| - 1]);
      if |init| < Limit {
        assert fs[..Min(|fs|, Limit)] == init + [fs[|fs| - 1]];
      } else {
        assert fs[..Min(|fs|, Limit)] == init[..Min(|init|, Limit)];
      }
    }
  }

  /** `getTotalFailures`. */
  function TotalFailures(m: MultiFailure): nat {
    m.total
  }

  /** `getMessage`: the first stored failure's message with a " (+N more failures)"
      suffix, or the base message (null for this constructor) when none is stored. */
  function GetMessage(m: MultiFailure): Message {
    if |m.stored| > 0 then WithMore(m.stored[0], m.total - 1) else NoMessage
  }

  /** `getFailures`: past the cap it appends (once) a placeholder and then
      overwrites the last entry with "(+N more failures)", N = total - Limit.
      It returns the view and the collector as left behind. */
  function GetFailures(m: MultiFailure): (r: (seq<Failure>, MultiFailure))
    requires Valid(m)
    ensures r.1 == MultiFailure(m.total, r.0)
    ensures Valid(r.1)
    ensures m.total <= Limit ==> r.0 == m.stored
    ensures m.total > Limit ==>
              && |r.0| == Limit + 1
              && r.0[..Limit] == m.stored[..Limit]
              && r.0[Limit] == MoreFailures(m.total - Limit)
  {
    if m.total > Limit then
      var grown := if |m.stored| == Limit then m.stored + [MoreFailures(0)] else m.stored;
      var view := grown[|grown| - 1 := MoreFailures(m.total - Limit)];
      (view, MultiFailure(m.total, view))
    else
      (m.stored, m)
  }

  /** Calling `getFailures` again changes nothing: the list never grows past
      `Limit + 1` and the placeholder is only overwritten. */
  lemma GetFailuresIdempotent(m: MultiFailure)
    requires Valid(m)
    ensures GetFailures(GetFailures(m).1) == GetFailures(m)
  {
    var (view, after) := GetFailures(m);
    if m.total > Limit {
      assert |after.stored| == Limit + 1;
      var again := GetFailures(after).0;
      assert again == view[Limit := MoreFailures(m.total - Limit)];
      assert again == view;
    }
  }

  /** What the collected failures look like through `getFailures`: all of them,
      or the first `Limit` followed by the placeholder. */
  lemma CollectedFailures(fs: seq<Failure>)
    ensures Valid(Collect(fs))
    ensures |fs| <= Limit ==> GetFailures(Collect(fs)).0 == fs
    ensures |fs| > Limit ==> GetFailures(Collect(fs)).0 == fs[..Limit] + [MoreFailures(|fs| - Limit)]
  {
    CollectKeepsPrefix(fs);
    if |fs| > Limit {
      var view := GetFailures(Collect(fs)).0;
      assert view == fs[..Limit] + [MoreFailures(|fs| - Limit)];
    }
  }

  /** The message of a collected multi-failure names its first failure and how many follow. */
  lemma CollectedMessage(fs: seq<Failure>)
    requires |fs| > 0
    ensures Valid(Collect(fs))
    ensures GetMessage(Collect(fs)) == WithMore(fs[0], |fs| - 1)
    ensures GetMessage(GetFailures(Collect(fs)).1) == GetMessage(Collect(fs))
  {
    CollectKeepsPrefix(fs);
  }
}

=== FILE: outcomes.dfy ===
/**
  The ways a comparison can end: it returns normally, throws a single
  failure, throws the aggregate, or stops with a runtime error that is not a
  test failure at all.
*/
module Outcomes {
  import opened Failures
  import opened MultiFailures

  /** The runtime errors the comparison code can raise besides test failures. */
  datatype Abort =
    | IndexOutOfBounds   // a list read past its end
    | NullReference      // a method called on a missing value
    | InvalidRegex       // a pattern that does not compile
    | NumberFormat       // a setting that does not parse
    | NoReaders          // an argument check on the expected-results readers
    | InvalidFormat      // a message pattern `MessageFormat` rejects

  datatype Outcome =
    | Pass
    | Fail(failure: Failure)
    | FailMany(multi: MultiFailure)
    | Aborted(reason: Abort)
  {
    /** The outcome is a thrown test failure (single or aggregate). */
    predicate IsFailure() {
      Fail? || FailMany?
    }
  }

  /** How the cell loop ends once every cell was compared: no failure returns
      normally, exactly one is thrown by itself, more throw the aggregate. */
  function Verdict(m: MultiFailure): (r: Outcome)
    requires Valid(m)
    ensures r.Pass? <==> m.total == 0
    ensures r.Fail? <==> m.total == 1
    ensures r.FailMany? <==> m.total > 1
    ensures r.Fail? ==> r.failure == m.stored[0]
    ensures r.FailMany? ==> r.multi == m
  {
    if m.total == 1 then Fail(GetFailures(m).0[0])
    else if m.total > 1 then FailMany(m)
    else Pass
  }

  /** Collecting `fs` and reading the verdict: pass for none, the failure
      itself for one, the aggregate counting all of them for more. */
  lemma CollectedVerdict(fs: seq<Failure>)
    ensures Valid(Collect(fs))
    ensures |fs| == 0 ==> Verdict(Collect(fs)) == Pass
    ensures |fs| == 1 ==> Verdict(Collect(fs)) == Fail(fs[0])
    ensures |fs| > 1 ==> Verdict(Collect(fs)).FailMany? && TotalFailures(Verdict(Collect(fs)).multi) == |fs|
  {
    CollectKeepsPrefix(fs);
  }

  /** The verdict on a list of collected failures, without naming the collector. */
  function VerdictOf(fs: seq<Failure>): (r: Outcome)
    ensures |fs| == 0 ==> r == Pass
    ensures |fs| == 1 ==> r == Fail(fs[0])
    ensures |fs| > 1 ==> r.FailMany? && TotalFailures(r.multi) == |fs| && GetMessage(r.multi) == WithMore(fs[0], |fs| - 1)
    ensures r.FailMany? ==> r.multi == Collect(fs) && Valid(r.multi)
  {
    CollectedVerdict(fs);
    if |fs| == 0 then Verdict(Collect(fs))
    else
      CollectedMessage(fs);
      Verdict(Collect(fs))
  }
}

=== FILE: policy.dfy ===
/**
  The comparison policy: the timing thresholds the constructor reads and the
  allowed divergence the first full comparison resolves. The source keeps
  them in static fields; here they are one immutable value passed along,
  and every operation that would overwrite a field returns the new value.
*/
module Policies {
  import opened Wrappers
  import opened JavaStrings
  import opened Values
  import opened Outcomes

  /** The text-to-number conversions the settings go through:
      `Double.parseDouble`, `Long.parseLong` and `new BigDecimal(String)`,
      each `None` where the conversion throws `NumberFormatException`. */
  datatype Parsers = Parsers(
    parseDouble: JString -> Option<real>,
    parseLong: JString -> Option<int>,
    parseDecimal: JString -> Option<BigDec>)

  /** The allowed divergence together with its cached "is zero" flag. */
  datatype Tolerance = Tolerance(divergence: BigDec, isZero: bool)

  /** `exceedPercent` and `minimumMillis` are the timing thresholds;
      `tolerance` is `None` until a comparison has resolved it. */
  datatype Policy = Policy(exceedPercent: real, minimumMillis: int, tolerance: Option<Tolerance>)

  /** The static initialisers: percent -0.99999, minimum -1, no divergence yet. */
  const Initial: Policy := Policy(-0.99999, -1, None)

  /** A setting the constructor takes into account: present and not blank. */
  predicate IsSet(s: Option<JString>) {
    s.Some? && !IsBlank(s.value)
  }

  /** What the constructor leaves behind: the static fields as they stand
      when it returns or throws, and the error it throws, if any. */
  datatype Constructed = Constructed(policy: Policy, error: Option<Abort>)

  /** The constructor. It overwrites the percent and then the minimum when
      they are set, and then forces the minimum to 1 when a positive percent
      meets a negative minimum. A setting that does not parse throws at its
      own assignment, so a percent already written stays written. The fields
      start from `previous`, as static fields do. */
  function Construct(previous: Policy, exceedSetting: Option<JString>, minimumSetting: Option<JString>, parsers: Parsers)
    : (r: Constructed)
    ensures r.error.Some? <==>
              || (IsSet(exceedSetting) && parsers.parseDouble(exceedSetting.value).None?)
              || (IsSet(minimumSetting) && parsers.parseLong(minimumSetting.value).None?)
    ensures r.error.Some? ==> r.error.value == NumberFormat
    ensures r.policy.tolerance == previous.tolerance
    ensures IsSet(exceedSetting) && parsers.parseDouble(exceedSetting.value).None? ==> r.policy == previous
    ensures IsSet(exceedSetting) && parsers.parseDouble(exceedSetting.value).Some? ==>
              r.policy.exceedPercent == parsers.parseDouble(exceedSetting.value).value
    ensures !IsSet(exceedSetting) ==> r.policy.exceedPercent == previous.exceedPercent
    ensures IsSet(minimumSetting) && parsers.parseLong(minimumSetting.value).None? ==>
              r.policy.minimumMillis == previous.minimumMillis
    ensures r.error.None? && !IsSet(minimumSetting) && previous.minimumMillis >= 0 ==>
              r.policy.minimumMillis == previous.minimumMillis
    ensures r.error.None? && IsSet(minimumSetting) && parsers.parseLong(minimumSetting.value).value >= 0 ==>
              r.policy.minimumMillis == parsers.parseLong(minimumSetting.value).value
    ensures r.error.None? && r.policy.exceedPercent > 0.0 ==> r.policy.minimumMillis >= 0
  {
    var percent :=
      if IsSet(exceedSetting) then parsers.parseDouble(exceedSetting.value) else Some(previous.exceedPercent);
    if percent.None? then Constructed(previous, Some(NumberFormat))
    else
      var written := previous.(exceedPercent := percent.value);
      var minimum :=
        if IsSet(minimumSetting) then parsers.parseLong(minimumSetting.value) else Some(previous.minimumMillis);
      if minimum.None? then Constructed(written, Some(NumberFormat))
      else
        var m := if percent.value > 0.0 && minimum.value < 0 then 1 else minimum.value;
        Constructed(written.(minimumMillis := m), None)
  }

  /** A positive percent set without a minimum, on fresh static fields,
      leaves a minimum of 1; with neither set the timing check stays off. */
  lemma ConstructDefaults(exceedSetting: JString, parsers: Parsers)
    requires !IsBlank(exceedSetting)
    requires parsers.parseDouble(exceedSetting).Some? && parsers.parseDouble(exceedSetting).value > 0.0
    ensures Construct(Initial, Some(exceedSetting), None, parsers) ==
              Constructed(Policy(parsers.parseDouble(exceedSetting).value, 1, None), None)
    ensures Construct(Initial, None, None, parsers) == Constructed(Initial, None)
    ensures Construct(Initial, None, None, parsers).policy.minimumMillis <= 0
  {
  }

  /** A positive percent survives a minimum that fails to parse: the
      constructor throws, and the next construction without settings then
      forces the minimum to 1. */
  lemma PercentSurvivesFailedMinimum(previous: Policy, exceedSetting: JString, minimumSetting: JString, parsers: Parsers)
    requires !IsBlank(exceedSetting) && !IsBlank(minimumSetting)
    requires parsers.parseDouble(exceedSetting).Some? && parsers.parseDouble(exceedSetting).value > 0.0
    requires parsers.parseLong(minimumSetting).None?
    requires previous.minimumMillis < 0
    ensures var first := Construct(previous, Some(exceedSetting), Some(minimumSetting), parsers);
      && first.error == Some(NumberFormat)
      && first.policy.exceedPercent == parsers.parseDouble(exceedSetting).value
      && Construct(first.policy, None, None, parsers) ==
           Constructed(Policy(parsers.parseDouble(exceedSetting).value, 1, previous.tolerance), None)
  {
  }

  /** The allowed divergence read from its setting: zero when the setting is
      missing, empty or not a number, the parsed decimal otherwise. */
  function ResolveTolerance(setting: Option<JString>, parseDecimal: JString -> Option<BigDec>): (t: Tolerance)
    ensures t.isZero <==> t.divergence.value == 0.0
    ensures setting.None? || |setting.value| == 0 ==> t == Tolerance(Zero, true)
    ensures setting.Some? && |setting.value| > 0 && parseDecimal(setting.value).None? ==> t == Tolerance(Zero, true)
    ensures setting.Some? && |setting.value| > 0 && parseDecimal(setting.value).Some? ==>
              t.divergence == parseDecimal(setting.value).value
  {
    if setting.None? || |setting.value| == 0 then Tolerance(Zero, true)
    else
      var parsed := parseDecimal(setting.value);
      if parsed.None? then Tolerance(Zero, true)
      else Tolerance(parsed.value, parsed.value.value == 0.0)
  }

  /** The tolerance a comparison uses: resolved on first use, then kept. */
  function WithTolerance(p: Policy, setting: Option<JString>, parseDecimal: JString -> Option<BigDec>): (r: Policy)
    ensures r.tolerance.Some?
    ensures r.exceedPercent == p.exceedPercent && r.minimumMillis == p.minimumMillis
    ensures p.tolerance.Some? ==> r == p
    ensures p.tolerance.None? ==> r.tolerance == Some(ResolveTolerance(setting, parseDecimal))
  {
    if p.tolerance.Some? then p
    else p.(tolerance := Some(ResolveTolerance(setting, parseDecimal)))
  }

  /** The first resolution wins: later settings are ignored. */
  lemma ToleranceResolvedOnce(p: Policy, first: Option<JString>, later: Option<JString>, parseDecimal: JString -> Option<BigDec>)
    ensures WithTolerance(WithTolerance(p, first, parseDecimal), later, parseDecimal) == WithTolerance(p, first, parseDecimal)
  {
  }
}

=== FILE: result_sets.dfy ===
/**
  `compareResultSets`: the identifier check, the row counts, and the cell
  by cell walk that collects every cell failure before it decides.
*/
module ResultSets {
  import opened Wrappers
  import opened JavaStrings
  import opened Values
  import opened Failures
  import opened MultiFailures
  import opened Outcomes
  import opened Policies
  import opened CellCompare
  import opened Identifiers

  /** The first `n` rows on both sides have at least `cols` values. */
  predicate WideUpTo(actual: seq<Tagged>, expected: seq<Tagged>, cols: nat, n: nat) {
    && n <= |actual| && n <= |expected|
    && forall i :: 0 <= i < n ==> cols <= |actual[i].values| && cols <= |expected[i].values|
  }

  /** Where a cell failure is reported: row and column are 1-based positions
      in the compared (possibly sorted) lists, the other two the 1-based
      positions of the same records in the lists as they were read. */
  function CellOf(actual: seq<Tagged>, expected: seq<Tagged>, r: nat, c: nat): (cell: Cell)
    requires r < |actual| && r < |expected|
    ensures cell.row == r + 1 && cell.column == c + 1
    ensures cell.actualRow == actual[r].index + 1 && cell.expectedRow == expected[r].index + 1
  {
    Cell(r + 1, c + 1, actual[r].index + 1, expected[r].index + 1)
  }

  /** The runtime error (if any) that stops the walk at row `r`, column `c`:
      an index error when either record is too short, otherwise the error
      `compareResultColumn` raises. */
  function CellAbort(t: Tolerance, accepts: FormatAccepts, actual: seq<Tagged>, expected: seq<Tagged>, r: nat, c: nat)
    : (a: Option<Abort>)
    requires r < |actual| && r < |expected|
    ensures a.None? ==> c < |actual[r].values| && c < |expected[r].values|
    ensures (c >= |actual[r].values| || c >= |expected[r].values|) ==> a == Some(IndexOutOfBounds)
    ensures c < |actual[r].values| && c < |expected[r].values| ==>
              var res := CompareCell(t, accepts, actual[r].values[c], expected[r].values[c], CellOf(actual, expected, r, c));
              (a.None? <==> res.Ok?) && (a.Some? ==> res == Err(a.value))
  {
    if c >= |actual[r].values| || c >= |expected[r].values| then Some(IndexOutOfBounds)
    else
      var e := expected[r].values[c];
      var v := actual[r].values[c];
      if e.Str? && v.Str? && e != v && FormatRejects(accepts, e.s, v.s) then Some(InvalidFormat) else None
  }

  /** The failure (if any) of the cell at row `r`, column `c`; none where
      the cell stops the walk instead. */
  function CellFailure(t: Tolerance, accepts: FormatAccepts, actual: seq<Tagged>, expected: seq<Tagged>, r: nat, c: nat)
    : (f: Option<Failure>)
    requires r < |actual| && r < |expected| && c < |actual[r].values| && c < |expected[r].values|
    ensures f.Some? ==> f.value.IsCellFailure() && f.value.cell == CellOf(actual, expected, r, c)
    ensures CellAbort(t, accepts, actual, expected, r, c).None? ==>
              (f.None? <==> CellMatches(t, expected[r].values[c], actual[r].values[c]))
  {
    var res := CompareCell(t, accepts, actual[r].values[c], expected[r].values[c], CellOf(actual, expected, r, c));
    if res.Ok? then res.value else None
  }

  /** No cell of the first `n` rows, in the first `cols` columns, stops the walk. */
  predicate QuietUpTo(t: Tolerance, accepts: FormatAccepts, actual: seq<Tagged>, expected: seq<Tagged>, cols: nat, n: nat) {
    && n <= |actual| && n <= |expected|
    && forall i, k :: 0 <= i < n && 0 <= k < cols ==> CellAbort(t, accepts, actual, expected, i, k).None?
  }

  /** No cell of row `r` before column `c` stops the walk. */
  predicate RowQuietUpTo(t: Tolerance, accepts: FormatAccepts, actual: seq<Tagged>, expected: seq<Tagged>, r: nat, c: nat)
    requires r < |actual| && r < |expected|
  {
    forall k :: 0 <= k < c ==> CellAbort(t, accepts, actual, expected, r, k).None?
  }

  /** A quiet stretch of rows is wide enough for the columns walked. */
  lemma QuietIsWide(t: Tolerance, accepts: FormatAccepts, actual: seq<Tagged>, expected: seq<Tagged>, cols: nat, n: nat)
    requires QuietUpTo(t, accepts, actual, expected, cols, n)
    ensures WideUpTo(actual, expected, cols, n)
  {
    forall i | 0 <= i < n
      ensures cols <= |actual[i].values| && cols <= |expected[i].values|
    {
      if cols > 0 {
        assert CellAbort(t, accepts, actual, expected, i, cols - 1).None?;
      }
    }
  }

  /** The failures of the first `c` cells of row `r`, in column order. */
  function RowFailures(t: Tolerance, accepts: FormatAccepts, actual: seq<Tagged>, expected: seq<Tagged>, r: nat, c: nat)
    : (fs: seq<Failure>)
    requires r < |actual| && r < |expected| && c <= |actual[r].values| && c <= |expected[r].values|
    ensures |fs| <= c
    decreases c
  {
    if c == 0 then []
    else
      var f := CellFailure(t, accepts, actual, expected, r, c - 1);
      RowFailures(t, accepts, actual, expected, r, c - 1) + (if f.Some? then [f.value] else [])
  }

  /** The failures of the first `n` rows, row after row. */
  function GridFailures(t: Tolerance, accepts: FormatAccepts, actual: seq<Tagged>, expected: seq<Tagged>, cols: nat, n: nat)
    : (fs: seq<Failure>)
    requires WideUpTo(actual, expected, cols, n)
    ensures |fs| <= n * cols
    decreases n
  {
    if n == 0 then []
    else GridFailures(t, accepts, actual, expected, cols, n - 1) + RowFailures(t, accepts, actual, expected, n - 1, cols)
  }

  /** A row has no failures exactly when each of its cells matches. */
  lemma {:induction false} RowFailuresEmpty(t: Tolerance, accepts: FormatAccepts, actual: seq<Tagged>, expected: seq<Tagged>, r: nat, c: nat)
    requires r < |actual| && r < |expected| && c <= |actual[r].values| && c <= |expected[r].values|
    requires RowQuietUpTo(t, accepts, actual, expected, r, c)
    ensures |RowFailures(t, accepts, actual, expected, r, c)| == 0 <==>
              forall k :: 0 <= k < c ==> CellMatches(t, expected[r].values[k], actual[r].values[k])
    decreases c
  {
    if c > 0 {
      assert CellAbort(t, accepts, actual, expected, r, c - 1).None?;
      RowFailuresEmpty(t, accepts, actual, expected, r, c - 1);
    }
  }

  /** The grid has no failures exactly when every cell matches. */
  lemma {:induction false} GridFailuresEmpty(t: Tolerance, accepts: FormatAccepts, actual: seq<Tagged>, expected: seq<Tagged>, cols: nat, n: nat)
    requires QuietUpTo(t, accepts, actual, expected, cols, n)
    ensures WideUpTo(actual, expected, cols, n)
    ensures |GridFailures(t, accepts, actual, expected, cols, n)| == 0 <==>
              forall i, k :: 0 <= i < n && 0 <= k < cols ==> CellMatches(t, expected[i].values[k], actual[i].values[k])
    decreases n
  {
    QuietIsWide(t, accepts, actual, expected, cols, n);
    if n > 0 {
      assert QuietUpTo(t, accepts, actual, expected, cols, n - 1);
      GridFailuresEmpty(t, accepts, actual, expected, cols, n - 1);
      RowFailuresEmpty(t, accepts, actual, expected, n - 1, cols);
    }
  }

  /** A mismatching cell's failure is in its row's list when no cell before
      it stops the walk: later cells are compared after earlier failures. */
  lemma {:induction false} RowMismatchReported(t: Tolerance, accepts: FormatAccepts, actual: seq<Tagged>, expected: seq<Tagged>,
                                               r: nat, c: nat, k: nat)
    requires r < |actual| && r < |expected| && c <= |actual[r].values| && c <= |expected[r].values|
    requires RowQuietUpTo(t, accepts, actual, expected, r, c)
    requires k < c && !CellMatches(t, expected[r].values[k], actual[r].values[k])
    ensures CellFailure(t, accepts, actual, expected, r, k).Some?
    ensures CellFailure(t, accepts, actual, expected, r, k).value in RowFailures(t, accepts, actual, expected, r, c)
    decreases c
  {
    assert CellAbort(t, accepts, actual, expected, r, k).None?;
    if k < c - 1 {
      RowMismatchReported(t, accepts, actual, expected, r, c - 1, k);
    }
  }

  /** When no cell of the first `n` rows stops the walk, every mismatching
      cell among them is reported, wherever it lies: a failure does not end
      the walk. */
  lemma {:induction false} MismatchReported(t: Tolerance, accepts: FormatAccepts, actual: seq<Tagged>, expected: seq<Tagged>,
                                            cols: nat, n: nat, i: nat, k: nat)
    requires WideUpTo(actual, expected, cols, n) && QuietUpTo(t, accepts, actual, expected, cols, n)
    requires i < n && k < cols
    requires !CellMatches(t, expected[i].values[k], actual[i].values[k])
    ensures CellFailure(t, accepts, actual, expected, i, k).Some?
    ensures CellFailure(t, accepts, actual, expected, i, k).value in GridFailures(t, accepts, actual, expected, cols, n)
    decreases n
  {
    if i < n - 1 {
      assert QuietUpTo(t, accepts, actual, expected, cols, n - 1);
      MismatchReported(t, accepts, actual, expected, cols, n - 1, i, k);
    } else {
      RowMismatchReported(t, accepts, actual, expected, i, cols, k);
    }
  }

  /** One more cell appended to a row's failures. */
  lemma RowStep(t: Tolerance, accepts: FormatAccepts, actual: seq<Tagged>, expected: seq<Tagged>, cols: nat, r: nat, c: nat, m: MultiFailure)
    requires WideUpTo(actual, expected, cols, r)
    requires r < |actual| && r < |expected| && c < |actual[r].values| && c < |expected[r].values|
    requires m == Collect(GridFailures(t, accepts, actual, expected, cols, r) + RowFailures(t, accepts, actual, expected, r, c))
    ensures var f := CellFailure(t, accepts, actual, expected, r, c);
      Collect(GridFailures(t, accepts, actual, expected, cols, r) + RowFailures(t, accepts, actual, expected, r, c + 1)) ==
        if f.Some? then AddFailure(m, f.value) else m
  {
    var done := GridFailures(t, accepts, actual, expected, cols, r);
    var row := RowFailures(t, accepts, actual, expected, r, c);
    var f := CellFailure(t, accepts, actual, expected, r, c);
    if f.Some? {
      assert done + (row + [f.value]) == (done + row) + [f.value];
      CollectSnoc(done + row, f.value);
    } else {
      assert row + [] == row;
    }
  }

  /** Every cell of the first `cols` columns matches its counterpart. */
  predicate AllCellsMatch(t: Tolerance, actual: seq<Tagged>, expected: seq<Tagged>, cols: nat)
    requires WideUpTo(actual, expected, cols, |actual|)
  {
    forall i, k :: 0 <= i < |actual| && 0 <= k < cols ==> CellMatches(t, expected[i].values[k], actual[i].values[k])
  }

  // ----- the first cell that stops the walk -----

  /** The error of the first cell of row `r`, from column `c` on, that stops the walk. */
  function FirstAbortInRow(t: Tolerance, accepts: FormatAccepts, actual: seq<Tagged>, expected: seq<Tagged>, cols: nat, r: nat, c: nat)
    : Option<Abort>
    requires r < |actual| && r < |expected| && c <= cols
    decreases cols - c
  {
    if c == cols then None
    else
      var a := CellAbort(t, accepts, actual, expected, r, c);
      if a.Some? then a else FirstAbortInRow(t, accepts, actual, expected, cols, r, c + 1)
  }

  /** The error of the first cell, in row-major order from row `r` on, that stops the walk. */
  function FirstAbort(t: Tolerance, accepts: FormatAccepts, actual: seq<Tagged>, expected: seq<Tagged>, cols: nat, r: nat)
    : Option<Abort>
    requires |actual| == |expected| && r <= |actual|
    decreases |actual| - r
  {
    if r == |actual| then None
    else
      var a := FirstAbortInRow(t, accepts, actual, expected, cols, r, 0);
      if a.Some? then a else FirstAbort(t, accepts, actual, expected, cols, r + 1)
  }

  /** Cell (`i`, `k`) comes first among the cells from row `r` on that stop
      the walk: every cell before it in row-major order lets the walk go on. */
  predicate FirstToStop(t: Tolerance, accepts: FormatAccepts, actual: seq<Tagged>, expected: seq<Tagged>, cols: nat, r: nat, i: nat, k: nat)
    requires i < |actual| && i < |expected|
  {
    && CellAbort(t, accepts, actual, expected, i, k).Some?
    && RowQuietUpTo(t, accepts, actual, expected, i, k)
    && forall j, l :: r <= j < i && 0 <= l < cols ==> CellAbort(t, accepts, actual, expected, j, l).None?
  }

  /** The row search finds nothing exactly when the rest of the row is
      quiet, and otherwise the error of the first stopping cell. */
  lemma {:induction false} FirstAbortInRowFound(t: Tolerance, accepts: FormatAccepts, actual: seq<Tagged>, expected: seq<Tagged>,
                                                cols: nat, r: nat, c: nat)
    requires r < |actual| && r < |expected| && c <= cols
    requires RowQuietUpTo(t, accepts, actual, expected, r, c)
    ensures var a := FirstAbortInRow(t, accepts, actual, expected, cols, r, c);
      && (a.None? <==> RowQuietUpTo(t, accepts, actual, expected, r, cols))
      && (a.Some? ==> exists k :: c <= k < cols && RowQuietUpTo(t, accepts, actual, expected, r, k)
                                 && CellAbort(t, accepts, actual, expected, r, k) == a)
    decreases cols - c
  {
    if c < cols {
      var a := CellAbort(t, accepts, actual, expected, r, c);
      if a.None? {
        FirstAbortInRowFound(t, accepts, actual, expected, cols, r, c + 1);
      } else {
        assert !RowQuietUpTo(t, accepts, actual, expected, r, cols);
      }
    }
  }

  /** The search from row `r` finds nothing exactly when every cell from
      row `r` on is quiet, and otherwise the error of the first stopping
      cell in row-major order. */
  lemma {:induction false} FirstAbortFound(t: Tolerance, accepts: FormatAccepts, actual: seq<Tagged>, expected: seq<Tagged>,
                                           cols: nat, r: nat)
    requires |actual| == |expected| && r <= |actual|
    ensures var a := FirstAbort(t, accepts, actual, expected, cols, r);
      && (a.None? <==> forall i, k :: r <= i < |actual| && 0 <= k < cols ==> CellAbort(t, accepts, actual, expected, i, k).None?)
      && (a.Some? ==> exists i, k :: r <= i < |actual| && 0 <= k && FirstToStop(t, accepts, actual, expected, cols, r, i, k)
                                    && CellAbort(t, accepts, actual, expected, i, k) == a)
    decreases |actual| - r
  {
    if r < |actual| {
      var a := FirstAbortInRow(t, accepts, actual, expected, cols, r, 0);
      FirstAbortInRowFound(t, accepts, actual, expected, cols, r, 0);
      if a.None? {
        FirstAbortFound(t, accepts, actual, expected, cols, r + 1);
        var b := FirstAbort(t, accepts, actual, expected, cols, r + 1);
        if b.Some? {
          var i, k :| r + 1 <= i < |actual| && 0 <= k && FirstToStop(t, accepts, actual, expected, cols, r + 1, i, k)
                      && CellAbort(t, accepts, actual, expected, i, k) == b;
          assert FirstToStop(t, accepts, actual, expected, cols, r, i, k);
        } else {
          forall i, k | r <= i < |actual| && 0 <= k < cols
            ensures CellAbort(t, accepts, actual, expected, i, k).None?
          {
            if i == r {
              assert RowQuietUpTo(t, accepts, actual, expected, r, cols);
            }
          }
        }
      } else {
        var k :| 0 <= k < cols && RowQuietUpTo(t, accepts, actual, expected, r, k)
                 && CellAbort(t, accepts, actual, expected, r, k) == a;
        assert FirstToStop(t, accepts, actual, expected, cols, r, r, k);
      }
    }
  }

  /** A quiet prefix of rows does not change where the search ends. */
  lemma {:induction false} FirstAbortSkipsQuiet(t: Tolerance, accepts: FormatAccepts, actual: seq<Tagged>, expected: seq<Tagged>,
                                                cols: nat, r: nat)
    requires |actual| == |expected|
    requires QuietUpTo(t, accepts, actual, expected, cols, r)
    ensures FirstAbort(t, accepts, actual, expected, cols, 0) == FirstAbort(t, accepts, actual, expected, cols, r)
    decreases r
  {
    if r > 0 {
      assert QuietUpTo(t, accepts, actual, expected, cols, r - 1);
      FirstAbortSkipsQuiet(t, accepts, actual, expected, cols, r - 1);
      FirstAbortInRowFound(t, accepts, actual, expected, cols, r - 1, 0);
    }
  }

  /** A quiet start of a row does not change where the row search ends. */
  lemma {:induction false} FirstAbortInRowSkipsQuiet(t: Tolerance, accepts: FormatAccepts, actual: seq<Tagged>, expected: seq<Tagged>,
                                                     cols: nat, r: nat, c: nat)
    requires r < |actual| && r < |expected| && c <= cols
    requires RowQuietUpTo(t, accepts, actual, expected, r, c)
    ensures FirstAbortInRow(t, accepts, actual, expected, cols, r, 0) == FirstAbortInRow(t, accepts, actual, expected, cols, r, c)
    decreases c
  {
    if c > 0 {
      FirstAbortInRowSkipsQuiet(t, accepts, actual, expected, cols, r, c - 1);
    }
  }

  /** How the cell walk over two lists of equal length ends: the error of
      the first cell in row-major order that stops it (a record shorter than
      `cols`, or a mismatch message `MessageFormat` rejects), otherwise the
      verdict on the collected failures. */
  function GridOutcome(t: Tolerance, accepts: FormatAccepts, actual: seq<Tagged>, expected: seq<Tagged>, cols: nat): (o: Outcome)
    requires |actual| == |expected|
    ensures o.Aborted? <==> !QuietUpTo(t, accepts, actual, expected, cols, |actual|)
    ensures o.Aborted? ==> exists i, k :: 0 <= i < |actual| && 0 <= k && FirstToStop(t, accepts, actual, expected, cols, 0, i, k)
                                          && CellAbort(t, accepts, actual, expected, i, k) == Some(o.reason)
    ensures !WideUpTo(actual, expected, cols, |actual|) ==> o.Aborted?
    ensures o.Pass? <==> WideUpTo(actual, expected, cols, |actual|) && AllCellsMatch(t, actual, expected, cols)
    ensures o.Fail? ==> o.failure.IsCellFailure()
  {
    FirstAbortFound(t, accepts, actual, expected, cols, 0);
    var a := FirstAbort(t, accepts, actual, expected, cols, 0);
    if a.Some? then
      assert !QuietUpTo(t, accepts, actual, expected, cols, |actual|);
      NoAbortWhenAllMatch(t, accepts, actual, expected, cols);
      Aborted(a.value)
    else
      assert QuietUpTo(t, accepts, actual, expected, cols, |actual|);
      GridFailuresEmpty(t, accepts, actual, expected, cols, |actual|);
      var fs := GridFailures(t, accepts, actual, expected, cols, |actual|);
      GridFailuresAreCells(t, accepts, actual, expected, cols, |actual|);
      VerdictOf(fs)
  }

  /** Where every cell matches, no cell stops the walk: a rejected message
      needs two different strings. */
  lemma NoAbortWhenAllMatch(t: Tolerance, accepts: FormatAccepts, actual: seq<Tagged>, expected: seq<Tagged>, cols: nat)
    requires |actual| == |expected|
    ensures WideUpTo(actual, expected, cols, |actual|) && AllCellsMatch(t, actual, expected, cols) ==>
              QuietUpTo(t, accepts, actual, expected, cols, |actual|)
  {
  }

  /** When the walk ends without an error, the outcome is the verdict on
      the failures of every mismatching cell, in row-major order. */
  lemma GridOutcomeCollects(t: Tolerance, accepts: FormatAccepts, actual: seq<Tagged>, expected: seq<Tagged>, cols: nat)
    requires |actual| == |expected|
    requires !GridOutcome(t, accepts, actual, expected, cols).Aborted?
    ensures WideUpTo(actual, expected, cols, |actual|)
    ensures GridOutcome(t, accepts, actual, expected, cols) == VerdictOf(GridFailures(t, accepts, actual, expected, cols, |actual|))
  {
    FirstAbortFound(t, accepts, actual, expected, cols, 0);
    QuietIsWide(t, accepts, actual, expected, cols, |actual|);
  }

  /** Every collected failure is a cell failure inside the walked grid. */
  lemma {:induction false} GridFailuresAreCells(t: Tolerance, accepts: FormatAccepts, actual: seq<Tagged>, expected: seq<Tagged>, cols: nat, n: nat)
    requires WideUpTo(actual, expected, cols, n)
    ensures forall f :: f in GridFailures(t, accepts, actual, expected, cols, n) ==>
              f.IsCellFailure() && 1 <= f.cell.row <= n && 1 <= f.cell.column <= cols
    decreases n
  {
    if n > 0 {
      var before := GridFailures(t, accepts, actual, expected, cols, n - 1);
      var row := RowFailures(t, accepts, actual, expected, n - 1, cols);
      assert CellsWithin(before, n, cols) by {
        GridFailuresAreCells(t, accepts, actual, expected, cols, n - 1);
      }
      assert CellsWithin(row, n, cols) by {
        RowFailuresAreCells(t, accepts, actual, expected, n - 1, cols);
      }
      CellsWithinConcat(before, row, n, cols);
      assert GridFailures(t, accepts, actual, expected, cols, n) == before + row;
    }
  }

  /** Every failure in `fs` is a cell failure within `rows` rows and `cols` columns. */
  predicate CellsWithin(fs: seq<Failure>, rows: nat, cols: nat) {
    forall f :: f in fs ==> f.IsCellFailure() && 1 <= f.cell.row <= rows && 1 <= f.cell.column <= cols
  }

  lemma CellsWithinConcat(a: seq<Failure>, b: seq<Failure>, rows: nat, cols: nat)
    requires CellsWithin(a, rows, cols) && CellsWithin(b, rows, cols)
    ensures CellsWithin(a + b, rows, cols)
  {
  }

  lemma {:induction false} RowFailuresAreCells(t: Tolerance, accepts: FormatAccepts, actual: seq<Tagged>, expected: seq<Tagged>, r: nat, c: nat)
    requires r < |actual| && r < |expected| && c <= |actual[r].values| && c <= |expected[r].values|
    ensures forall f :: f in RowFailures(t, accepts, actual, expected, r, c) ==>
              f.IsCellFailure() && f.cell.row == r + 1 && 1 <= f.cell.column <= c
    decreases c
  {
    if c > 0 {
      RowFailuresAreCells(t, accepts, actual, expected, r, c - 1);
    }
  }

  /** The cell walk of `compareResultSets` over lists of equal length:
      every cell of the first `cols` columns is compared and its failure
      collected; a record shorter than `cols`, or a mismatch message that
      `MessageFormat` rejects, stops it with that error. */
  method CompareGrid(t: Tolerance, accepts: FormatAccepts, actual: seq<Tagged>, expected: seq<Tagged>, cols: nat) returns (o: Outcome)
    requires |actual| == |expected|
    ensures o == GridOutcome(t, accepts, actual, expected, cols)
  {
    var m := Empty;
    var r := 0;
    while r < |actual|
      invariant 0 <= r <= |actual|
      invariant QuietUpTo(t, accepts, actual, expected, cols, r)
      invariant WideUpTo(actual, expected, cols, r)
      invariant m == Collect(GridFailures(t, accepts, actual, expected, cols, r))
    {
      var stop;
      stop, m := CompareRow(t, accepts, actual, expected, cols, r, m);
      if stop.Some? {
        FirstAbortSkipsQuiet(t, accepts, actual, expected, cols, r);
        return Aborted(stop.value);
      }
      r := r + 1;
    }
    FirstAbortSkipsQuiet(t, accepts, actual, expected, cols, |actual|);
    CollectKeepsPrefix(GridFailures(t, accepts, actual, expected, cols, |actual|));
    o := Verdict(m);
  }

  /** The inner loop of the cell walk over row `r`: the error of the first
      cell of the row that stops the walk, if any; otherwise the collector
      with the row's failures added, in column order. */
  method CompareRow(t: Tolerance, accepts: FormatAccepts, actual: seq<Tagged>, expected: seq<Tagged>, cols: nat, r: nat,
                    m0: MultiFailure)
    returns (stop: Option<Abort>, m: MultiFailure)
    requires |actual| == |expected| && r < |actual|
    requires QuietUpTo(t, accepts, actual, expected, cols, r) && WideUpTo(actual, expected, cols, r)
    requires m0 == Collect(GridFailures(t, accepts, actual, expected, cols, r))
    ensures stop == FirstAbortInRow(t, accepts, actual, expected, cols, r, 0)
    ensures stop.None? ==>
              && QuietUpTo(t, accepts, actual, expected, cols, r + 1) && WideUpTo(actual, expected, cols, r + 1)
              && m == Collect(GridFailures(t, accepts, actual, expected, cols, r + 1))
  {
    m := m0;
    var c := 0;
    assert GridFailures(t, accepts, actual, expected, cols, r) + RowFailures(t, accepts, actual, expected, r, 0) ==
           GridFailures(t, accepts, actual, expected, cols, r);
    while c < cols
      invariant 0 <= c <= cols
      invariant c <= |actual[r].values| && c <= |expected[r].values|
      invariant RowQuietUpTo(t, accepts, actual, expected, r, c)
      invariant m == Collect(GridFailures(t, accepts, actual, expected, cols, r) + RowFailures(t, accepts, actual, expected, r, c))
    {
      if c >= |actual[r].values| || c >= |expected[r].values| {
        FirstAbortInRowSkipsQuiet(t, accepts, actual, expected, cols, r, c);
        return Some(IndexOutOfBounds), m;
      }
      var res := CompareCell(t, accepts, actual[r].values[c], expected[r].values[c], CellOf(actual, expected, r, c));
      if res.Err? {
        FirstAbortInRowSkipsQuiet(t, accepts, actual, expected, cols, r, c);
        return Some(res.error), m;
      }
      RowStep(t, accepts, actual, expected, cols, r, c, m);
      if res.value.Some? {
        m := AddFailure(m, res.value.value);
      }
      c := c + 1;
    }
    FirstAbortInRowSkipsQuiet(t, accepts, actual, expected, cols, r, cols);
    stop := None;
  }

  /** The walk stops at a cell whose predecessors are all quiet with that
      cell's error. */
  lemma Stopped(t: Tolerance, accepts: FormatAccepts, actual: seq<Tagged>, expected: seq<Tagged>, cols: nat, r: nat, c: nat)
    requires |actual| == |expected| && r < |actual| && c < cols
    requires QuietUpTo(t, accepts, actual, expected, cols, r)
    requires RowQuietUpTo(t, accepts, actual, expected, r, c)
    requires CellAbort(t, accepts, actual, expected, r, c).Some?
    ensures GridOutcome(t, accepts, actual, expected, cols) == Aborted(CellAbort(t, accepts, actual, expected, r, c).value)
  {
    FirstAbortSkipsQuiet(t, accepts, actual, expected, cols, r);
    FirstAbortInRowSkipsQuiet(t, accepts, actual, expected, cols, r, c);
  }

  /** `compareResultSets`: the identifiers first (a failure there is the
      outcome), then fewer or more actual rows than expected, then the
      divergence is resolved for the policy and every cell of the columns the
      actual identifiers name is compared. The policy comes back with the
      divergence resolved once the row counts agree. */
  function ResultSetsOutcome(policy: Policy, divergenceSetting: Option<JString>, parseDecimal: JString -> Option<BigDec>,
                             accepts: FormatAccepts,
                             actual: seq<Tagged>, actualTypes: seq<JString>, actualIds: seq<JString>,
                             expected: seq<Tagged>, expectedTypes: seq<JString>, expectedIds: seq<JString>,
                             blobName: BlobTypeName): (r: (Outcome, Policy))
    ensures var ids := CompareIdentifiers(actualIds, expectedIds, actualTypes, expectedTypes, blobName);
      && (!ids.Pass? ==> r == (ids, policy))
      && (ids.Pass? && |actual| < |expected| ==> r == (Fail(TooFewRows(|expected|, |actual|)), policy))
      && (ids.Pass? && |actual| > |expected| ==> r == (Fail(TooManyRows(|expected|, |actual|)), policy))
      && (ids.Pass? && |actual| == |expected| ==>
            && r.1 == WithTolerance(policy, divergenceSetting, parseDecimal)
            && r.0 == GridOutcome(r.1.tolerance.value, accepts, actual, expected, |actualIds|))
  {
    var ids := CompareIdentifiers(actualIds, expectedIds, actualTypes, expectedTypes, blobName);
    if !ids.Pass? then (ids, policy)
    else if |actual| < |expected| then (Fail(TooFewRows(|expected|, |actual|)), policy)
    else if |actual| > |expected| then (Fail(TooManyRows(|expected|, |actual|)), policy)
    else
      var p := WithTolerance(policy, divergenceSetting, parseDecimal);
      (GridOutcome(p.tolerance.value, accepts, actual, expected, |actualIds|), p)
  }

  /** The same comparison with the cell walk run as loops. */
  method CompareResultSets(policy: Policy, divergenceSetting: Option<JString>, parseDecimal: JString -> Option<BigDec>,
                           accepts: FormatAccepts,
                           actual: seq<Tagged>, actualTypes: seq<JString>, actualIds: seq<JString>,
                           expected: seq<Tagged>, expectedTypes: seq<JString>, expectedIds: seq<JString>,
                           blobName: BlobTypeName)
    returns (o: Outcome, p: Policy)
    ensures (o, p) == ResultSetsOutcome(policy, divergenceSetting, parseDecimal, accepts, actual, actualTypes, actualIds,
                                        expected, expectedTypes, expectedIds, blobName)
  {
    var ids := CompareIdentifiers(actualIds, expectedIds, actualTypes, expectedTypes, blobName);
    if !ids.Pass? {
      return ids, policy;
    }
    if |actual| < |expected| {
      return Fail(TooFewRows(|expected|, |actual|)), policy;
    } else if |actual| > |expected| {
      return Fail(TooManyRows(|expected|, |actual|)), policy;
    }
    p := WithTolerance(policy, divergenceSetting, parseDecimal);
    o := CompareGrid(p.tolerance.value, accepts, actual, expected, |actualIds|);
  }

  /** The comparison passes exactly when the identifiers pass, the row
      counts agree, every record is wide enough and every cell matches under
      the resolved divergence; the timing thresholds are never touched. */
  lemma ResultSetsPass(policy: Policy, divergenceSetting: Option<JString>, parseDecimal: JString -> Option<BigDec>,
                       accepts: FormatAccepts,
                       actual: seq<Tagged>, actualTypes: seq<JString>, actualIds: seq<JString>,
                       expected: seq<Tagged>, expectedTypes: seq<JString>, expectedIds: seq<JString>,
                       blobName: BlobTypeName)
    ensures var r := ResultSetsOutcome(policy, divergenceSetting, parseDecimal, accepts, actual, actualTypes, actualIds,
                                       expected, expectedTypes, expectedIds, blobName);
      && r.1.exceedPercent == policy.exceedPercent && r.1.minimumMillis == policy.minimumMillis
      && (r.0.Pass? <==>
            && CompareIdentifiers(actualIds, expectedIds, actualTypes, expectedTypes, blobName).Pass?
            && |actual| == |expected|
            && WideUpTo(actual, expected, |actualIds|, |actual|)
            && AllCellsMatch(r.1.tolerance.value, actual, expected, |actualIds|))
  {
  }
}

=== FILE: row_order.dfy ===
/**
  Sorting the rows of an unordered query before they are compared
  positionally, and the bookkeeping that maps a sorted row back to its
  original position.
*/
module RowOrder {
  import opened JavaStrings
  import opened Values

  /** The row comparator `ListNestedSortComparator` over the first `k`
      columns, ascending: `le(k, a, b)` when row `a` may come before row `b`. */
  type Order = (nat, Row, Row) -> bool

  /** What `Collections.sort` needs of a comparator: a total preorder. */
  ghost predicate TotalPreorder(le: Order, k: nat) {
    && (forall a: Row, b: Row :: le(k, a, b) || le(k, b, a))
    && (forall a: Row, b: Row, c: Row :: le(k, a, b) && le(k, b, c) ==> le(k, a, c))
  }

  predicate Sorted(rows: seq<Tagged>, le: Order, k: nat) {
    forall i, j :: 0 <= i < j < |rows| ==> le(k, rows[i].values, rows[j].values)
  }

  /** Inserts `x` into `rows` after every row that does not sort strictly after it. */
  function Insert(x: Tagged, rows: seq<Tagged>, le: Order, k: nat): (r: seq<Tagged>)
    ensures multiset(r) == multiset(rows) + multiset{x}
    ensures |r| == |rows| + 1
    decreases |rows|
  {
    if |rows| == 0 then [x]
    else if le(k, x.values, rows[0].values) && !le(k, rows[0].values, x.values) then [x] + rows
    else
      assert rows == [rows[0]] + rows[1..];
      [rows[0]] + Insert(x, rows[1..], le, k)
  }

  /** A stable insertion sort on the first `k` columns. */
  function SortBy(rows: seq<Tagged>, le: Order, k: nat): (r: seq<Tagged>)
    ensures multiset(r) == multiset(rows)
    ensures |r| == |rows|
    decreases |rows|
  {
    if |rows| == 0 then []
    else
      assert rows == rows[..|rows| - 1] + [rows[|rows| - 1]];
      Insert(rows[|rows| - 1], SortBy(rows[..|rows| - 1], le, k), le, k)
  }

  lemma {:induction false} InsertSorted(x: Tagged, rows: seq<Tagged>, le: Order, k: nat)
    requires TotalPreorder(le, k)
    requires Sorted(rows, le, k)
    ensures Sorted(Insert(x, rows, le, k), le, k)
    decreases |rows|
  {
    if |rows| > 0 {
      var r := Insert(x, rows, le, k);
      if le(k, x.values, rows[0].values) && !le(k, rows[0].values, x.values) {
        forall i, j | 0 <= i < j < |r| ensures le(k, r[i].values, r[j].values) {
          if i == 0 {
            assert r[j] == rows[j - 1];
            if j > 1 {
              assert le(k, rows[0].values, rows[j - 1].values);
            }
          } else {
            assert r[i] == rows[i - 1] && r[j] == rows[j - 1];
          }
        }
      } else {
        var tail := Insert(x, rows[1..], le, k);
        InsertSorted(x, rows[1..], le, k);
        assert le(k, rows[0].values, x.values);
        InsertKeepsLowerBound(rows[0].values, x, rows[1..], le, k);
        assert r == [rows[0]] + tail;
        forall i, j | 0 <= i < j < |r| ensures le(k, r[i].values, r[j].values) {
          if i == 0 {
            assert r[j] == tail[j - 1];
          } else {
            assert r[i] == tail[i - 1] && r[j] == tail[j - 1];
          }
        }
      }
    }
  }

  /** Row `y` may come before every row of `rows`. */
  predicate LowerBound(y: Row, rows: seq<Tagged>, le: Order, k: nat) {
    forall i :: 0 <= i < |rows| ==> le(k, y, rows[i].values)
  }

  /** A row that may come before every row and before `x` may still come
      before every row once `x` is inserted. */
  lemma {:induction false} InsertKeepsLowerBound(y: Row, x: Tagged, rows: seq<Tagged>, le: Order, k: nat)
    requires LowerBound(y, rows, le, k) && le(k, y, x.values)
    ensures LowerBound(y, Insert(x, rows, le, k), le, k)
    decreases |rows|
  {
    if |rows| > 0 && !(le(k, x.values, rows[0].values) && !le(k, rows[0].values, x.values)) {
      InsertKeepsLowerBound(y, x, rows[1..], le, k);
      var tail := Insert(x, rows[1..], le, k);
      assert Insert(x, rows, le, k) == [rows[0]] + tail;
      forall i | 0 <= i < |tail| + 1 ensures le(k, y, ([rows[0]] + tail)[i].values) {
        if i > 0 {
          assert ([rows[0]] + tail)[i] == tail[i - 1];
        }
      }
    }
  }

  /** Under a total preorder the sort orders the rows and only reorders them. */
  lemma {:induction false} SortBySorted(rows: seq<Tagged>, le: Order, k: nat)
    requires TotalPreorder(le, k)
    ensures Sorted(SortBy(rows, le, k), le, k)
    ensures multiset(SortBy(rows, le, k)) == multiset(rows)
    decreases |rows|
  {
    if |rows| > 0 {
      SortBySorted(rows[..|rows| - 1], le, k);
      InsertSorted(rows[|rows| - 1], SortBy(rows[..|rows| - 1], le, k), le, k);
    }
  }

  /** The number of key columns: the first row's width, at most 3. */
  function KeyColumns(rows: seq<Tagged>): (k: nat)
    ensures k <= 3
    ensures |rows| > 0 ==> k == Min(3, |rows[0].values|)
  {
    if |rows| == 0 then 0 else Min(3, |rows[0].values|)
  }

  /** `sortRecords`: nothing to do for an empty list or zero-width rows,
      otherwise sorts on the first `KeyColumns` columns. */
  function SortRecords(rows: seq<Tagged>, le: Order): (r: seq<Tagged>)
    ensures multiset(r) == multiset(rows)
    ensures KeyColumns(rows) == 0 ==> r == rows
  {
    var k := KeyColumns(rows);
    if k == 0 then rows else SortBy(rows, le, k)
  }

  /** The order in which the two lists are compared: both sorted when the
      query is unordered and both have rows, both untouched otherwise. */
  function Arrange(isOrdered: bool, actual: seq<Tagged>, expected: seq<Tagged>, le: Order): (r: (seq<Tagged>, seq<Tagged>))
    ensures multiset(r.0) == multiset(actual) && multiset(r.1) == multiset(expected)
    ensures isOrdered || |actual| == 0 || |expected| == 0 ==> r == (actual, expected)
    ensures !isOrdered && |actual| > 0 && |expected| > 0 ==> r == (SortRecords(actual, le), SortRecords(expected, le))
  {
    if !isOrdered && |actual| > 0 && |expected| > 0 then (SortRecords(actual, le), SortRecords(expected, le))
    else (actual, expected)
  }

  /** Every tag names the row's position in `original`. */
  predicate TagsPoint(rows: seq<Tagged>, original: seq<Row>) {
    forall j :: 0 <= j < |rows| ==> rows[j].index < |original| && original[rows[j].index] == rows[j].values
  }

  /** Any reordering of the tagged list still points every row at its
      original position, which is what the failures report (plus one). */
  lemma PermutedTagsPoint(rows: seq<Tagged>, original: seq<Row>)
    requires multiset(rows) == multiset(Tag(original))
    ensures TagsPoint(rows, original)
  {
    forall j | 0 <= j < |rows| ensures rows[j].index < |original| && original[rows[j].index] == rows[j].values {
      assert rows[j] in multiset(Tag(original));
      var i :| 0 <= i < |Tag(original)| && Tag(original)[i] == rows[j];
    }
  }

  /** The arranged lists keep pointing at the caller's rows. */
  lemma ArrangedTagsPoint(isOrdered: bool, actual: seq<Row>, expected: seq<Row>, le: Order)
    ensures TagsPoint(Arrange(isOrdered, Tag(actual), Tag(expected), le).0, actual)
    ensures TagsPoint(Arrange(isOrdered, Tag(actual), Tag(expected), le).1, expected)
  {
    var r := Arrange(isOrdered, Tag(actual), Tag(expected), le);
    PermutedTagsPoint(r.0, actual);
    PermutedTagsPoint(r.1, expected);
  }
}

=== FILE: string_helper.dfy ===
/**
  StringHelper: null-safe equality, `{n}` template substitution, UTF-8
  hexadecimal encoding and decoding, and the XML 1.0 character filter.
*/
module StringHelper {
  import opened Wrappers
  import opened JavaStrings
  import opened Unicode

  // ----- isEqual -----

  /** `isEqual`: both null, or both present and `equals`. */
  function IsEqual(a: Option<JString>, b: Option<JString>): (r: bool)
    ensures r <==> (a.None? && b.None?) || (a.Some? && b.Some? && a.value == b.value)
    ensures r <==> a == b
  {
    match (a, b)
    case (None, None) => true
    case (Some(x), Some(y)) => x == y
    case _ => false
  }

  // ----- createString -----

  /** Why `createString` throws. */
  datatype TemplateError =
    | NullPattern          // the pattern argument check
    | ParameterMismatch    // a key beyond the parameters, or parameters beyond the keys
    | NumberFormat         // a key whose number does not fit in an `int`
    | ClassCast            // a key whose parameter is an array of a primitive type

  const MaxInt: int := 0x7FFF_FFFF

  predicate IsDigit(u: Unit) { 48 <= u <= 57 }

  /** The number of decimal digits `s` starts with. */
  function DigitRun(s: JString): (n: nat)
    ensures n <= |s|
    ensures forall i :: 0 <= i < n ==> IsDigit(s[i])
    ensures n < |s| ==> !IsDigit(s[n])
  {
    if |s| == 0 || !IsDigit(s[0]) then 0 else 1 + DigitRun(s[1..])
  }

  /** The value of a run of decimal digits. */
  function DigitsValue(s: JString): nat
    requires forall i :: 0 <= i < |s| ==> IsDigit(s[i])
  {
    if |s| == 0 then 0
    else
      assert IsDigit(s[|s| - 1]);
      DigitsValue(s[..|s| - 1]) * 10 + (s[|s| - 1] as int - 48)
  }

  /** The length of the key `{digits}` that `s` starts with (a match of
      `\{(\d+)\}` at index 0), or 0 when there is none. */
  function KeyLength(s: JString): (n: nat)
    ensures n == 0 || 3 <= n <= |s|
    ensures n > 0 ==> forall i :: 1 <= i < n - 1 ==> IsDigit(s[i])
  {
    if |s| == 0 || s[0] != 123 then 0
    else
      var d := DigitRun(s[1..]);
      if d > 0 && 1 + d < |s| && s[1 + d] == 125 then d + 2 else 0
  }

  /** A pattern read the way the matcher finds keys: literal units and keys. */
  datatype Piece = Literal(u: Unit) | Key(number: nat, text: JString)

  /** The piece `q` starts with and its length: a key when one matches at
      index 0, otherwise the first unit as a literal. */
  function FirstPiece(q: JString): (r: (Piece, nat))
    requires |q| > 0
    ensures 1 <= r.1 <= |q|
    ensures r.0.Literal? ==> r.0 == Literal(q[0]) && r.1 == 1
    ensures r.0.Key? ==> r.0.text == q[..r.1] && q[0] == 123 && q[r.1 - 1] == 125
  {
    var n := KeyLength(q);
    if n > 0 then (Key(DigitsValue(q[1..n - 1]), q[..n]), n) else (Literal(q[0]), 1)
  }

  /** The pattern cut into pieces, keys found left to right without overlap. */
  function Pieces(p: JString): seq<Piece>
    decreases |p|
  {
    if |p| == 0 then [] else [FirstPiece(p).0] + Pieces(p[FirstPiece(p).1..])
  }

  /** One parameter of `createString`. */
  datatype Param =
    | NullParam                                  // null
    | Text(s: JString)                           // any object but an array: its `toString()`
    | ObjectArray(elements: seq<Option<JString>>) // an array of objects: each element's `toString()`, or null
    | PrimitiveArray                             // an array of a primitive type (`int[]`, `byte[]`, ...)

  /** The elements of a list as `AbstractCollection.toString()` joins them:
      separated by ", ", a null element as "null". */
  function JoinElements(elements: seq<Option<JString>>): JString
    decreases |elements|
  {
    if |elements| == 0 then []
    else
      var head := if elements[0].Some? then elements[0].value else Lit("null");
      if |elements| == 1 then head else head + Lit(", ") + JoinElements(elements[1..])
  }

  /** One parameter's text: "null", its `toString()`, or for an array of
      objects the `toString()` of `Arrays.asList` over it. An array of a
      primitive type has none: the cast to `Object[]` throws. */
  function ParameterText(x: Param): (r: JString)
    requires !x.PrimitiveArray?
    ensures x.NullParam? ==> r == Lit("null")
    ensures x.Text? ==> r == x.s
    ensures x.ObjectArray? ==> |r| >= 2 && r[0] == 91 && r[|r| - 1] == 93
  {
    match x
    case NullParam => Lit("null")
    case Text(s) => s
    case ObjectArray(elements) => Lit("[") + JoinElements(elements) + Lit("]")
  }

  /** What stops the scan at `piece`: a key number past `int` fails its parse;
      a key whose parameter is an array of a primitive type fails the cast. */
  function KeyFault(piece: Piece, params: seq<Param>): (r: Option<TemplateError>)
    ensures r.Some? ==> piece.Key?
    ensures r.Some? <==> piece.Key? && (piece.number > MaxInt || (piece.number < |params| && params[piece.number].PrimitiveArray?))
  {
    if piece.Literal? then None
    else if piece.number > MaxInt then Some(NumberFormat)
    else if piece.number < |params| && params[piece.number].PrimitiveArray? then Some(ClassCast)
    else None
  }

  /** The fault of the first key, left to right, that stops the scan. */
  function FirstFault(ps: seq<Piece>, params: seq<Param>): Option<TemplateError>
    decreases |ps|
  {
    if |ps| == 0 then None
    else if KeyFault(ps[0], params).Some? then KeyFault(ps[0], params)
    else FirstFault(ps[1..], params)
  }

  /** One piece's text: a literal itself, a key its (0-based) parameter, or
      its own text when there is no such parameter. */
  function PieceText(piece: Piece, params: seq<Param>): JString
    requires KeyFault(piece, params).None?
  {
    match piece
    case Literal(u) => [u]
    case Key(n, text) => if n < |params| then ParameterText(params[n]) else text
  }

  /** The pieces with every key replaced. */
  function Substitute(ps: seq<Piece>, params: seq<Param>): JString
    requires FirstFault(ps, params).None?
    decreases |ps|
  {
    if |ps| == 0 then [] else PieceText(ps[0], params) + Substitute(ps[1..], params)
  }

  /** The largest key number plus one: the number of parameters the pattern needs. */
  function Required(ps: seq<Piece>): nat
    decreases |ps|
  {
    if |ps| == 0 then 0
    else
      var rest := Required(ps[1..]);
      if ps[0].Key? && ps[0].number + 1 > rest then ps[0].number + 1 else rest
  }

  predicate HasKeys(ps: seq<Piece>) {
    exists i :: 0 <= i < |ps| && ps[i].Key?
  }

  /** `Required` is the largest key number plus one (0 without keys). */
  lemma {:induction false} RequiredIsMaxKey(ps: seq<Piece>)
    ensures forall i :: 0 <= i < |ps| && ps[i].Key? ==> ps[i].number < Required(ps)
    ensures Required(ps) > 0 ==> exists i :: 0 <= i < |ps| && ps[i].Key? && ps[i].number + 1 == Required(ps)
    ensures Required(ps) == 0 <==> !HasKeys(ps)
    decreases |ps|
  {
    if |ps| > 0 {
      RequiredIsMaxKey(ps[1..]);
      assert forall i :: 1 <= i < |ps| ==> ps[i] == ps[1..][i - 1];
      if Required(ps) > 0 && !(ps[0].Key? && ps[0].number + 1 == Required(ps)) {
        var j :| 0 <= j < |ps[1..]| && ps[1..][j].Key? && ps[1..][j].number + 1 == Required(ps[1..]);
        assert ps[j + 1] == ps[1..][j];
      }
      if Required(ps) > 0 {
        var j :| 0 <= j < |ps| && ps[j].Key? && ps[j].number + 1 == Required(ps);
        assert HasKeys(ps);
      }
    }
  }

  /** The expected outcome of `createString(pattern, parameters)`. A null
      parameter array is the empty one; a lone null parameter counts as no
      parameter for the surplus check but still fills key `{0}`. The first
      key, left to right, whose number is beyond `int` or whose parameter is
      an array of a primitive type stops it; otherwise a key beyond the
      parameters or parameters beyond the largest key fail the final check. */
  function CreateStringSpec(pattern: Option<JString>, parameters: Option<seq<Param>>): Result<JString, TemplateError> {
    if pattern.None? then Err(NullPattern)
    else
      var params := if parameters.Some? then parameters.value else [];
      var ps := Pieces(pattern.value);
      var supplied := if |params| == 1 && params[0].NullParam? then 0 else |params|;
      var required := Required(ps);
      if FirstFault(ps, params).Some? then Err(FirstFault(ps, params).value)
      else if required > |params| || required < supplied then Err(ParameterMismatch)
      else Ok(Substitute(ps, params))
  }

  /** `createString`: the argument checks, then the scan. */
  method CreateString(pattern: Option<JString>, parameters: Option<seq<Param>>)
    returns (r: Result<JString, TemplateError>)
    ensures r == CreateStringSpec(pattern, parameters)
  {
    if pattern.None? {
      return Err(NullPattern);
    }
    var params := if parameters.Some? then parameters.value else [];
    var supplied := if |params| == 1 && params[0].NullParam? then 0 else |params|;
    r := Scan(pattern.value, params, supplied);
  }

  /** The matcher loop of `createString`: finds the keys left to right,
      replacing each by its parameter, then checks the counts. */
  method Scan(p: JString, params: seq<Param>, supplied: nat) returns (r: Result<JString, TemplateError>)
    ensures FirstFault(Pieces(p), params).Some? ==> r == Err(FirstFault(Pieces(p), params).value)
    ensures FirstFault(Pieces(p), params).None? ==>
              r == if Required(Pieces(p)) > |params| || Required(Pieces(p)) < supplied then Err(ParameterMismatch)
                   else Ok(Substitute(Pieces(p), params))
  {
    var text: JString := [];
    var required := 0;
    var err := false;
    var rest := p;
    ghost var done: seq<Piece> := [];
    while |rest| > 0
      invariant done + Pieces(rest) == Pieces(p)
      invariant FirstFault(done, params).None?
      invariant text == Substitute(done, params)
      invariant required == Required(done)
      invariant err <==> required > |params|
      decreases |rest|
    {
      var (piece, n) := FirstPiece(rest);
      PiecesStep(done, rest, Pieces(p));
      FirstFaultConcat(done, [piece] + Pieces(rest[n..]), params);
      assert done + ([piece] + Pieces(rest[n..])) == Pieces(p);
      if piece.Key? {
        if piece.number > MaxInt {
          return Err(NumberFormat);
        }
        if required <= piece.number {
          required := piece.number + 1;
        }
        if piece.number >= |params| {
          err := true;
        } else if params[piece.number].PrimitiveArray? {
          return Err(ClassCast);
        }
      }
      FirstFaultConcat(done, [piece], params);
      text := text + PieceText(piece, params);
      SubstituteAppend(done, piece, params);
      RequiredAppend(done, piece);
      done := done + [piece];
      rest := rest[n..];
    }
    NoPieces(done, rest, Pieces(p));
    if err || required < supplied {
      return Err(ParameterMismatch);
    }
    return Ok(text);
  }

  /** The first fault of two runs of pieces: the first run's, if it has one. */
  lemma {:induction false} FirstFaultConcat(a: seq<Piece>, b: seq<Piece>, params: seq<Param>)
    ensures FirstFault(a + b, params) == if FirstFault(a, params).Some? then FirstFault(a, params) else FirstFault(b, params)
    decreases |a|
  {
    if |a| == 0 {
      assert a + b == b;
    } else {
      assert (a + b)[1..] == a[1..] + b;
      FirstFaultConcat(a[1..], b, params);
    }
  }

  /** The fault found is that of the first faulty key: every piece before it
      passes; and there is none exactly when no piece is faulty. */
  lemma {:induction false} FaultIsFirst(ps: seq<Piece>, params: seq<Param>)
    ensures FirstFault(ps, params).None? <==> forall i :: 0 <= i < |ps| ==> KeyFault(ps[i], params).None?
    ensures FirstFault(ps, params).Some? ==>
              exists i :: 0 <= i < |ps| && KeyFault(ps[i], params) == FirstFault(ps, params)
                          && forall j :: 0 <= j < i ==> KeyFault(ps[j], params).None?
    decreases |ps|
  {
    if |ps| > 0 {
      FaultIsFirst(ps[1..], params);
      assert forall i :: 1 <= i < |ps| ==> ps[i] == ps[1..][i - 1];
      if KeyFault(ps[0], params).None? && FirstFault(ps, params).Some? {
        var i :| 0 <= i < |ps[1..]| && KeyFault(ps[1..][i], params) == FirstFault(ps[1..], params)
                 && forall j :: 0 <= j < i ==> KeyFault(ps[1..][j], params).None?;
        assert KeyFault(ps[i + 1], params) == FirstFault(ps, params);
      }
    }
  }

  /** The end of the scan: nothing is left to read. */
  lemma NoPieces(done: seq<Piece>, q: JString, all: seq<Piece>)
    requires |q| == 0
    requires done + Pieces(q) == all
    ensures done == all
  {
  }

  /** One step of the scan: the piece at the front of `q` is followed by the
      pieces of the rest. */
  lemma PiecesStep(done: seq<Piece>, q: JString, all: seq<Piece>)
    requires |q| > 0
    requires done + Pieces(q) == all
    ensures (done + [FirstPiece(q).0]) + Pieces(q[FirstPiece(q).1..]) == all
  {
    assert Pieces(q) == [FirstPiece(q).0] + Pieces(q[FirstPiece(q).1..]);
  }

  lemma {:induction false} SubstituteAppend(done: seq<Piece>, piece: Piece, params: seq<Param>)
    requires FirstFault(done + [piece], params).None?
    ensures FirstFault(done, params).None? && KeyFault(piece, params).None?
    ensures Substitute(done + [piece], params) == Substitute(done, params) + PieceText(piece, params)
    decreases |done|
  {
    FirstFaultConcat(done, [piece], params);
    if |done| == 0 {
      assert done + [piece] == [piece];
    } else {
      assert (done + [piece])[1..] == done[1..] + [piece];
      SubstituteAppend(done[1..], piece, params);
    }
  }

  lemma {:induction false} RequiredAppend(done: seq<Piece>, piece: Piece)
    ensures Required(done + [piece]) == if piece.Key? && piece.number + 1 > Required(done) then piece.number + 1 else Required(done)
    decreases |done|
  {
    if |done| == 0 {
      assert done + [piece] == [piece];
    } else {
      assert (done + [piece])[1..] == done[1..] + [piece];
      RequiredAppend(done[1..], piece);
    }
  }

  lemma {:induction false} RequiredConcat(a: seq<Piece>, b: seq<Piece>)
    ensures Required(a + b) == Max(Required(a), Required(b))
    decreases |a|
  {
    if |a| == 0 {
      assert a + b == b;
    } else {
      assert (a + b)[1..] == a[1..] + b;
      RequiredConcat(a[1..], b);
    }
  }

  /** A pattern without keys, given no parameters, comes back unchanged. */
  lemma NoKeysUnchanged(p: JString)
    requires !HasKeys(Pieces(p))
    ensures CreateStringSpec(Some(p), Some([])) == Ok(p)
    ensures CreateStringSpec(Some(p), None) == Ok(p)
  {
    LiteralsOnly(p);
    RequiredIsMaxKey(Pieces(p));
  }

  lemma {:induction false} LiteralsOnly(p: JString)
    ensures !HasKeys(Pieces(p)) ==> FirstFault(Pieces(p), []).None? && Substitute(Pieces(p), []) == p
    decreases |p|
  {
    FaultIsFirst(Pieces(p), []);
    if |p| > 0 {
      var (piece, n) := FirstPiece(p);
      var rest := Pieces(p[n..]);
      assert Pieces(p) == [piece] + rest;
      if piece.Key? {
        assert Pieces(p)[0].Key?;
      } else {
        if !HasKeys(Pieces(p)) {
          assert !HasKeys(rest) by {
            forall i | 0 <= i < |rest| ensures !rest[i].Key? {
              assert rest[i] == Pieces(p)[i + 1];
            }
          }
          LiteralsOnly(p[1..]);
          assert [p[0]] + p[1..] == p;
        }
      }
    }
  }

  /** When the parameters cover every key, each key contributes exactly its
      parameter's text and each literal itself. */
  lemma {:induction false} SubstituteKeys(ps: seq<Piece>, params: seq<Param>)
    requires FirstFault(ps, params).None?
    requires Required(ps) <= |params|
    ensures Substitute(ps, params) == Render(ps, params)
    decreases |ps|
  {
    RequiredIsMaxKey(ps);
    if |ps| > 0 {
      RequiredIsMaxKey(ps[1..]);
      SubstituteKeys(ps[1..], params);
    }
  }

  /** Each piece's text, every key read as its parameter. */
  function Render(ps: seq<Piece>, params: seq<Param>): JString
    requires FirstFault(ps, params).None?
    requires Required(ps) <= |params|
    decreases |ps|
  {
    RequiredIsMaxKey(ps);
    if |ps| == 0 then []
    else (if ps[0].Literal? then [ps[0].u] else ParameterText(params[ps[0].number])) + Render(ps[1..], params)
  }

  /** An array of objects fills its key as a bracketed list; an array of
      a primitive type stops the scan at its key. */
  lemma ArrayParameters()
    ensures CreateStringSpec(Some(Lit("{0}")), Some([ObjectArray([Some(Lit("a")), None])])) == Ok(Lit("[a, null]"))
    ensures CreateStringSpec(Some(Lit("{0}")), Some([PrimitiveArray])) == Err(ClassCast)
  {
    var p := Lit("{0}");
    assert p == [123, 48, 125];
    assert DigitRun(p[1..]) == 1;
    assert KeyLength(p) == 3;
    assert p[1..2] == [48];
    assert DigitsValue(p[1..2]) == 0;
    assert p[..3] == p && p[3..] == [];
    assert FirstPiece(p) == (Key(0, p), 3);
    assert Pieces(p) == [Key(0, p)] + Pieces([]);
    assert Required(Pieces(p)) == 1;
    var x := ObjectArray([Some(Lit("a")), None]);
    assert JoinElements(x.elements) == Lit("a") + Lit(", ") + Lit("null");
    assert Lit("[") + (Lit("a") + Lit(", ") + Lit("null")) + Lit("]") == Lit("[a, null]");
    assert KeyFault(Key(0, p), [x]).None?;
    assert FirstFault(Pieces(p), [x]).None?;
    assert Substitute(Pieces(p), [x]) == ParameterText(x) + Substitute([], [x]);
    assert Substitute(Pieces(p), [x]) == Lit("[a, null]");
  }

  // ----- encodeHex / decodeHex -----

  /** The lowercase hexadecimal digit of `d`. */
  function HexDigit(d: int): (u: Unit)
    requires 0 <= d < 16
    ensures HexValue(u) == Some(d)
    ensures u == Lit("0123456789abcdef")[d]
  {
    if d < 10 then (48 + d) as Unit else (97 + d - 10) as Unit
  }

  /** `String.format("%02x", b)` for every byte. */
  function BytesToHex(bs: seq<Byte>): (r: JString)
    ensures |r| == 2 * |bs|
    decreases |bs|
  {
    if |bs| == 0 then []
    else [HexDigit(bs[0] as int / 16), HexDigit(bs[0] as int % 16)] + BytesToHex(bs[1..])
  }

  /** Byte `i` is printed at units `2i` and `2i + 1`, high nibble first, and
      every unit printed is a digit or a lowercase letter `a`-`f`. */
  lemma {:induction false} BytesToHexDigits(bs: seq<Byte>)
    ensures var r := BytesToHex(bs);
            forall i :: 0 <= i < |bs| ==>
              r[2 * i] == HexDigit(bs[i] as int / 16) && r[2 * i + 1] == HexDigit(bs[i] as int % 16)
    ensures var r := BytesToHex(bs);
            forall k :: 0 <= k < |r| ==> 48 <= r[k] <= 57 || 97 <= r[k] <= 102
    decreases |bs|
  {
    if |bs| > 0 {
      var r := BytesToHex(bs);
      var tail := BytesToHex(bs[1..]);
      BytesToHexDigits(bs[1..]);
      assert r == [HexDigit(bs[0] as int / 16), HexDigit(bs[0] as int % 16)] + tail;
      forall i | 1 <= i < |bs|
        ensures r[2 * i] == HexDigit(bs[i] as int / 16) && r[2 * i + 1] == HexDigit(bs[i] as int % 16)
      {
        assert bs[1..][i - 1] == bs[i];
        assert r[2 * i] == tail[2 * (i - 1)] && r[2 * i + 1] == tail[2 * (i - 1) + 1];
      }
      forall k | 2 <= k < |r|
        ensures 48 <= r[k] <= 57 || 97 <= r[k] <= 102
      {
        assert r[k] == tail[k - 2];
      }
    }
  }

  /** `encodeHex`: the UTF-8 bytes of `s`, two lowercase hexadecimal digits each. */
  function EncodeHex(s: JString): (r: JString)
    ensures |r| == 2 * |EncodeUtf8(CodePoints(s))|
    ensures var bs := EncodeUtf8(CodePoints(s));
            forall i :: 0 <= i < |bs| ==>
              r[2 * i] == HexDigit(bs[i] as int / 16) && r[2 * i + 1] == HexDigit(bs[i] as int % 16)
    ensures forall i :: 0 <= i < |r| ==> 48 <= r[i] <= 57 || 97 <= r[i] <= 102
  {
    BytesToHexDigits(EncodeUtf8(CodePoints(s)));
    BytesToHex(EncodeUtf8(CodePoints(s)))
  }

  /** The letter "ě" (U+011B) of the worked value "hello světe": its two
      UTF-8 bytes C4 9B print as the lowercase digits "c49b". */
  lemma EncodeHexExample()
    ensures EncodeHex(Lit("ě")) == Lit("c49b")
  {
    var s := Lit("ě");
    assert s == [0x11B];
    CodePointsWithoutSurrogates(s);
    assert CodePoints(s) == [0x11B];
    assert EncodeScalar(0x11B) == [0xc4, 0x9b];
    EncodeUtf8Cons(0x11B, []);
    assert EncodeUtf8([0x11B]) == [0xc4, 0x9b];
    var bs: seq<Byte> := [0xc4, 0x9b];
    assert bs[1..][1..] == [];
    assert BytesToHex(bs) == [99, 52, 57, 98];
  }

  /** A string without surrogates has one code point per unit. */
  lemma {:induction false} CodePointsWithoutSurrogates(s: JString)
    requires forall i :: 0 <= i < |s| ==> !IsSurrogate(s[i] as int)
    ensures |CodePoints(s)| == |s|
    ensures forall i :: 0 <= i < |s| ==> CodePoints(s)[i] == s[i] as int
    decreases |s|
  {
    if |s| > 0 {
      CodePointsWithoutSurrogates(s[1..]);
      assert CodePoints(s) == [s[0] as int] + CodePoints(s[1..]);
    }
  }

  /** Encoding a code point in front of others puts its bytes in front. */
  lemma EncodeUtf8Cons(c: int, rest: seq<int>)
    requires 0 <= c <= 0x10FFFF && !IsSurrogate(c)
    requires forall i :: 0 <= i < |rest| ==> 0 <= rest[i] <= 0x10FFFF
    ensures EncodeUtf8([c] + rest) == EncodeScalar(c) + EncodeUtf8(rest)
  {
    assert ([c] + rest)[1..] == rest;
  }

  lemma PairsToBytesCons(hex: JString, pair: (Unit, Unit) -> Option<Byte>)
    requires |hex| % 2 == 0 && |hex| >= 2
    ensures PairsToBytes(hex, pair) ==
              if pair(hex[0], hex[1]).Some? && PairsToBytes(hex[2..], pair).Some?
              then Some([pair(hex[0], hex[1]).value] + PairsToBytes(hex[2..], pair).value)
              else None
  {
  }

  /** The value of a hexadecimal digit in either case. */
  function HexValue(u: Unit): Option<int> {
    if 48 <= u <= 57 then Some(u as int - 48)
    else if 97 <= u <= 102 then Some(u as int - 87)
    else if 65 <= u <= 70 then Some(u as int - 55)
    else None
  }

  predicate IsHexDigit(u: Unit) { HexValue(u).Some? }

  /** A two-digit hexadecimal byte. */
  function ParsePair(a: Unit, b: Unit): Option<Byte> {
    if HexValue(a).Some? && HexValue(b).Some? then Some((HexValue(a).value * 16 + HexValue(b).value) as Byte)
    else None
  }

  /** Why `decodeHex` throws. */
  datatype HexError = OddLength | InvalidHex

  /** The bytes the pairs of `hex` stand for, read with `pair`. */
  function PairsToBytes(hex: JString, pair: (Unit, Unit) -> Option<Byte>): Option<seq<Byte>>
    requires |hex| % 2 == 0
    decreases |hex|
  {
    if |hex| == 0 then Some([])
    else
      var head := pair(hex[0], hex[1]);
      var tail := PairsToBytes(hex[2..], pair);
      if head.Some? && tail.Some? then Some([head.value] + tail.value) else None
  }

  /** `decodeHex` as intended: odd length and any non-hexadecimal digit are
      rejected; the bytes are decoded as UTF-8. */
  function DecodeHex(hex: JString): (r: Result<JString, HexError>)
    ensures r.Err? <==> |hex| % 2 == 1 || exists i :: 0 <= i < |hex| && !IsHexDigit(hex[i])
    ensures r.Ok? ==> WellFormed(r.value)
  {
    if |hex| % 2 == 1 then Err(OddLength)
    else
      var bytes := PairsToBytes(hex, ParsePair);
      StrictPairs(hex);
      if bytes.None? then Err(InvalidHex)
      else
        Utf16WellFormed(DecodeUtf8(bytes.value));
        Ok(Utf16(DecodeUtf8(bytes.value)))
  }

  lemma {:induction false} StrictPairs(hex: JString)
    requires |hex| % 2 == 0
    ensures PairsToBytes(hex, ParsePair).Some? <==> forall i :: 0 <= i < |hex| ==> IsHexDigit(hex[i])
    decreases |hex|
  {
    if |hex| > 0 {
      StrictPairs(hex[2..]);
      assert forall i :: 2 <= i < |hex| ==> hex[i] == hex[2..][i - 2];
    }
  }

  lemma {:induction false} HexRoundTrip(bs: seq<Byte>)
    ensures PairsToBytes(BytesToHex(bs), ParsePair) == Some(bs)
    decreases |bs|
  {
    if |bs| > 0 {
      var h := BytesToHex(bs);
      assert h[2..] == BytesToHex(bs[1..]);
      HexRoundTrip(bs[1..]);
      assert h[0] == HexDigit(bs[0] as int / 16) && h[1] == HexDigit(bs[0] as int % 16);
      assert ParsePair(h[0], h[1]) == Some(bs[0]);
      PairsToBytesCons(h, ParsePair);
      assert [bs[0]] + bs[1..] == bs;
    }
  }

  /** `decodeHex(encodeHex(s))` gives `s` back exactly when `s` has no lone
      surrogate (the encoder writes '?' for one). */
  lemma HexRoundTripString(s: JString)
    ensures DecodeHex(EncodeHex(s)) == Ok(s) <==> WellFormed(s)
  {
    var bytes := EncodeUtf8(CodePoints(s));
    HexRoundTrip(bytes);
    assert |EncodeHex(s)| % 2 == 0;
    assert DecodeHex(EncodeHex(s)) == Ok(Utf16(DecodeUtf8(bytes)));
    Utf8RoundTrip(s);
  }

  /** `encodeHex("")` is "" and `decodeHex("")` is "". */
  lemma EmptyHex()
    ensures EncodeHex([]) == []
    ensures DecodeHex([]) == Ok([])
  {
  }

  /** `Character.digit(u, 16)`: the value of an ASCII hexadecimal digit, of
      a fullwidth letter A-F or a-f (U+FF21-FF26, U+FF41-FF46), or of any
      other Unicode decimal digit. `decimal` is the decimal-digit value the
      Unicode character database gives a unit (None when the unit is not a
      decimal digit); that table is not part of this model. */
  function JavaHexDigit(u: Unit, decimal: Unit -> Option<int>): (r: Option<int>)
    ensures r.Some? ==> 0 <= r.value < 16
    ensures IsHexDigit(u) ==> r == HexValue(u)
    ensures u < 0x80 ==> r == HexValue(u)
  {
    if HexValue(u).Some? then HexValue(u)
    else if 0xFF21 <= u <= 0xFF26 then Some(u as int - 0xFF21 + 10)
    else if 0xFF41 <= u <= 0xFF46 then Some(u as int - 0xFF41 + 10)
    else if u >= 0x80 && decimal(u).Some? && 0 <= decimal(u).value <= 9 then decimal(u)
    else None
  }

  /** The pair as `Integer.valueOf(pair, 16).byteValue()` reads it: a leading
      '+' or '-' sign is accepted, every digit is read by `Character.digit`,
      and the value is cut to its low eight bits. */
  function ParsePairAsWritten(a: Unit, b: Unit, decimal: Unit -> Option<int>): (r: Option<Byte>)
    ensures IsHexDigit(a) && IsHexDigit(b) ==> r == ParsePair(a, b)
    ensures (a == 45 || a == 43) ==> (r.Some? <==> JavaHexDigit(b, decimal).Some?)
  {
    if a == 45 || a == 43 then
      var d := JavaHexDigit(b, decimal);
      if d.None? then None
      else Some(((if a == 45 then -d.value else d.value) % 256) as Byte)
    else
      var hi := JavaHexDigit(a, decimal);
      var lo := JavaHexDigit(b, decimal);
      if hi.Some? && lo.Some? then Some((hi.value * 16 + lo.value) as Byte) else None
  }

  /** `decodeHex` as written. */
  function DecodeHexAsWritten(hex: JString, decimal: Unit -> Option<int>): Result<JString, HexError> {
    if |hex| % 2 == 1 then Err(OddLength)
    else
      var bytes := PairsToBytes(hex, (x, y) => ParsePairAsWritten(x, y, decimal));
      if bytes.None? then Err(InvalidHex) else Ok(Utf16(DecodeUtf8(bytes.value)))
  }

  /** On text made of ASCII hexadecimal digits only, the as-written decoder
      and the intended one agree. */
  lemma AsWrittenAgreesOnHexDigits(hex: JString, decimal: Unit -> Option<int>)
    requires forall i :: 0 <= i < |hex| ==> IsHexDigit(hex[i])
    ensures DecodeHexAsWritten(hex, decimal) == DecodeHex(hex)
  {
    if |hex| % 2 == 0 {
      PairsAgree(hex, decimal);
    }
  }

  lemma {:induction false} PairsAgree(hex: JString, decimal: Unit -> Option<int>)
    requires |hex| % 2 == 0
    requires forall i :: 0 <= i < |hex| ==> IsHexDigit(hex[i])
    ensures PairsToBytes(hex, (x, y) => ParsePairAsWritten(x, y, decimal)) == PairsToBytes(hex, ParsePair)
    decreases |hex|
  {
    if |hex| > 0 {
      assert forall i :: 0 <= i < |hex[2..]| ==> hex[2..][i] == hex[i + 2];
      PairsAgree(hex[2..], decimal);
      PairsToBytesCons(hex, (x, y) => ParsePairAsWritten(x, y, decimal));
      PairsToBytesCons(hex, ParsePair);
    }
  }

  /** The as-written decoder accepts the signed pair "-1" (byte 0xFF, which
      then decodes to U+FFFD); the intended one rejects it. */
  lemma SignedPairAccepted(decimal: Unit -> Option<int>)
    ensures DecodeHexAsWritten(Lit("-1"), decimal) == Ok([0xFFFD])
    ensures DecodeHex(Lit("-1")) == Err(InvalidHex)
  {
    var h := Lit("-1");
    var pair := (x, y) => ParsePairAsWritten(x, y, decimal);
    assert h == [45, 49];
    assert pair(45, 49) == Some(255 as Byte);
    assert PairsToBytes(h[2..], pair) == Some([]);
    PairsToBytesCons(h, pair);
    assert [255 as Byte] + [] == [255 as Byte];
    assert PairsToBytes(h, pair) == Some([255 as Byte]);
    assert DecodeOne([255 as Byte]) == (0xFFFD, 1);
    assert DecodeUtf8([255 as Byte]) == [0xFFFD];
    assert !IsHexDigit(h[0]);
  }

  /** The as-written decoder reads the Arabic-Indic digits U+0661 U+0662 as
      the pair "12", and the fullwidth letter U+FF41 as "a"; the intended
      one rejects both. */
  lemma NonAsciiDigitsAccepted(decimal: Unit -> Option<int>)
    requires decimal(0x661) == Some(1) && decimal(0x662) == Some(2)
    ensures DecodeHexAsWritten([0x661, 0x662], decimal) == Ok([0x12])
    ensures DecodeHexAsWritten([0x31, 0xFF41], decimal) == Ok([0x1A])
    ensures DecodeHex([0x661, 0x662]) == Err(InvalidHex)
    ensures DecodeHex([0x31, 0xFF41]) == Err(InvalidHex)
  {
    var pair := (x, y) => ParsePairAsWritten(x, y, decimal);
    var h1: JString := [0x661, 0x662];
    var h2: JString := [0x31, 0xFF41];
    assert pair(0x661, 0x662) == Some(0x12 as Byte);
    assert pair(0x31, 0xFF41) == Some(0x1A as Byte);
    assert PairsToBytes(h1[2..], pair) == Some([]);
    assert PairsToBytes(h2[2..], pair) == Some([]);
    PairsToBytesCons(h1, pair);
    PairsToBytesCons(h2, pair);
    assert DecodeUtf8([0x12 as Byte]) == [0x12];
    assert DecodeUtf8([0x1A as Byte]) == [0x1A];
    assert !IsHexDigit(h1[0]) && !IsHexDigit(h2[1]);
  }

  // ----- replaceXmlUnprintable -----

  /** The `Char` production of section 2.2 of the W3C XML 1.0 Recommendation. */
  predicate IsXmlChar(c: int) {
    || c == 0x9 || c == 0xA || c == 0xD
    || 0x20 <= c <= 0xD7FF
    || 0xE000 <= c <= 0xFFFD
    || 0x10000 <= c <= 0x10FFFF
  }

  /** Every code point of `s` is an XML character (so `s` has no lone surrogate). */
  predicate AllXmlChars(s: JString) {
    forall i :: 0 <= i < |CodePoints(s)| ==> IsXmlChar(CodePoints(s)[i])
  }

  /** The unit at `i` survives the filter: it is an XML character on its
      own, or one half of a surrogate pair. A high surrogate pairs only with
      the unit after it and a low one only with the unit before it, so the
      pairing does not depend on where a scan starts. */
  predicate KeptAt(s: JString, i: nat)
    requires i < |s|
  {
    || IsXmlChar(s[i] as int)
    || (IsHigh(s[i]) && i + 1 < |s| && IsLow(s[i + 1]))
    || (IsLow(s[i]) && 0 < i && IsHigh(s[i - 1]))
  }

  /** Dropping the first code point of `s` (one unit, or a pair) shifts
      which units are kept and changes nothing else. */
  lemma KeptAtShift(s: JString, k: nat)
    requires 1 <= k <= 2 && k <= |s|
    requires k == 2 <==> PairAt0(s)
    ensures forall i :: k <= i < |s| ==> (KeptAt(s, i) <==> KeptAt(s[k..], i - k))
  {
    forall i | k <= i < |s|
      ensures KeptAt(s, i) <==> KeptAt(s[k..], i - k)
    {
      assert s[k..][i - k] == s[i];
      if i - k + 1 < |s| - k {
        assert s[k..][i - k + 1] == s[i + 1];
      }
      if i == k {
        assert !(IsLow(s[i]) && IsHigh(s[i - 1]));
      } else {
        assert s[k..][i - k - 1] == s[i - 1];
      }
    }
  }

  /** `replaceXmlUnprintable`: every code point outside `Char` becomes U+FFFD;
      a surrogate pair is one (allowed) code point, a lone surrogate is not. */
  function ReplaceXmlUnprintable(s: JString): (r: JString)
    ensures |r| == |s|
    ensures forall i :: 0 <= i < |s| ==> r[i] == s[i] || r[i] == 0xFFFD
    ensures forall i :: 0 <= i < |s| ==> r[i] == (if KeptAt(s, i) then s[i] else 0xFFFD)
    decreases |s|
  {
    if |s| == 0 then []
    else if PairAt0(s) then
      KeptAtShift(s, 2);
      s[..2] + ReplaceXmlUnprintable(s[2..])
    else if IsXmlChar(s[0] as int) then
      KeptAtShift(s, 1);
      [s[0]] + ReplaceXmlUnprintable(s[1..])
    else
      KeptAtShift(s, 1);
      [0xFFFD as Unit] + ReplaceXmlUnprintable(s[1..])
  }

  lemma {:induction false} CodePointsCons(s: JString, k: nat)
    requires 1 <= k <= 2 && k <= |s|
    requires k == 2 <==> PairAt0(s)
    ensures AllXmlChars(s) <==> IsXmlChar(CodePoints(s)[0]) && AllXmlChars(s[k..])
  {
    assert |CodePoints(s)| == 1 + |CodePoints(s[k..])|;
    assert forall i :: 0 <= i < |CodePoints(s[k..])| ==> CodePoints(s)[i + 1] == CodePoints(s[k..])[i];
  }

  /** The result contains XML characters only. */
  lemma {:induction false} ReplaceYieldsXmlChars(s: JString)
    ensures AllXmlChars(ReplaceXmlUnprintable(s))
    decreases |s|
  {
    var r := ReplaceXmlUnprintable(s);
    if |s| > 0 {
      if PairAt0(s) {
        ReplaceYieldsXmlChars(s[2..]);
        assert r[2..] == ReplaceXmlUnprintable(s[2..]);
        CodePointsCons(r, 2);
      } else {
        ReplaceYieldsXmlChars(s[1..]);
        assert r[1..] == ReplaceXmlUnprintable(s[1..]);
        assert !IsHigh(r[0]) by {
          if IsXmlChar(s[0] as int) { assert !IsSurrogate(s[0] as int); }
        }
        CodePointsCons(r, 1);
      }
    }
  }

  /** A string of XML characters is left alone. */
  lemma {:induction false} ReplaceKeepsXmlChars(s: JString)
    requires AllXmlChars(s)
    ensures ReplaceXmlUnprintable(s) == s
    decreases |s|
  {
    if |s| > 0 {
      if PairAt0(s) {
        CodePointsCons(s, 2);
        ReplaceKeepsXmlChars(s[2..]);
        assert s[..2] + s[2..] == s;
      } else {
        CodePointsCons(s, 1);
        ReplaceKeepsXmlChars(s[1..]);
        assert [s[0]] + s[1..] == s;
      }
    }
  }

  /** In a mixed string only the offending units change: "a\u0001" becomes
      "a\uFFFD", and of a high surrogate followed by a pair only the first,
      lone, high surrogate is replaced. */
  lemma MixedStringFiltered()
    ensures ReplaceXmlUnprintable([0x61, 0x1]) == [0x61, 0xFFFD]
    ensures ReplaceXmlUnprintable([0xD800, 0xD800, 0xDC00]) == [0xFFFD, 0xD800, 0xDC00]
  {
    var a: JString := [0x61, 0x1];
    var b: JString := [0xD800, 0xD800, 0xDC00];
    assert KeptAt(a, 0) && !KeptAt(a, 1);
    assert !KeptAt(b, 0) && KeptAt(b, 1) && KeptAt(b, 2);
  }

  /** The filter changes a string exactly when it holds a non-XML character,
      and applying it twice is applying it once. */
  lemma ReplaceXmlUnprintableFixpoints(s: JString)
    ensures ReplaceXmlUnprintable(s) == s <==> AllXmlChars(s)
    ensures ReplaceXmlUnprintable(ReplaceXmlUnprintable(s)) == ReplaceXmlUnprintable(s)
  {
    ReplaceYieldsXmlChars(s);
    ReplaceKeepsXmlChars(ReplaceXmlUnprintable(s));
    if AllXmlChars(s) {
      ReplaceKeepsXmlChars(s);
    }
  }
}

=== FILE: unicode.dfy ===
/**
  UTF-16 code units, code points and UTF-8 bytes, as the JDK's UTF-8 charset
  converts between them for `String.getBytes("UTF-8")` and `new String(bytes, "UTF-8")`,
  replacing malformed input.
*/
module Unicode {
  import opened JavaStrings

  /** One octet. */
  newtype Byte = x: int | 0 <= x < 256

  predicate IsHigh(u: Unit) { 0xD800 <= u <= 0xDBFF }
  predicate IsLow(u: Unit) { 0xDC00 <= u <= 0xDFFF }
  predicate IsSurrogate(c: int) { 0xD800 <= c <= 0xDFFF }

  /** A Unicode scalar value: a code point that is not a surrogate. */
  predicate IsScalar(c: int) { 0 <= c <= 0x10FFFF && !IsSurrogate(c) }

  /** The supplementary code point a surrogate pair stands for. */
  function PairValue(h: Unit, l: Unit): (c: int)
    requires IsHigh(h) && IsLow(l)
    ensures 0x10000 <= c <= 0x10FFFF
  {
    0x10000 + (h as int - 0xD800) * 1024 + (l as int - 0xDC00)
  }

  /** The string starts with a surrogate pair. */
  predicate PairAt0(s: JString) {
    |s| >= 2 && IsHigh(s[0]) && IsLow(s[1])
  }

  /** The code points Java iterates over: a high surrogate followed by a low
      one is one supplementary code point; any other unit, a lone surrogate
      included, is a code point of its own. */
  function CodePoints(s: JString): (r: seq<int>)
    ensures forall i :: 0 <= i < |r| ==> 0 <= r[i] <= 0x10FFFF
    ensures |r| <= |s|
    decreases |s|
  {
    if |s| == 0 then []
    else if PairAt0(s) then [PairValue(s[0], s[1])] + CodePoints(s[2..])
    else [s[0] as int] + CodePoints(s[1..])
  }

  /** Well-formed UTF-16: no lone surrogate. */
  predicate WellFormed(s: JString) {
    forall i :: 0 <= i < |CodePoints(s)| ==> !IsSurrogate(CodePoints(s)[i])
  }

  predicate AllScalars(cps: seq<int>) {
    forall i :: 0 <= i < |cps| ==> IsScalar(cps[i])
  }

  /** The UTF-16 encoding of scalar values. */
  function Utf16(cps: seq<int>): (s: JString)
    requires AllScalars(cps)
    decreases |cps|
  {
    if |cps| == 0 then []
    else
      var c := cps[0];
      var head: JString :=
        if c < 0x10000 then [c as Unit]
        else [(0xD800 + (c - 0x10000) / 1024) as Unit, (0xDC00 + (c - 0x10000) % 1024) as Unit];
      head + Utf16(cps[1..])
  }

  // ----- UTF-8 -----

  /** The UTF-8 encoding of one scalar value. */
  function EncodeScalar(c: int): (r: seq<Byte>)
    requires IsScalar(c)
    ensures 1 <= |r| <= 4
  {
    if c < 0x80 then [c as Byte]
    else if c < 0x800 then [(0xC0 + c / 64) as Byte, (0x80 + c % 64) as Byte]
    else if c < 0x10000 then
      [(0xE0 + c / 4096) as Byte, (0x80 + (c / 64) % 64) as Byte, (0x80 + c % 64) as Byte]
    else
      [(0xF0 + c / 262144) as Byte, (0x80 + (c / 4096) % 64) as Byte,
       (0x80 + (c / 64) % 64) as Byte, (0x80 + c % 64) as Byte]
  }

  /** `String.getBytes("UTF-8")`: every code point encoded, a lone surrogate
      replaced by the encoder's replacement byte '?'. */
  function EncodeUtf8(cps: seq<int>): seq<Byte>
    requires forall i :: 0 <= i < |cps| ==> 0 <= cps[i] <= 0x10FFFF
    decreases |cps|
  {
    if |cps| == 0 then []
    else
      var head := if IsSurrogate(cps[0]) then [0x3F as Byte] else EncodeScalar(cps[0]);
      head + EncodeUtf8(cps[1..])
  }

  predicate IsContinuation(b: Byte) { 0x80 <= b <= 0xBF }

  /** Decodes the first character of `b`: the scalar value and the number of
      bytes it took. A malformed prefix yields U+FFFD for its maximal valid
      subpart (at least one byte), except that the three-byte form of a
      surrogate (ED A0..BF and a continuation byte) is one replacement, and
      ED A0..BF without a third continuation byte is one replacement for two. */
  function DecodeOne(b: seq<Byte>): (r: (int, nat))
    requires |b| > 0
    ensures IsScalar(r.0)
    ensures 1 <= r.1 <= |b|
  {
    var b0 := b[0] as int;
    if b0 < 0x80 then (b0, 1)
    else if 0xC2 <= b0 <= 0xDF then
      if |b| >= 2 && IsContinuation(b[1]) then ((b0 - 0xC0) * 64 + (b[1] as int - 0x80), 2)
      else (0xFFFD, 1)
    else if 0xE0 <= b0 <= 0xEF then
      var lo := if b0 == 0xE0 then 0xA0 else 0x80;
      if |b| >= 2 && lo <= b[1] as int <= 0xBF then
        if |b| >= 3 && IsContinuation(b[2]) then
          // ED A0..BF xx is the form of a surrogate: one replacement for all three
          if b0 == 0xED && b[1] as int >= 0xA0 then (0xFFFD, 3)
          else ((b0 - 0xE0) * 4096 + (b[1] as int - 0x80) * 64 + (b[2] as int - 0x80), 3)
        else (0xFFFD, 2)
      else (0xFFFD, 1)
    else if 0xF0 <= b0 <= 0xF4 then
      var lo := if b0 == 0xF0 then 0x90 else 0x80;
      var hi := if b0 == 0xF4 then 0x8F else 0xBF;
      if |b| >= 2 && lo <= b[1] as int <= hi then
        if |b| >= 3 && IsContinuation(b[2]) then
          if |b| >= 4 && IsContinuation(b[3]) then
            ((b0 - 0xF0) * 262144 + (b[1] as int - 0x80) * 4096
              + (b[2] as int - 0x80) * 64 + (b[3] as int - 0x80), 4)
          else (0xFFFD, 3)
        else (0xFFFD, 2)
      else (0xFFFD, 1)
    else (0xFFFD, 1)
  }

  /** The encoded form of a surrogate decodes to a single U+FFFD; cut short
      after its second byte it still takes both bytes. */
  lemma EncodedSurrogateReplaced()
    ensures DecodeUtf8([0xED, 0xA0, 0x80]) == [0xFFFD]
    ensures DecodeUtf8([0xED, 0xA0, 0x41]) == [0xFFFD, 0x41]
    ensures DecodeUtf8([0xE0, 0x80, 0x80]) == [0xFFFD, 0xFFFD, 0xFFFD]
  {
    var a: seq<Byte> := [0xED, 0xA0, 0x80];
    assert DecodeOne(a) == (0xFFFD, 3);
    assert a[3..] == [];
    assert DecodeUtf8(a) == [0xFFFD] + DecodeUtf8([]);
    var b: seq<Byte> := [0xED, 0xA0, 0x41];
    var b2: seq<Byte> := [0x41];
    assert DecodeOne(b) == (0xFFFD, 2);
    assert b[2..] == b2;
    assert DecodeOne(b2) == (0x41, 1) && b2[1..] == [];
    assert DecodeUtf8(b2) == [0x41] + DecodeUtf8([]);
    assert DecodeUtf8(b) == [0xFFFD] + DecodeUtf8(b2);
    var c: seq<Byte> := [0xE0, 0x80, 0x80];
    var c1: seq<Byte> := [0x80, 0x80];
    var c2: seq<Byte> := [0x80];
    assert DecodeOne(c) == (0xFFFD, 1) && c[1..] == c1;
    assert DecodeOne(c1) == (0xFFFD, 1) && c1[1..] == c2;
    assert DecodeOne(c2) == (0xFFFD, 1) && c2[1..] == [];
    assert DecodeUtf8(c2) == [0xFFFD] + DecodeUtf8([]);
    assert DecodeUtf8(c1) == [0xFFFD] + DecodeUtf8(c2);
    assert DecodeUtf8(c) == [0xFFFD] + DecodeUtf8(c1);
  }

  /** `new String(bytes, "UTF-8")` as scalar values. */
  function DecodeUtf8(b: seq<Byte>): (r: seq<int>)
    ensures AllScalars(r)
    decreases |b|
  {
    if |b| == 0 then []
    else
      var (c, n) := DecodeOne(b);
      [c] + DecodeUtf8(b[n..])
  }

  // ----- round trips -----

  lemma DecodeEncodedScalar(c: int, rest: seq<Byte>)
    requires IsScalar(c)
    ensures DecodeOne(EncodeScalar(c) + rest) == (c, |EncodeScalar(c)|)
  {
    var b := EncodeScalar(c) + rest;
    if c < 0x80 {
    } else if c < 0x800 {
      assert b[0] as int == 0xC0 + c / 64 && b[1] as int == 0x80 + c % 64;
    } else if c < 0x10000 {
      assert b[0] as int == 0xE0 + c / 4096;
      assert b[1] as int == 0x80 + (c / 64) % 64;
      assert b[2] as int == 0x80 + c % 64;
      ThreeByteDigits(c);
    } else {
      assert b[0] as int == 0xF0 + c / 262144;
      assert b[1] as int == 0x80 + (c / 4096) % 64;
      assert b[2] as int == 0x80 + (c / 64) % 64;
      assert b[3] as int == 0x80 + c % 64;
      FourByteDigits(c);
    }
  }

  lemma ThreeByteDigits(c: int)
    requires 0x800 <= c < 0x10000 && !IsSurrogate(c)
    ensures c == (c / 4096) * 4096 + ((c / 64) % 64) * 64 + c % 64
    ensures c / 4096 == 0 ==> (c / 64) % 64 >= 0x20
    ensures c / 4096 == 13 ==> (c / 64) % 64 < 0x20
  {
  }

  lemma FourByteDigits(c: int)
    requires 0x10000 <= c <= 0x10FFFF
    ensures c == (c / 262144) * 262144 + ((c / 4096) % 64) * 4096 + ((c / 64) % 64) * 64 + c % 64
    ensures c / 262144 <= 4
    ensures c / 262144 == 0 ==> (c / 4096) % 64 >= 0x10
    ensures c / 262144 == 4 ==> (c / 4096) % 64 < 0x10
  {
  }

  /** Decoding undoes encoding on scalar values. */
  lemma {:induction false} DecodeEncode(cps: seq<int>)
    requires AllScalars(cps)
    ensures DecodeUtf8(EncodeUtf8(cps)) == cps
    decreases |cps|
  {
    if |cps| > 0 {
      var head := EncodeScalar(cps[0]);
      var tail := EncodeUtf8(cps[1..]);
      assert EncodeUtf8(cps) == head + tail;
      DecodeEncodedScalar(cps[0], tail);
      assert (head + tail)[|head|..] == tail;
      DecodeEncode(cps[1..]);
    }
  }

  lemma SurrogatePairDigits(c: int)
    requires 0x10000 <= c <= 0x10FFFF
    ensures 0xD800 <= 0xD800 + (c - 0x10000) / 1024 <= 0xDBFF
    ensures 0xDC00 <= 0xDC00 + (c - 0x10000) % 1024 <= 0xDFFF
    ensures c == 0x10000 + ((c - 0x10000) / 1024) * 1024 + (c - 0x10000) % 1024
  {
  }

  /** Reading UTF-16 back as code points undoes `Utf16`. */
  lemma {:induction false} CodePointsOfUtf16(cps: seq<int>)
    requires AllScalars(cps)
    ensures CodePoints(Utf16(cps)) == cps
    decreases |cps|
  {
    if |cps| > 0 {
      var c := cps[0];
      var rest := Utf16(cps[1..]);
      CodePointsOfUtf16(cps[1..]);
      if c < 0x10000 {
        assert Utf16(cps) == [c as Unit] + rest;
        assert !PairAt0([c as Unit] + rest);
        assert ([c as Unit] + rest)[1..] == rest;
      } else {
        SurrogatePairDigits(c);
        var h := (0xD800 + (c - 0x10000) / 1024) as Unit;
        var l := (0xDC00 + (c - 0x10000) % 1024) as Unit;
        assert Utf16(cps) == [h, l] + rest;
        assert PairAt0([h, l] + rest);
        assert ([h, l] + rest)[2..] == rest;
        assert PairValue(h, l) == c;
      }
    }
  }

  /** Whatever `Utf16` produces is well-formed. */
  lemma Utf16WellFormed(cps: seq<int>)
    requires AllScalars(cps)
    ensures WellFormed(Utf16(cps))
  {
    CodePointsOfUtf16(cps);
  }

  /** A well-formed string is the UTF-16 encoding of its code points. */
  lemma {:induction false} Utf16OfCodePoints(s: JString)
    requires WellFormed(s)
    ensures AllScalars(CodePoints(s))
    ensures Utf16(CodePoints(s)) == s
    decreases |s|
  {
    if |s| > 0 {
      if PairAt0(s) {
        var c := PairValue(s[0], s[1]);
        assert CodePoints(s) == [c] + CodePoints(s[2..]);
        assert WellFormed(s[2..]) by {
          forall i | 0 <= i < |CodePoints(s[2..])|
            ensures !IsSurrogate(CodePoints(s[2..])[i])
          {
            assert CodePoints(s[2..])[i] == CodePoints(s)[i + 1];
          }
        }
        Utf16OfCodePoints(s[2..]);
        SurrogatePairDigits(c);
        assert [c] + CodePoints(s[2..]) == CodePoints(s);
        assert Utf16(CodePoints(s)) == [s[0], s[1]] + s[2..];
      } else {
        var c := s[0] as int;
        assert CodePoints(s) == [c] + CodePoints(s[1..]);
        assert CodePoints(s)[0] == c;
        assert WellFormed(s[1..]) by {
          forall i | 0 <= i < |CodePoints(s[1..])|
            ensures !IsSurrogate(CodePoints(s[1..])[i])
          {
            assert CodePoints(s[1..])[i] == CodePoints(s)[i + 1];
          }
        }
        Utf16OfCodePoints(s[1..]);
        assert Utf16(CodePoints(s)) == [s[0]] + s[1..];
      }
    }
  }

  /** Encoding a string to UTF-8 and decoding it again gives the string back
      exactly when it has no lone surrogate. */
  lemma Utf8RoundTrip(s: JString)
    ensures Utf16(DecodeUtf8(EncodeUtf8(CodePoints(s)))) == s <==> WellFormed(s)
  {
    if WellFormed(s) {
      Utf16OfCodePoints(s);
      DecodeEncode(CodePoints(s));
    } else {
      Utf16WellFormed(DecodeUtf8(EncodeUtf8(CodePoints(s))));
    }
  }
}

=== FILE: values.dfy ===
/**
  Cell values and rows as the comparison engine sees them once a result set
  has been read into memory.
*/
module Values {
  import opened JavaStrings

  /** A `java.math.BigDecimal`: its exact numeric value, and the text its
      `toString()` produces (which also carries the scale). */
  datatype BigDec = BigDec(value: real, shown: JString)

  /** `BigDecimal.ZERO`. */
  const Zero: BigDec := BigDec(0.0, Lit("0"))

  /** One cell. `Other` stands for every remaining Java object (Integer,
      Long, Boolean, ...): its runtime class name and its `toString()`;
      two such values are `equals` exactly when class and text agree. */
  datatype Value =
    | Null
    | Str(s: JString)
    | Dec(d: BigDec)
    | Other(className: JString, shown: JString)

  /** One record: a value per column. */
  type Row = seq<Value>

  /** A record together with its position in the caller's (unsorted) list.
      The position replaces the identity lookup the source performs after sorting. */
  datatype Tagged = Tagged(index: nat, values: Row)

  /** Tags every record with its original position. */
  function Tag(rows: seq<Row>): (r: seq<Tagged>)
    ensures |r| == |rows|
    ensures forall i :: 0 <= i < |rows| ==> r[i] == Tagged(i, rows[i])
  {
    seq(|rows|, i requires 0 <= i < |rows| => Tagged(i, rows[i]))
  }

  /** The records of a tagged list, tags dropped. */
  function Untag(rows: seq<Tagged>): (r: seq<Row>)
    ensures |r| == |rows|
    ensures forall i :: 0 <= i < |rows| ==> r[i] == rows[i].values
  {
    seq(|rows|, i requires 0 <= i < |rows| => rows[i].values)
  }
}

=== FILE: wrappers.dfy ===
/** Option and Result, for Java's null and for the exceptions the modelled code throws. */
module Wrappers {

  /** A value that may be absent: Java's `null` reference. */
  datatype Option<+T> = None | Some(value: T)

  /** The outcome of an operation that either returns a value or throws. */
  datatype Result<+T, +E> = Ok(value: T) | Err(error: E)
}

=== FILE: xml_compare.dfy ===
/**
  `XMLCompareResults.compareResults`: routes one test outcome to the
  exception comparison, the result-set comparison, the "no results" checks
  or the update-count check, and applies the execution-time check after a
  full result-set comparison.
*/
module XmlCompare {
  import opened Wrappers
  import opened JavaStrings
  import opened Values
  import opened Failures
  import opened Outcomes
  import opened Policies
  import opened Identifiers
  import opened RowOrder
  import opened CellCompare
  import opened ResultSets
  import opened ExceptionCompare

  /** The states of a test result this comparison reads or writes. */
  datatype Status = TestException | ExpectedException | TimeLimitExceeded | OtherStatus(code: int)

  /** The exception a test result holds: one raised while the query ran
      (a Java exception always has a class name; its message may be null),
      or the failure the timing check records. */
  datatype Exc = Raised(className: JString, message: Option<JString>) | Recorded(failure: Failure)

  /** The parts of a test result the comparison and the result mode use. */
  datatype TestResult = TestResult(
    query: Option<JString>,
    status: Status,
    failureMessage: Message,
    exception: Option<Exc>,
    updateCount: int,
    executionMillis: int)

  /** The expected results as read from the expected-results file. */
  datatype Expected = Expected(
    exceptionExpected: bool,
    exception: Thrown,
    contains: bool,
    startsWith: bool,
    regex: bool,
    rows: seq<Row>,
    identifiers: seq<JString>,
    types: seq<JString>,
    updateCount: int,
    executionMillis: int)

  /** A result set once read: column names, column type names and records. */
  datatype ResultTable = ResultTable(identifiers: seq<JString>, types: seq<JString>, rows: seq<Row>)

  /** The actual side, shaped like the expected holder. */
  datatype Actual = Actual(rows: seq<Row>, identifiers: seq<JString>, types: seq<JString>,
                           updateCount: int, executionMillis: int)

  /** The update count a fresh holder reports until one is set. */
  const UnsetUpdateCount: int := -1

  /** The `(int)` cast of a Java `long`: the low 32 bits, read as signed. */
  function ToInt32(x: int): (r: int)
    ensures -0x8000_0000 <= r < 0x8000_0000
    ensures (r - x) % 0x1_0000_0000 == 0
    ensures -0x8000_0000 <= x < 0x8000_0000 ==> r == x
  {
    (x + 0x8000_0000) % 0x1_0000_0000 - 0x8000_0000
  }

  /** A count past 2^31 - 1 comes back negative. */
  lemma ToInt32Wraps()
    ensures ToInt32(0x8000_0000) == -0x8000_0000
    ensures ToInt32(0x1_0000_0005) == 5
  {
  }

  /** `convertResults`: without a result set only the update count is set
      (truncated to `int`); with one, its names, types and records. */
  function ConvertResults(table: Option<ResultTable>, updateCount: int, executionMillis: int): (a: Actual)
    ensures a.executionMillis == executionMillis
    ensures table.None? ==> a == Actual([], [], [], ToInt32(updateCount), executionMillis)
    ensures table.Some? ==> a.rows == table.value.rows && a.identifiers == table.value.identifiers
                            && a.types == table.value.types && a.updateCount == UnsetUpdateCount
  {
    if table.None? then Actual([], [], [], ToInt32(updateCount), executionMillis)
    else Actual(table.value.rows, table.value.identifiers, table.value.types, UnsetUpdateCount, executionMillis)
  }

  // ----- the execution-time check -----

  /** The timing check: only with a positive minimum, an expected time above
      it and a slower actual run; then the run is too slow when it exceeds the
      expected time by more than `exceedPercent` percent of it. */
  predicate TooSlow(p: Policy, actualMillis: int, expectedMillis: int) {
    && p.minimumMillis > 0 && expectedMillis > p.minimumMillis && actualMillis > expectedMillis
    && (actualMillis as real) - Allowance(p, expectedMillis) > expectedMillis as real
  }

  /** The time the check grants on top of the expected time:
      `exceedPercent / 100` of it. */
  function Allowance(p: Policy, expectedMillis: int): real {
    (expectedMillis as real) * (p.exceedPercent / 100.0)
  }

  /** The check in plain terms: too slow exactly when the actual time is more
      than (1 + percent/100) times an expected time above the minimum. */
  lemma TooSlowMeans(p: Policy, actualMillis: int, expectedMillis: int)
    ensures TooSlow(p, actualMillis, expectedMillis) <==>
              && p.minimumMillis > 0 && expectedMillis > p.minimumMillis && actualMillis > expectedMillis
              && (actualMillis as real) > (expectedMillis as real) * (1.0 + p.exceedPercent / 100.0)
  {
  }

  /** With the thresholds never set the check is off; with a minimum set
      but no percent (so the initial negative percent), any slower run above
      the minimum is too slow. */
  lemma TimingDefaults(minimum: int, actualMillis: int, expectedMillis: int)
    ensures !TooSlow(Initial, actualMillis, expectedMillis)
    ensures minimum > 0 && expectedMillis > minimum && actualMillis > expectedMillis ==>
              TooSlow(Initial.(minimumMillis := minimum), actualMillis, expectedMillis)
  {
  }

  /** The test result after a passing full comparison: marked as too slow
      (with the timing failure and its message, which show both times, the
      allowed fraction and the allowance, the difference being above the
      allowance) or left alone. */
  function CheckTiming(p: Policy, result: TestResult, actualMillis: int, expectedMillis: int): (r: TestResult)
    ensures TooSlow(p, actualMillis, expectedMillis) ==>
              && r.status == TimeLimitExceeded
              && r.updateCount == result.updateCount && r.executionMillis == result.executionMillis
    ensures TooSlow(p, actualMillis, expectedMillis) ==>
              var fraction := p.exceedPercent / 100.0;
              var allowance := Allowance(p, expectedMillis);
              && r.exception == Some(Recorded(TimeExceeded(actualMillis, expectedMillis, fraction, allowance)))
              && r.failureMessage == TimeDetail(actualMillis, expectedMillis, fraction, allowance)
              && (actualMillis - expectedMillis) as real > allowance
    ensures !TooSlow(p, actualMillis, expectedMillis) ==> r == result
  {
    if TooSlow(p, actualMillis, expectedMillis) then
      var fraction := p.exceedPercent / 100.0;
      var allowance := Allowance(p, expectedMillis);
      result.(status := TimeLimitExceeded,
              exception := Some(Recorded(TimeExceeded(actualMillis, expectedMillis, fraction, allowance))),
              failureMessage := TimeDetail(actualMillis, expectedMillis, fraction, allowance))
    else result
  }

  // ----- the full comparison -----

  /** The foreign pieces the comparison consults: the row comparator, the
      regular expressions, the "blob" type mapping, the line separator, the
      divergence setting, the decimal parser, and `MessageFormat`'s verdict
      on string-mismatch messages. */
  datatype Environment = Environment(
    order: Order,
    regex: RegexEngine,
    blobName: BlobTypeName,
    lineSeparator: JString,
    divergenceSetting: Option<JString>,
    parseDecimal: JString -> Option<BigDec>,
    formatAccepts: FormatAccepts)

  /** The private `compareResults`: both lists sorted (on tagged copies, so
      the caller's lists stay as they were) unless the query is ordered or a
      side is empty; then `compareResultSets`; then, only when that passed,
      the timing check. */
  function CompareFull(env: Environment, p: Policy, result: TestResult, actual: Actual, expected: Expected, isOrdered: bool)
    : (r: (Outcome, TestResult, Policy))
    ensures r.2.exceedPercent == p.exceedPercent && r.2.minimumMillis == p.minimumMillis
    ensures !r.0.Pass? ==> r.1 == result
    ensures r.0.Pass? ==> r.1 == CheckTiming(p, result, actual.executionMillis, expected.executionMillis)
    ensures isOrdered || |actual.rows| == 0 || |expected.rows| == 0 ==>
              (r.0, r.2) == ResultSetsOutcome(p, env.divergenceSetting, env.parseDecimal, env.formatAccepts,
                                              Tag(actual.rows), actual.types, actual.identifiers,
                                              Tag(expected.rows), expected.types, expected.identifiers, env.blobName)
    ensures !isOrdered && |actual.rows| > 0 && |expected.rows| > 0 ==>
              (r.0, r.2) == ResultSetsOutcome(p, env.divergenceSetting, env.parseDecimal, env.formatAccepts,
                                              SortRecords(Tag(actual.rows), env.order), actual.types, actual.identifiers,
                                              SortRecords(Tag(expected.rows), env.order), expected.types, expected.identifiers, env.blobName)
  {
    var arranged := Arrange(isOrdered, Tag(actual.rows), Tag(expected.rows), env.order);
    var sets := ResultSetsOutcome(p, env.divergenceSetting, env.parseDecimal, env.formatAccepts,
                                  arranged.0, actual.types, actual.identifiers,
                                  arranged.1, expected.types, expected.identifiers, env.blobName);
    if sets.0.Pass? then (sets.0, CheckTiming(p, result, actual.executionMillis, expected.executionMillis), sets.1)
    else (sets.0, result, sets.1)
  }

  /** The public `compareResults`. A test that raised an exception fails
      unless one was expected; otherwise its status becomes "expected
      exception" and the exceptions are compared. Any other test has its
      result converted, then fails if an exception was expected, is fully
      compared if rows were expected, fails if rows came though none were
      expected, and otherwise compares update counts when one is expected.
      Returns the outcome, the test result as updated, and the policy. */
  function CompareResults(env: Environment, p: Policy, result: TestResult, expected: Expected,
                          table: Option<ResultTable>, isOrdered: bool): (r: (Outcome, TestResult, Policy))
    ensures result.status.TestException? && !expected.exceptionExpected ==>
              r == (Fail(UnexpectedException(result.failureMessage)), result, p)
    ensures result.status.TestException? && expected.exceptionExpected ==>
              && r.1 == result.(status := ExpectedException) && r.2 == p
              && (result.exception.None? || result.exception.value.Recorded? ==> r.0 == Aborted(NullReference))
              && (result.exception.Some? && result.exception.value.Raised? ==>
                    r.0 == CompareExceptions(Thrown(Some(result.exception.value.className), result.exception.value.message),
                                             expected.exception, ModeOf(expected.contains, expected.startsWith, expected.regex),
                                             env.lineSeparator, env.regex))
    ensures !result.status.TestException? ==>
              var actual := ConvertResults(table, result.updateCount, result.executionMillis);
              && (expected.exceptionExpected ==>
                    r == (Fail(ExpectedExceptionNotThrown(expected.exception.className, |actual.rows|)), result, p))
              && (!expected.exceptionExpected && |expected.rows| > 0 ==>
                    r == CompareFull(env, p, result, actual, expected, isOrdered))
              && (!expected.exceptionExpected && |expected.rows| == 0 && |actual.rows| > 0 ==>
                    r == (Fail(ExpectedNoResults(|actual.rows|)), result, p))
              && (!expected.exceptionExpected && |expected.rows| == 0 && |actual.rows| == 0 ==>
                    && r.1 == result && r.2 == p
                    && (r.0.Pass? <==> expected.updateCount <= -1 || expected.updateCount == actual.updateCount)
                    && (!r.0.Pass? ==> r.0 == Fail(UpdateCountMismatch(expected.updateCount, actual.updateCount))))
  {
    if result.status.TestException? then
      if !expected.exceptionExpected then (Fail(UnexpectedException(result.failureMessage)), result, p)
      else
        var marked := result.(status := ExpectedException);
        if result.exception.None? || result.exception.value.Recorded? then (Aborted(NullReference), marked, p)
        else
          var thrown := Thrown(Some(result.exception.value.className), result.exception.value.message);
          var mode := ModeOf(expected.contains, expected.startsWith, expected.regex);
          (CompareExceptions(thrown, expected.exception, mode, env.lineSeparator, env.regex), marked, p)
    else
      var actual := ConvertResults(table, result.updateCount, result.executionMillis);
      if expected.exceptionExpected then
        (Fail(ExpectedExceptionNotThrown(expected.exception.className, |actual.rows|)), result, p)
      else if |expected.rows| > 0 then CompareFull(env, p, result, actual, expected, isOrdered)
      else if |actual.rows| > 0 then (Fail(ExpectedNoResults(|actual.rows|)), result, p)
      else if expected.updateCount > -1 && expected.updateCount != actual.updateCount then
        (Fail(UpdateCountMismatch(expected.updateCount, actual.updateCount)), result, p)
      else (Pass, result, p)
  }

  /** A raised exception always carries a class name, so the routed
      exception comparison never reports "got none". */
  lemma RoutedExceptionHasClass(env: Environment, p: Policy, result: TestResult, expected: Expected,
                                table: Option<ResultTable>, isOrdered: bool)
    requires result.status.TestException?
    ensures var r := CompareResults(env, p, result, expected, table, isOrdered);
      !(r.0.Fail? && r.0.failure.NoActualException?)
  {
  }

  /** The status becomes "execution time exceeded" only through a full
      comparison that passed and was too slow; a status of "exception"
      always leaves as "expected exception" or unchanged. */
  lemma TimeExceededOnlyAfterPass(env: Environment, p: Policy, result: TestResult, expected: Expected,
                                  table: Option<ResultTable>, isOrdered: bool)
    requires !result.status.TimeLimitExceeded?
    ensures var r := CompareResults(env, p, result, expected, table, isOrdered);
      r.1.status.TimeLimitExceeded? ==>
        && r.0.Pass? && !result.status.TestException? && !expected.exceptionExpected && |expected.rows| > 0
        && TooSlow(p, result.executionMillis, expected.executionMillis)
  {
  }

  /** A test with no rows on either side and no expected update count passes,
      whatever the actual update count. */
  lemma NoRowsNoCount(env: Environment, p: Policy, result: TestResult, expected: Expected, isOrdered: bool)
    requires !result.status.TestException? && !expected.exceptionExpected
    requires |expected.rows| == 0 && expected.updateCount == -1
    ensures CompareResults(env, p, result, expected, None, isOrdered) == (Pass, result, p)
  {
  }
}
